=== FILE: README.md ===
# Crosstab report automation — a Dafny model

The repository reads a survey crosstab workbook and cuts each sheet into
tables. It exports those tables as a PowerPoint deck: one chart slide per
table, optionally with a text table under the chart. Every exported shape is
tagged with a `key: value` alt text. Later, the deck is refreshed from a new
workbook: charts, tables and the question and base boxes are rewritten from
the matching table. A mapping helper lists the shapes of a deck with their
mapping status, writes a template of mappings, applies mappings as alt texts,
and validates them against a workbook.

This project models that logic over plain datatypes:

- **Cells.** A sheet is a rectangular grid of cells: missing (NaN), a
  number, or a text.
- **Numbers.** A number is an integer count of tenths. Python's
  `f"{v:.1f}"` and `round` then become exact integer arithmetic.
- **Shapes and slides.** A shape is a name, an alt text and its content: a
  chart's data, a table's cell texts, a text box's text, or anything else.
  A slide is a sequence of shapes.

The model is split into modules:

| module | file | models |
|---|---|---|
| `Common` | common.dfy | `Option`, truthiness, `list.index`, filtered index lists |
| `Text` | text.dfy | `str.strip`, `str.lower` (ASCII letters), `_norm`, `startswith`, `split(":", 1)`, `splitlines`, `"\n".join` |
| `Numbers` | numbers.dfy | decimal printing and reading, `f"{v:.1f}"`, `round` |
| `Grid` | grid.dfy | non-null counts and `_strip_edges` |
| `Blocks` | blocks.dfy | `_find_blocks` |
| `Crosstab` | crosstab.dfy | the per-block reading of `parse_workbook` |
| `AltText` | alttext.dfy | the `key: value` encoder, both decoders, the name fallback and the `_tag_shape` maps |
| `Deck` | deck.dfy | shapes, slides, `_find_shape` |
| `Refresh` | refresh.dfy | the rules of `deck_update.py` |
| `Export` | export.dfy | the rules of `pptx_exporter.py` |
| `Mapping` | mapping.dfy | the rules of `mapping_helper.py` |
| `Interplay` | interplay.dfy | properties that span files: exporter against updater, exporter against mapping helper |

**The exporter and the updater use different alt text keys.** The exporter
tags each shape with `table_title` and `column` (pptx_exporter.py:142-185).
When a shape name gives no tag, the updater falls back only to the keys
`table_key` and `col` (deck_update.py:172-177). So the updater can bind an
exported shape to a table only through a `CHART:` or `TABLE:` shape name,
never through its alt text. `Interplay.ExportedTagUnbound` states this.

## Model

| member | source | states |
|---|---|---|
| Common.IndexOf | deck_update.py:38-39 | `list.index`: the position holds the item and no earlier position does |
| Common.KeptIndices | pptx_exporter.py:259-260 | the positions below `n` outside the excluded set, strictly increasing, and every such position is listed |
| Common.Keep | deck_update.py:49-52 | keeps, in their order, exactly the elements at positions outside the excluded set |
| Text.LowerIdempotent | deck_update.py:11 | lower-casing twice is lower-casing once |
| Text.TrimLeftFacts | deck_update.py:11 | left strip drops exactly a leading run of whitespace and stops at a non-space |
| Text.TrimRightFacts | deck_update.py:11 | right strip drops exactly a trailing run of whitespace and stops at a non-space |
| Text.StripFacts | deck_update.py:22 | `strip()` is no longer than its input and neither starts nor ends with whitespace |
| Text.StripStripped | mapping_helper.py:197 | stripping a stripped string changes nothing |
| Text.CollapseFacts | deck_update.py:11 | `re.sub(r"\s+", " ", s)` is empty iff `s` is, starts with a space iff `s` starts with whitespace, and has no two adjacent whitespace characters |
| Text.CollapseSingleSpaced | deck_update.py:11 | collapsing a string with no whitespace runs changes nothing |
| Text.NormIsNormal | deck_update.py:10-11 | `_norm` yields lower case, no edge whitespace and single spaces only |
| Text.NormalFormFixed | deck_update.py:10-11 | a string already in that form is its own `_norm` |
| Text.NormIdempotent | deck_update.py:10-11 | `_norm(_norm(s)) == _norm(s)` |
| Text.StripLowerPrefixNorm | pptx_exporter.py:243-244 | when `strip().lower()` starts with a prefix free of whitespace, so does `_norm` |
| Text.SplitFirst | deck_update.py:21 | `split(":", 1)`: the first part holds no colon and the parts rejoin around the colon |
| Text.SplitFirstAt | deck_update.py:21 | splitting `w + ":" + f` with no colon in `w` gives back `w` and `f` |
| Text.LineEnd | deck_update.py:19 | the end of the first line is the first line-break character |
| Text.SplitLinesCons | deck_update.py:19 | `splitlines` of a one-line prefix, a newline and the rest is that line followed by the lines of the rest |
| Text.SplitJoin | pptx_exporter.py:96 | `splitlines` of the `"\n"`-join of non-empty one-line strings gives back those strings |
| Numbers.NatToString | mapping_helper.py:43 | the decimal form of a number is a non-empty digit string |
| Numbers.DigitsRoundTrip | mapping_helper.py:43 | reading back the decimal form gives the number |
| Numbers.NatToStringInjective | mapping_helper.py:43 | distinct numbers print differently |
| Numbers.IntRoundTrip | deck_update.py:143 | the printed base count reads back as the same integer |
| Numbers.DecimalRoundTrip | pptx_exporter.py:203 | a value printed with one decimal reads back, through the spreadsheet's numeric coercion, as the same value |
| Numbers.RoundHalfEven | deck_update.py:137 | `round()` is within half a unit and sends ties to the even neighbour |
| Numbers.FormatValue | pptx_exporter.py:203 | a cell text is empty exactly when the value is missing |
| Numbers.FormatAsWritten | deck_update.py:107 | as written, a NaN value prints as `nan`; any other value prints as the corrected formatter does |
| Grid.RowCountZero | crosstab_parser.py:7 | a row has no non-null cell iff all its cells are NaN |
| Grid.CellCountAppend | crosstab_parser.py:16 | the non-null count of stacked rows is the sum of the counts |
| Grid.CellCountMiddle | crosstab_parser.py:24-27 | dropping empty rows at either end keeps the non-null count |
| Grid.RowCountSlice | crosstab_parser.py:28-31 | dropping empty cells at either end of a row keeps its non-null count |
| Grid.Crop | crosstab_parser.py:62 | `iloc` cut: each row is the matching row of the frame, sliced to the column range |
| Grid.CropKeepsCount | crosstab_parser.py:21-32 | cutting away only empty rows and columns keeps the non-null count |
| Grid.LeadingBlankRows | crosstab_parser.py:24-25 | the first loop skips exactly the leading empty rows |
| Grid.TrailingBlankRows | crosstab_parser.py:26-27 | the second loop skips exactly the trailing empty rows |
| Grid.LeadingBlankColumns | crosstab_parser.py:28-29 | the third loop skips exactly the leading empty columns of the remaining rows |
| Grid.TrailingBlankColumns | crosstab_parser.py:30-31 | the fourth loop skips exactly the trailing empty columns |
| Grid.StripBox | crosstab_parser.py:21-32 | the kept rectangle lies inside the frame; everything outside it is empty; its edge rows and columns are not |
| Grid.ColumnLoops | crosstab_parser.py:28-31 | when rows remain and the first is not empty, at least one column remains |
| Grid.StripEdges | crosstab_parser.py:21-32 | `_strip_edges` keeps a rectangle with the same non-null count; no rows iff no columns; when non-empty, its first and last rows and columns each hold a value |
| Grid.StripBoxOfFramed | crosstab_parser.py:21-32 | a frame whose edges all hold values is kept whole |
| Grid.StripIdempotent | crosstab_parser.py:21-32 | stripping twice is stripping once |
| Blocks.CloseRun | crosstab_parser.py:13-14 | the run closed at an empty row, or at the sentinel, is maximal: non-empty rows bounded by empty rows |
| Blocks.Scan | crosstab_parser.py:10-18 | every block found from a point on is a maximal dense run starting there or later, and blocks are separated by empty rows |
| Blocks.ScanComplete | crosstab_parser.py:10-18 | every maximal dense run from that point on is found |
| Blocks.FindBlocks | crosstab_parser.py:6-19 | `_find_blocks` returns exactly the maximal runs of non-empty rows with at least ten values, two rows and two sheet columns, in order, each ending at least one empty row before the next starts |
| Blocks.SeparatedOrdered | crosstab_parser.py:6-19 | any two returned blocks are disjoint and in order, with an empty row between them |
| Crosstab.ToNumber | crosstab_parser.py:81 | `to_numeric(errors="coerce")`: NaN stays NaN, a number stays that number, a text becomes a number or NaN without failing |
| Crosstab.FindHeader | crosstab_parser.py:69-72 | the scan finds the first of the leading rows with two or more values |
| Crosstab.HeaderRow | crosstab_parser.py:67-74 | the header is the first of the first `min(5, rows)` rows with two or more values, else row 0 |
| Crosstab.FirstFilledRow | crosstab_parser.py:86-90 | the title scan stops at the first row above the header that has a value |
| Crosstab.FirstFilled | crosstab_parser.py:87-89 | `dropna()[0]` is the first non-null cell of the row |
| Crosstab.TitleOf | crosstab_parser.py:84-92 | the title is the text of the first value above the header, or `"<sheet> table <bi>"` when there is none or it is empty; never empty |
| Crosstab.IdInjective | crosstab_parser.py:95 | two ids `"<sheet>#<bi>"` are equal only for the same sheet and ordinal |
| Crosstab.TableOf | crosstab_parser.py:76-104 | labels and values line up: rows after the header give the row labels and value rows, the columns after the first give the column labels |
| Crosstab.BlockFrame | crosstab_parser.py:62-63 | the block is cut from the sheet and stripped, keeping its non-null count |
| Grid.StrippedSits | crosstab_parser.py:62-63 | a cut of the frame, stripped, is the part of the frame at the stripped offset, inside the cut |
| Crosstab.BlockSits | crosstab_parser.py:62-63 | the stripped block is the part of the sheet that starts at its stripped offset and ends inside the block |
| Crosstab.TableCells | crosstab_parser.py:61-82 | in sheet coordinates, inside the block: each column label is the text of the header cell above its column, each row label the text of the label cell of its row, each value the coerced number of its cell |
| Crosstab.BuildTable | crosstab_parser.py:62-65 | a block that strips to fewer than two rows or columns gives no table; otherwise a well-shaped table with the block's id and bounds |
| Crosstab.TablesFrom | crosstab_parser.py:61-105 | every table of a sheet comes from one of its blocks, with that block's ordinal as id, and ids are distinct |
| Crosstab.TablesFromBuilt | crosstab_parser.py:61-105 | the tables from the k-th block on are exactly the tables built from those blocks, in block order, skipping only the blocks that give none |
| Crosstab.SheetTablesBuilt | crosstab_parser.py:58-105 | a sheet's tables are exactly the tables built from its blocks, in block order, with ordinals from 1 |
| Crosstab.SheetTables | crosstab_parser.py:58-105 | the tables of one sheet come from `_find_blocks`, carry the sheet's name and have distinct ids |
| Crosstab.ParseWorkbook | crosstab_parser.py:34-107 | every table is well shaped, belongs to a sheet of the workbook and has an id built from its sheet |
| Crosstab.WorkbookFlattens | crosstab_parser.py:57-107 | the workbook's tables are each sheet's tables in turn, sheets in workbook order |
| Common.SomesComplete | crosstab_parser.py:64-105 | every block that gives a table has that table in the list |
| Common.SomesOrdered | crosstab_parser.py:64-105 | tables of two blocks appear in the blocks' order |
| Common.FlattenPrefix | crosstab_parser.py:57-105 | the tables of the first sheets are a prefix of the workbook's tables |
| Common.FlattenSpan | crosstab_parser.py:57-105 | each sheet's tables sit, unchanged and contiguous, right after the tables of the sheets before it |
| Crosstab.WorkbookIdsDistinct | crosstab_parser.py:58-95 | with distinct sheet names, all table ids of the workbook are distinct |
| AltText.Written | pptx_exporter.py:92-94 | the m-th written pair is the key and value of the m-th entry whose value is neither None nor `""`, in the dict's order; nothing else is written |
| AltText.ToMapKeys | deck_update.py:22 | the dict built from pairs has exactly the pairs' keys |
| AltText.DecodeAlt | deck_update.py:13-23 | every key read by `_parse_alt_text` is in `_norm` form |
| AltText.DecodeLastWins | deck_update.py:19-22 | a key keeps the value of the last line that sets it |
| AltText.DecodeOnlySet | deck_update.py:19-22 | a key no line sets is absent |
| AltText.LineRead | deck_update.py:20-22 | a written line `k: v` with a writable key reads back as key `k` and value `strip(v)` |
| AltText.DecodeEncoded | pptx_exporter.py:91-96 | the updater's reader, on the encoder's output, gives the written pairs with stripped values, last one winning |
| AltText.RoundTrip | pptx_exporter.py:91-96 | with normalised colon-free keys and stripped one-line values, decoding the encoding gives back the map of the written entries |
| AltText.ValidationKey | mapping_helper.py:196-197 | the validator's key is the stripped text before the first colon |
| AltText.ValidationParse | mapping_helper.py:193-197 | every key the validator reads is stripped |
| AltText.ValidationLastWins | mapping_helper.py:194-197 | a key keeps the value of the last kept line that sets it |
| AltText.ValidationOnlySet | mapping_helper.py:194-197 | a key no kept line sets is absent |
| AltText.RuleSkipped | mapping_helper.py:195 | a line starting with `---` is skipped wherever it stands |
| AltText.LineNotRule | mapping_helper.py:195 | a line whose key does not start with `---` is not skipped as a rule |
| AltText.ValidationLineRead | mapping_helper.py:195-197 | a written line reads back through the validator as its key and stripped value |
| AltText.ReadersAgree | mapping_helper.py:193-197 | on the encoder's output with normalised keys, the validator and the updater read the same map |
| AltText.ReadersDiffer | deck_update.py:22 | a key with an upper-case letter is read by the validator but not found by the updater under that key |
| AltText.Replace | pptx_exporter.py:130 | every character of the result comes from the replacement or is a kept character other than the replaced one |
| AltText.NameFallback | pptx_exporter.py:127-131 | the fallback name starts with `MAPPED_`, is at most 107 long, holds no colon and no newline after the prefix, and is the first 100 characters of a plain alt text |
| AltText.ChartTag | pptx_exporter.py:142-151 | the chart tag has distinct keys: type chart, the title, the column, both bindings and auto_update yes |
| AltText.TableTag | pptx_exporter.py:153-161 | the table tag has distinct keys: type table, the title, the column, auto_update yes, and no bindings |
| AltText.TextTag | pptx_exporter.py:163-185 | a text tag has distinct keys: its type, the title, the column, auto_update yes, and no bindings |
| AltText.TagEntries | pptx_exporter.py:138-185 | an unknown object type writes nothing; a known one writes its type, the title, the column defaulting to `Total`, auto_update yes, and bindings only for charts |
| Deck.FindShape | deck_update.py:112-116 | `_find_shape` returns the first shape with the name, or none when no shape has it |
| Refresh.ExcludeIndices | deck_update.py:25-30 | a row is excluded iff its normalised label starts with base, mean, average or avg |
| Refresh.ExcludedByNorm | deck_update.py:28 | labels with the same `_norm` are excluded alike |
| Refresh.RowIndexMap | deck_update.py:32-33 | each normalised label maps to a row with that label, and to its last occurrence |
| Refresh.FallbackIdx | deck_update.py:40-43 | the first of Total, Overall, All, Base present wins, at its first position; otherwise column 0 |
| Refresh.ChooseColIdx | deck_update.py:35-43 | no column iff there are no labels; a present key wins at its first position; then the fallbacks in order; then 0 |
| Refresh.SeriesUpTo | deck_update.py:49-57 | the series lists the non-excluded rows in order, each with its value at the column, or a gap |
| Refresh.SeriesKeepsRows | deck_update.py:45-58 | the series from a table has the non-excluded labels, in order, each with its own row's value |
| Refresh.ExplicitUpTo | deck_update.py:68-77 | explicit rows keep the caller's text and keep exactly the labels that name a known, non-excluded row, each with that row's value |
| Refresh.ExplicitOrder | deck_update.py:68-77 | the k-th explicit category is the k-th usable name of the caller's list, so order and repeats are kept |
| Refresh.ChartRefresh | deck_update.py:60-83 | categories and values have equal length; the series is named by the key, or `Series` when there are no columns, and then all values are gaps |
| Refresh.ChartOmitsExcluded | deck_update.py:63-79 | without explicit rows the chart shows every non-excluded row and no excluded one |
| Refresh.ExplicitChartRows | deck_update.py:65-77 | with explicit rows the chart's categories are the caller's known, non-excluded names, in the caller's order with repeats; no excluded row is shown |
| Refresh.RefreshGridWith | deck_update.py:86-110 | the header row and label column are kept; every body cell is recomputed from its header and row label |
| Refresh.RefreshGrid | deck_update.py:90-110 | a body cell is empty iff its header names no column, its label names no row, or the value is missing; otherwise it shows the value with one decimal |
| Refresh.RefreshGridAsWritten | deck_update.py:104-107 | as written, a body cell whose value is NaN shows `nan` |
| Refresh.NanCellAsWritten | deck_update.py:107 | a table with a NaN value refreshes to `nan` as written and to an empty cell when corrected |
| Refresh.QuestionText | deck_update.py:122 | the question box reads `Question: ` followed by the table title |
| Refresh.BaseIndex | deck_update.py:128-132 | the base row is the first whose normalised label starts with base |
| Refresh.BaseCount | deck_update.py:124-139 | a base count exists exactly when the base row, the Total-rule column and a value there exist; it is within half a unit of that value, and a tie goes to the even count |
| Refresh.BaseTextRoundTrip | deck_update.py:140-146 | the base sentence reads back as the count it was written from, or as no count for the short sentence |
| Refresh.BaseRowExcluded | deck_update.py:128-132 | the base row is always among the rows a chart excludes |
| Refresh.NameTags | deck_update.py:161-170 | only a `CHART:` or `TABLE:` name carries tags, and only a `CHART:` name carries a column |
| Refresh.ChartNameTags | deck_update.py:161-166 | `CHART:key:col` gives back the key and the column |
| Refresh.TableNameTags | deck_update.py:167-170 | `TABLE:key` gives back the key |
| Refresh.Resolve | deck_update.py:158-178 | a truthy name tag wins; only an empty one falls back to the alt keys `table_key` and `col`; the bindings come from the alt text |
| Refresh.TitleIndex | deck_update.py:151 | each normalised title maps to a table with that title, and to its last occurrence |
| Refresh.ExactTitle | deck_update.py:185 | the exact-title fallback finds the first table with exactly that title, or none exists |
| Refresh.FallbackNeverUsed | deck_update.py:183-186 | whenever the exact-title fallback would find a table, the normalised lookup already has |
| Refresh.FindTableLastWins | deck_update.py:151-186 | a key finds no table iff no title normalises like it; otherwise it finds the last such table |
| Refresh.FindTable | deck_update.py:183-187 | the table found is one of the parsed tables |
| Refresh.SetText | deck_update.py:118-122 | only the first shape with the bound name changes, only when it is a text box, and it then holds the text |
| Refresh.ApplyTextsWrites | deck_update.py:118-146 | only the bound question and base boxes change; the question box reads the question text and the base box the base sentence |
| Refresh.RefreshContent | deck_update.py:189-194 | a chart or table keeps its kind; any other content is untouched |
| Refresh.UpdateShape | deck_update.py:180-194 | a shape with no table, or that is neither chart nor table, changes nothing; names, alt texts and kinds are kept |
| Refresh.UpdateShapeRefreshes | deck_update.py:189-194 | a bound chart or table ends up with the content refreshed from its table |
| Refresh.UpdateFrom | deck_update.py:154-194 | the loop over a slide's shapes keeps every name, alt text and kind |
| Refresh.UpdateSlides | deck_update.py:148-197 | the refreshed deck has the same slides with the same shapes, names, alt texts and kinds |
| Export.ChartTypeMap | pptx_exporter.py:67-77 | the lower-cased kind selects bar, doughnut or line from its list; anything else, including none, is a column chart |
| Export.ChartTypeCaseInsensitive | pptx_exporter.py:68 | kinds that lower-case alike map alike |
| Export.FirstBaseFrom | pptx_exporter.py:232-236 | the scan finds the first row whose stripped lower-cased label starts with base |
| Export.ExportExclusions | pptx_exporter.py:231-245 | a row is excluded iff it starts with mean, average or avg, or it is the first row starting with base |
| Export.TotalIdx | pptx_exporter.py:251-255 | the series column is the first `Total`, else column 0, and none only without columns |
| Export.ChartFrom | pptx_exporter.py:257-263 | categories are the kept labels in order; values are each kept row's series value, or a gap, or all 0 without columns; the series is `Total` or `Series` |
| Export.ExportChartRows | pptx_exporter.py:231-263 | the exported chart shows no mean or average row and every row that is neither that nor the first base row |
| Export.BodyRow | pptx_exporter.py:200-203 | a body row starts with its label; cells past the row's values are empty and values past the last column are ignored |
| Export.ExportGridWith | pptx_exporter.py:187-203 | the grid is one row and one column larger than the table, with an empty corner, column labels on top, row labels down the side and each value under its column |
| Export.ExportGrid | pptx_exporter.py:200-203 | an exported body cell is empty iff the value is missing or past the row's end |
| Export.ExportGridAsWritten | pptx_exporter.py:203 | as written, a NaN value shows `nan` |
| Export.NanCellExported | pptx_exporter.py:203 | a table with a NaN value exports `nan` as written and an empty cell when corrected |
| Export.Shapes | pptx_exporter.py:216-323 | of the shapes the exporter adds to a slide, the title box comes first |
| Export.AddChartSlide | pptx_exporter.py:216-323 | the slide's heading is the given title or the table's; the question box exists iff a question is given; the chart is the exported chart tagged with its series name; the table and base boxes exist iff asked for |
| Export.DefaultKindIsBar | pptx_exporter.py:356 | the default kind `bar_h` is a horizontal bar chart |
| Export.TableSlide | pptx_exporter.py:354-371 | a missing chart type gives a bar chart; a chart+table variant gives a bar chart with the grid; an empty title override falls back to the table title |
| Export.ExportDeckSlides | pptx_exporter.py:342-371 | the deck is the untagged report title slide followed by each table's slide in input order |
| Mapping.KindOf | mapping_helper.py:51-59 | chart wins, then table, then a text box with non-blank text, else other |
| Mapping.KindOfContent | mapping_helper.py:24-59 | each content kind is classified as its own kind; a blank text box counts as other |
| Mapping.DisplayName | mapping_helper.py:43 | a shape's name is kept when non-empty, and the listed name is never empty |
| Mapping.UnderscoreSplit | mapping_helper.py:43 | the slide number before the first underscore can be read back |
| Mapping.UnnamedDistinct | mapping_helper.py:43 | two unnamed shapes at different positions get different names |
| Mapping.StatusOf | mapping_helper.py:90-95 | mapped iff the alt text is non-empty and holds `table_title:` or `type:`; named-but-unmapped iff non-empty without both markers and the name has a mapping prefix; empty alt text is unmapped |
| Mapping.SlideInfos | mapping_helper.py:23-97 | one entry per shape of the slide, numbered from 1 |
| Mapping.ListShapes | mapping_helper.py:17-99 | the listing has one entry per shape, slide by slide in order, with 1-based slide and shape numbers |
| Mapping.TemplateEntries | mapping_helper.py:126-133 | a template entry has distinct keys: the type, the placeholder title, the exclusions and auto_update yes, and a column of `Total` only for charts |
| Mapping.Template | mapping_helper.py:123-133 | the template holds, in order, one entry for each chart or table shape and none for any other |
| Mapping.TemplateCovers | mapping_helper.py:123-124 | every chart or table shape has its entry in the template |
| Mapping.TemplateItems | mapping_helper.py:126-133 | every template entry carries a type and the placeholder title |
| Mapping.MappingsOf | mapping_helper.py:121-135 | the mapping dict has a key for every item, and each value is an item for that key |
| Mapping.MappingsLastWins | mapping_helper.py:121-135 | a name given twice keeps the last item's dict, as a Python dict literal does |
| Mapping.ApplyShape | mapping_helper.py:156-167 | a named shape with a mapping that writes a line gets the encoded lines as its alt text; any other shape is untouched; name and content never change |
| Mapping.ApplyMappings | mapping_helper.py:154-167 | every slide keeps its shapes in place, each with the mapping applied |
| Mapping.ApplyIdempotent | mapping_helper.py:154-167 | applying the same mappings twice is applying them once |
| Mapping.AppliedReadBack | mapping_helper.py:160-167 | the updater reads an applied alt text back as the written pairs with stripped values |
| Mapping.TypeMarked | mapping_helper.py:92 | entries with a non-empty type write a line containing `type:` |
| Mapping.AppliedMarked | mapping_helper.py:90-95 | a shape given a template-like mapping is listed as mapped |
| Mapping.TemplateNamesShape | mapping_helper.py:123-126 | every named chart or table shape gets a template entry under its name |
| Mapping.TemplateMarksShapes | mapping_helper.py:101-167 | applying a deck's own template makes every named chart or table shape mapped |
| Mapping.Judge | mapping_helper.py:199-225 | no title means no verdict; an unknown title is a table issue; a found table is valid unless the shape is a chart with a column; such a chart is a column issue when its column is missing and, when it is present, valid corrected and uncounted as written |
| Mapping.MissingTableInvalid | mapping_helper.py:221-225 | a title matching no table is invalid with the table-not-found issue |
| Mapping.TallyUpTo | mapping_helper.py:179-225 | the total is the shape count; the mapped count counts mapped shapes; valid plus invalid is at most mapped; there is one issue per invalid mapping |
| Mapping.ValidateAsWritten | mapping_helper.py:174-227 | as written, valid plus invalid is at most mapped, mapped is at most the total, and issues equal invalid |
| Mapping.FoundColumnUncounted | mapping_helper.py:209-218 | as written, a chart whose column is found counts neither valid nor invalid |
| Mapping.FoundColumnWitness | mapping_helper.py:209-218 | one mapped chart titled `Q1` with column `Total` tallies 0 valid and 0 invalid as written, and 1 valid corrected |
| Mapping.Validate | mapping_helper.py:174-227 | corrected, every mapped shape with a title is counted exactly once as valid or invalid |
| Interplay.ExportExclusionsRefreshed | pptx_exporter.py:231-245 | every row the exporter leaves out of a chart, the updater leaves out too |
| Interplay.BaseNotAverage | pptx_exporter.py:241-245 | a base row is never taken for a mean or average row |
| Interplay.SecondBaseRow | deck_update.py:25-30 | a second base row is charted on export and dropped on refresh |
| Interplay.TotalColumnAgrees | pptx_exporter.py:252-253 | with a `Total` column, exporter and updater chart the same column |
| Interplay.OverallColumnDisagrees | deck_update.py:40-43 | without `Total`, with `Overall` not first, the exporter charts column 0 and the updater charts `Overall` |
| Interplay.ExportedCellSource | deck_update.py:94-106 | the updater finds every exported cell's value again from its header and row label |
| Interplay.ExportedGridFixed | deck_update.py:86-110 | refreshing an exported table from the table it came from changes no cell |
| Interplay.TagKeysOk | pptx_exporter.py:142-185 | the tag keys are colon-free and in `_norm` form, and none is `table_key` or `col` |
| Interplay.TagEncodable | pptx_exporter.py:138-185 | every tag the exporter writes with a one-line title and column can be read back |
| Interplay.DecodedTagKeys | deck_update.py:19-22 | reading an exported tag yields only tag keys |
| Interplay.ExportedTagUnbound | deck_update.py:172-177 | an exported alt text holds neither `table_key` nor `col`, so only the shape name can give an exported shape a table |
| Interplay.ExportedReadersAgree | mapping_helper.py:193-197 | the validator and the updater read an exported alt text alike |
| Interplay.ExportedShapeMapped | mapping_helper.py:90-93 | every tagged exported shape is listed as mapped |

## Left out

- Reading the workbook through pandas and Excel, and writing or saving decks through python-pptx, are I/O. The model takes a sheet as a grid of cells and a deck as slides of shapes.
- Fonts, colours, backgrounds, chart formatting, legends, data labels and slide geometry are presentation detail with no effect on content.
- The `DATA_META` box and `to_json` are JSON output that no modelled reader uses.
- The XML `descr` route of `_set_alt_text` and of `list_all_shapes` is a foreign library call. The model keeps one alt text string per shape, and the name fallback is modelled on its own by `AltText.NameFallback`. In the code the two strings can differ: `apply_mapping_from_file` writes only `alternative_text` (mapping_helper.py:167), while `list_all_shapes` reads `descr` first and falls back to `alternative_text` only when `descr` is empty (mapping_helper.py:63-84).
- Mapping.AppliedMarked, Mapping.TemplateMarksShapes: they hold for a shape whose `descr` is empty or equal to its `alternative_text`. A shape whose `descr` already holds other text is listed with that text after the mapping is applied, which the model does not represent.
- Text.Lower: lower-cases ASCII letters only. Python's `str.lower` also maps other Unicode letters, which is a Unicode table.
- Numbers.NumberLabel: a whole number prints without a decimal point, as it does when pandas reads an integer column. In a float64 column, pandas hands over `5.0` and `str()` prints `5.0` (crosstab_parser.py:76-87). The model does not track column dtypes.
- Export.AddChartSlide, Export.TableSlide, Export.ExportDeckSlides: they build the table grid with the corrected formatter, so a NaN value shows an empty cell. The code prints `nan` there; see the second finding and Export.ExportGridAsWritten.
- Refresh.RefreshContent, Refresh.UpdateShapeRefreshes, Refresh.UpdateShape: they refresh table grids with the corrected formatter, so a NaN value shows an empty cell. The code prints `nan` there; see the first finding and Refresh.RefreshGridAsWritten.
- Refresh.UpdateFrom, Refresh.UpdateSlides: they use the corrected formatter through Refresh.UpdateShape, so a refreshed NaN value shows an empty cell where the code prints `nan`.
- Crosstab.ToNumber: text cells are coerced only in the shape `-digits.digit`. The full number grammar of `pd.to_numeric` (exponents, more decimals, `inf`) is a foreign library's parser.
- Numbers: values carry at most one decimal, counted in tenths. Floating point, and what `f"{v:.1f}"` and `round` do to other values, are not modelled.
- Export.Shapes: a slide lists only the shapes the exporter adds. The placeholders that the slide layout brings (layout 5 at pptx_exporter.py:217, layout 0 at pptx_exporter.py:350) come earlier in `slide.shapes` and stay empty; they belong to the template deck, which is not modelled.
- Python's default shape names are not modelled. A shape name is whatever the deck holds, and the exporter's shapes get none.
- `hasattr` and `try`/`except` guards around library objects are not modelled, because the library objects are not modelled.
- Refresh.UpdateShape, Refresh.UpdateShapeRefreshes, Refresh.UpdateFrom, Refresh.UpdateSlides: they refresh a bound table through its grid. In the code, the table branch comes after the test `hasattr(shp, "chart")` (deck_update.py:189-193). In python-pptx, reading `chart` on a table's graphic frame raises `ValueError`, and `hasattr` catches only `AttributeError`. So on the library as it stands, a bound table ends `update_presentation` with an exception before `_update_table` runs and before the deck is saved. The mapping helper guards the same test with `try` (mapping_helper.py:26-30). The model gives the table branch the behaviour its code describes, because the library's raising is outside the model.
- The `isinstance(lab, str)` tests are always true here, because labels are strings.
- The mapping helper's `exec` of a mapping file, its command line and its file writes are dynamic code and I/O. `MAPPINGS` is an input of `Mapping.ApplyMappings`.
- The commented header text of `generate_mapping_template` is not modelled, and neither is the list of available tables it prints. Only its entries are.
- `app.py` is a user-interface shell and is not part of this model.
- Export.TableSlide: a selection whose `chart_type` is present but None makes the source fail on `.lower()`. The model has no such value: an absent key and a None value are both absent.
- Mapping.Validate, Mapping.ValidateAsWritten: they require each sheet to be a rectangular grid, as a DataFrame always is.
- Refresh.UpdateSlides, Refresh.UpdateFrom: they state only that every shape keeps its place, name, alt text and kind. What a bound shape becomes is stated per shape by Refresh.UpdateShapeRefreshes and Refresh.ApplyTextsWrites.

## Findings

| source | as written | input that shows it | evidently intended | confidence | as-written member | corrected member |
|---|---|---|---|---|---|---|
| deck_update.py:107 | a missing value is tested with `is None`, but the parsed values hold NaN, so it prints `nan` | a table whose value under the cell's header is NaN, refreshed into a grid that names that row and column | an empty cell, as for a missing value | medium, not executed | Refresh.RefreshGridAsWritten, Refresh.NanCellAsWritten | Refresh.RefreshGrid |
| pptx_exporter.py:203 | the same `is None` test on exported values prints `nan` for NaN | any table with a NaN value exported with its grid | an empty cell | medium, not executed | Export.ExportGridAsWritten, Export.NanCellExported | Export.ExportGrid |
| mapping_helper.py:209-218 | the `else` that counts a valid mapping belongs to the column test, so a chart whose column is found counts neither valid nor invalid | one mapped chart with alt text `table_title: Q1` and `column: Total`, and a table `Q1` with column `Total` | the chart is counted as a valid mapping | medium, not executed | Mapping.ValidateAsWritten, Mapping.FoundColumnWitness | Mapping.Validate |

=== FILE: alttext.dfy ===
/**
  The alt-text annotation codec. The exporter's `_set_alt_text`
  (pptx_exporter.py:87-96) and `apply_mapping_from_file`
  (mapping_helper.py:160-167) write one `key: value` line per entry; the
  updater's `_parse_alt_text` (deck_update.py:13-23) and the parse inside
  `validate_mappings` (mapping_helper.py:192-197) read such text back, each
  in its own way.
 */
module AltText {

  import opened Common
  import opened Text

  /** One item of the Python dict handed to the encoder; a `None` value is Python's None. */
  type Entry = (string, Option<string>)

  /** The `f"{k}: {v}"` line of one entry. */
  function Line(k: string, v: string): string {
    k + ": " + v
  }

  /** The positions of the entries the encoder leaves out: a None or `""` value. */
  function Dropped(entries: seq<Entry>): set<nat> {
    set i: nat | i < |entries| && !Truthy(entries[i].1)
  }

  /**
    The lines `_set_alt_text` writes (pptx_exporter.py:92-94), as pairs: one
    per entry whose value is neither None nor `""`, in the dict's order.
   */
  function Written(entries: seq<Entry>): (kv: seq<(string, string)>)
    ensures var ks := KeptIndices(|entries|, Dropped(entries));
      && |kv| == |ks|
      && forall m :: 0 <= m < |kv| ==> kv[m] == (entries[ks[m]].0, entries[ks[m]].1.value)
    ensures |kv| <= |entries|
    ensures forall i :: 0 <= i < |kv| ==> kv[i].1 != ""
    ensures forall p :: p in kv ==> (p.0, Some(p.1)) in entries
    ensures forall i :: 0 <= i < |entries| && Truthy(entries[i].1) ==> (entries[i].0, entries[i].1.value) in kv
  {
    if |entries| == 0 then []
    else
      var n := |entries| - 1;
      var init := entries[..n];
      var w := Written(init);
      var kv := w + (if Truthy(entries[n].1) then [(entries[n].0, entries[n].1.value)] else []);
      WrittenStep(entries, w, kv);
      WrittenKeeps(entries, w, kv);
      kv
  }

  /** Every kept entry of all entries is written, given that every kept entry before the last is. */
  lemma WrittenKeeps(entries: seq<Entry>, w: seq<(string, string)>, kv: seq<(string, string)>)
    requires |entries| > 0
    requires var init := entries[..|entries| - 1];
      forall i :: 0 <= i < |init| && Truthy(init[i].1) ==> (init[i].0, init[i].1.value) in w
    requires var n := |entries| - 1;
      kv == w + (if Truthy(entries[n].1) then [(entries[n].0, entries[n].1.value)] else [])
    ensures forall i :: 0 <= i < |entries| && Truthy(entries[i].1) ==> (entries[i].0, entries[i].1.value) in kv
  {
    var n := |entries| - 1;
    forall i | 0 <= i < |entries| && Truthy(entries[i].1)
      ensures (entries[i].0, entries[i].1.value) in kv
    {
      if i < n {
        assert entries[..n][i] == entries[i];
      } else {
        assert kv[|w|] == (entries[n].0, entries[n].1.value);
      }
    }
  }

  /** The pairs written for all entries: those for the ones before the last, then the last if kept. */
  lemma WrittenStep(entries: seq<Entry>, w: seq<(string, string)>, kv: seq<(string, string)>)
    requires |entries| > 0
    requires var n := |entries| - 1; var ks := KeptIndices(n, Dropped(entries[..n]));
      && |w| == |ks|
      && forall m :: 0 <= m < |w| ==> w[m] == (entries[..n][ks[m]].0, entries[..n][ks[m]].1.value)
    requires var n := |entries| - 1;
      kv == w + (if Truthy(entries[n].1) then [(entries[n].0, entries[n].1.value)] else [])
    ensures var ks := KeptIndices(|entries|, Dropped(entries));
      && |kv| == |ks|
      && forall m :: 0 <= m < |kv| ==> kv[m] == (entries[ks[m]].0, entries[ks[m]].1.value)
  {
    var n := |entries| - 1;
    var init := entries[..n];
    KeptIndicesAgree(n, Dropped(init), Dropped(entries));
    assert forall i :: 0 <= i < n ==> init[i] == entries[i];
    if Truthy(entries[n].1) {
      assert KeptIndices(|entries|, Dropped(entries)) == KeptIndices(n, Dropped(entries)) + [n];
    } else {
      assert KeptIndices(|entries|, Dropped(entries)) == KeptIndices(n, Dropped(entries));
    }
  }

  /** The `f"{k}: {v}"` lines of the pairs, in order. */
  function Lines(kv: seq<(string, string)>): (lines: seq<string>)
    ensures |lines| == |kv|
    ensures forall i :: 0 <= i < |kv| ==> lines[i] == Line(kv[i].0, kv[i].1)
  {
    if |kv| == 0 then [] else Lines(kv[..|kv| - 1]) + [Line(kv[|kv| - 1].0, kv[|kv| - 1].1)]
  }

  /** The alt text the encoder produces: the written lines joined by `"\n"`. */
  function Encode(entries: seq<Entry>): string {
    JoinLines(Lines(Written(entries)))
  }

  /** The dict a sequence of pairs builds: a later pair overrides an earlier one with the same key. */
  function ToMap(kv: seq<(string, string)>): map<string, string> {
    if |kv| == 0 then map[] else ToMap(kv[..|kv| - 1])[kv[|kv| - 1].0 := kv[|kv| - 1].1]
  }

  /** The dict holds exactly the keys of the pairs. */
  lemma {:induction false} ToMapKeys(kv: seq<(string, string)>)
    ensures forall i :: 0 <= i < |kv| ==> kv[i].0 in ToMap(kv)
    ensures forall k :: k in ToMap(kv) ==> exists i :: 0 <= i < |kv| && kv[i].0 == k
  {
    if |kv| > 0 {
      var n := |kv| - 1;
      ToMapKeys(kv[..n]);
      assert forall i :: 0 <= i < n ==> kv[..n][i] == kv[i];
    }
  }

  /** Each value with its surrounding whitespace removed. */
  function StripValues(kv: seq<(string, string)>): (r: seq<(string, string)>)
    ensures |r| == |kv|
    ensures forall i :: 0 <= i < |kv| ==> r[i] == (kv[i].0, Strip(kv[i].1))
  {
    if |kv| == 0 then [] else StripValues(kv[..|kv| - 1]) + [(kv[|kv| - 1].0, Strip(kv[|kv| - 1].1))]
  }

  // ----- The updater's reader: `_parse_alt_text` -----

  /** The normalised key of a line that holds a colon. */
  function KeyOf(line: string): string
    requires ':' in line
  {
    Norm(SplitFirst(line, ':').0)
  }

  /** The stripped value of a line that holds a colon. */
  function ValueOf(line: string): string
    requires ':' in line
  {
    Strip(SplitFirst(line, ':').1)
  }

  /** Line `line` sets the key `k` for the updater. */
  predicate Sets(line: string, k: string) {
    ':' in line && KeyOf(line) == k
  }

  /** The loop of `_parse_alt_text` over a list of lines. */
  function DecodeLines(lines: seq<string>): map<string, string> {
    if |lines| == 0 then map[]
    else
      var m := DecodeLines(lines[..|lines| - 1]);
      var l := lines[|lines| - 1];
      if ':' in l then m[KeyOf(l) := ValueOf(l)] else m
  }

  lemma {:induction false} DecodeKeysNormal(lines: seq<string>)
    ensures forall k :: k in DecodeLines(lines) ==> NormalForm(k)
  {
    if |lines| > 0 {
      var l := lines[|lines| - 1];
      DecodeKeysNormal(lines[..|lines| - 1]);
      if ':' in l {
        NormIsNormal(SplitFirst(l, ':').0);
      }
    }
  }

  /** `_parse_alt_text` (deck_update.py:13-23): its keys are always in `_norm` form. */
  function DecodeAlt(alt: string): (m: map<string, string>)
    ensures forall k :: k in m ==> NormalForm(k)
  {
    DecodeKeysNormal(SplitLines(alt));
    DecodeLines(SplitLines(alt))
  }

  /** One more line read by the updater. */
  lemma DecodeSnoc(lines: seq<string>, l: string)
    ensures DecodeLines(lines + [l]) ==
      if ':' in l then DecodeLines(lines)[KeyOf(l) := ValueOf(l)] else DecodeLines(lines)
  {
    assert (lines + [l])[..|lines|] == lines;
  }

  /**
    A key maps to the value of the LAST line that sets it: later lines
    override earlier ones.
   */
  lemma {:induction false} DecodeLastWins(lines: seq<string>, i: nat)
    requires i < |lines| && ':' in lines[i]
    requires forall j :: i < j < |lines| ==> !Sets(lines[j], KeyOf(lines[i]))
    ensures KeyOf(lines[i]) in DecodeLines(lines)
    ensures DecodeLines(lines)[KeyOf(lines[i])] == ValueOf(lines[i])
  {
    var n := |lines| - 1;
    var init := lines[..n];
    assert lines == init + [lines[n]];
    DecodeSnoc(init, lines[n]);
    if i < n {
      assert init[i] == lines[i];
      forall j | i < j < |init| ensures !Sets(init[j], KeyOf(init[i])) {
        assert init[j] == lines[j];
      }
      DecodeLastWins(init, i);
    }
  }


  /** A key no line sets is absent: lines without a colon contribute nothing. */
  lemma {:induction false} DecodeOnlySet(lines: seq<string>, k: string)
    requires forall j :: 0 <= j < |lines| ==> !Sets(lines[j], k)
    ensures k !in DecodeLines(lines)
  {
    if |lines| > 0 {
      var init := lines[..|lines| - 1];
      forall j | 0 <= j < |init| ensures !Sets(init[j], k) {
        assert init[j] == lines[j];
      }
      DecodeOnlySet(init, k);
    }
  }

  // ----- Round trip -----

  /** A key the encoder can write so that both readers find it again. */
  predicate KeyOk(k: string) {
    ':' !in k && NormalForm(k)
  }

  /** Every key is writable and every value written stays on its line. */
  predicate Encodable(entries: seq<Entry>) {
    forall i :: 0 <= i < |entries| ==>
      KeyOk(entries[i].0) && (entries[i].1.Some? ==> NoLineBreak(entries[i].1.value))
  }

  predicate PairsEncodable(kv: seq<(string, string)>) {
    forall i :: 0 <= i < |kv| ==> KeyOk(kv[i].0) && NoLineBreak(kv[i].1)
  }

  lemma WrittenEncodable(entries: seq<Entry>)
    requires Encodable(entries)
    ensures PairsEncodable(Written(entries))
  {
    var kv := Written(entries);
    forall i | 0 <= i < |kv| ensures KeyOk(kv[i].0) && NoLineBreak(kv[i].1) {
      assert kv[i] in kv;
      var j :| 0 <= j < |entries| && entries[j] == (kv[i].0, Some(kv[i].1));
    }
  }

  /** `_norm`-form text is free of line boundaries, which are all whitespace. */
  lemma NormalNoBreak(k: string)
    requires NormalForm(k)
    ensures NoLineBreak(k)
  {
    forall i | 0 <= i < |k| ensures !IsLineBreak(k[i]) {
      if IsLineBreak(k[i]) {
        assert IsSpace(k[i]);
      }
    }
  }

  /** A colon-free key is split off exactly at the colon the encoder wrote. */
  lemma LineParts(k: string, v: string)
    requires ':' !in k
    ensures ':' in Line(k, v)
    ensures SplitFirst(Line(k, v), ':') == (k, " " + v)
  {
    assert Line(k, v) == k + [':'] + (" " + v);
    SplitFirstAt(k, ':', " " + v);
  }

  /** The separator space never reaches a stripped value. */
  lemma StripLeadingSpace(v: string)
    ensures Strip(" " + v) == Strip(v)
  {
    assert (" " + v)[1..] == v;
  }

  /** The updater reads each encodable line back as its key and stripped value. */
  lemma LineRead(k: string, v: string)
    requires KeyOk(k)
    ensures ':' in Line(k, v)
    ensures KeyOf(Line(k, v)) == k && ValueOf(Line(k, v)) == Strip(v)
  {
    LineParts(k, v);
    NormalFormFixed(k);
    StripLeadingSpace(v);
  }

  lemma {:induction false} DecodeWrittenLines(kv: seq<(string, string)>)
    requires forall i :: 0 <= i < |kv| ==> KeyOk(kv[i].0)
    ensures DecodeLines(Lines(kv)) == ToMap(StripValues(kv))
  {
    if |kv| > 0 {
      var n := |kv| - 1;
      var init := kv[..n];
      forall i | 0 <= i < |init| ensures KeyOk(init[i].0) {
        assert init[i] == kv[i];
      }
      DecodeWrittenLines(init);
      var l := Line(kv[n].0, kv[n].1);
      LineRead(kv[n].0, kv[n].1);
      DecodeSnoc(Lines(init), l);
      assert StripValues(kv)[..n] == StripValues(init);
    }
  }


  /** A line written for a break-free key and value is one non-empty line. */
  lemma LineSplittable(k: string, v: string)
    requires NoLineBreak(k) && NoLineBreak(v)
    ensures Line(k, v) != "" && NoLineBreak(Line(k, v))
  {
    var l := Line(k, v);
    assert l[|k|] == ':';
    forall j | 0 <= j < |l| ensures !IsLineBreak(l[j]) {
      if j < |k| {
        assert l[j] == k[j];
      } else if j > |k| + 1 {
        assert l[j] == v[j - |k| - 2];
      }
    }
  }

  lemma {:induction false} LinesSplittable(kv: seq<(string, string)>)
    requires PairsEncodable(kv)
    ensures forall i :: 0 <= i < |Lines(kv)| ==> Lines(kv)[i] != "" && NoLineBreak(Lines(kv)[i])
  {
    if |kv| > 0 {
      var n := |kv| - 1;
      LinesSplittable(kv[..n]);
      NormalNoBreak(kv[n].0);
      LineSplittable(kv[n].0, kv[n].1);
    }
  }

  /**
    Decoding what the encoder wrote gives back the written entries, a later
    entry overriding an earlier one and each value stripped.
   */
  lemma DecodeEncoded(entries: seq<Entry>)
    requires Encodable(entries)
    ensures DecodeAlt(Encode(entries)) == ToMap(StripValues(Written(entries)))
  {
    var kv := Written(entries);
    WrittenEncodable(entries);
    LinesSplittable(kv);
    SplitJoin(Lines(kv));
    DecodeWrittenLines(kv);
  }

  /** Values the encoder writes are already stripped, so stripping keeps them. */
  lemma {:induction false} StripValuesStripped(kv: seq<(string, string)>)
    requires forall i :: 0 <= i < |kv| ==> Stripped(kv[i].1)
    ensures StripValues(kv) == kv
  {
    if |kv| > 0 {
      var n := |kv| - 1;
      StripValuesStripped(kv[..n]);
      StripStripped(kv[n].1);
      assert kv == kv[..n] + [kv[n]];
    }
  }

  /**
    The round trip across files: when keys are in `_norm` form and colon-free
    and values are stripped and stay on one line, the updater decodes the
    exporter's text into exactly the dict the exporter was given, without
    its None and empty values.
   */
  lemma RoundTrip(entries: seq<Entry>)
    requires Encodable(entries)
    requires forall i :: 0 <= i < |entries| && entries[i].1.Some? ==> Stripped(entries[i].1.value)
    ensures DecodeAlt(Encode(entries)) == ToMap(Written(entries))
  {
    var kv := Written(entries);
    forall i | 0 <= i < |kv| ensures Stripped(kv[i].1) {
      assert kv[i] in kv;
      var j :| 0 <= j < |entries| && entries[j] == (kv[i].0, Some(kv[i].1));
    }
    StripValuesStripped(kv);
    DecodeEncoded(entries);
  }

  // ----- The validator's reader: mapping_helper.py:192-197 -----

  /** The validator reads lines that hold a colon and do not start with `---`. */
  predicate ValidationKept(line: string) {
    ':' in line && !StartsWith(line, "---")
  }

  /** The stripped, not normalised, key of a line the validator reads. */
  function ValidationKey(line: string): (k: string)
    requires ':' in line
    ensures Stripped(k)
  {
    StripFacts(SplitFirst(line, ':').0);
    Strip(SplitFirst(line, ':').0)
  }

  /** The loop of the validation parse: keys are stripped, not normalised, and `---` lines are skipped. */
  function ValidationLines(lines: seq<string>): (m: map<string, string>) {
    if |lines| == 0 then map[]
    else
      var m := ValidationLines(lines[..|lines| - 1]);
      var l := lines[|lines| - 1];
      if ValidationKept(l) then m[ValidationKey(l) := ValueOf(l)] else m
  }

  lemma {:induction false} ValidationKeysStripped(lines: seq<string>)
    ensures forall k :: k in ValidationLines(lines) ==> Stripped(k)
  {
    if |lines| > 0 {
      ValidationKeysStripped(lines[..|lines| - 1]);
    }
  }

  /** The validation parse of an alt text: its keys carry no surrounding whitespace. */
  function ValidationParse(alt: string): (m: map<string, string>)
    ensures forall k :: k in m ==> Stripped(k)
  {
    ValidationKeysStripped(SplitLines(alt));
    ValidationLines(SplitLines(alt))
  }

  /** A line written for a key that does not start with `---` does not either. */
  lemma LineNotRule(k: string, v: string)
    requires !StartsWith(k, "---")
    ensures !StartsWith(Line(k, v), "---")
  {
    var l := Line(k, v);
    assert l[|k|] == ':';
    if |k| >= 3 {
      assert l[..3] == k[..3];
    } else if |l| >= 3 {
      assert l[..3][|k|] == ':';
    }
  }

  /** The validator reads each written line back as its key and stripped value. */
  lemma ValidationLineRead(k: string, v: string)
    requires ValidationKeyOk(k)
    ensures ValidationKept(Line(k, v))
    ensures ValidationKey(Line(k, v)) == k && ValueOf(Line(k, v)) == Strip(v)
  {
    LineParts(k, v);
    LineNotRule(k, v);
    StripStripped(k);
    StripLeadingSpace(v);
  }

  /** A key the validator reads back unchanged: writable, and not starting with `---`. */
  predicate ValidationKeyOk(k: string) {
    KeyOk(k) && !StartsWith(k, "---")
  }

  /** One more line read by the validator. */
  lemma ValidationSnoc(lines: seq<string>, l: string)
    ensures ValidationLines(lines + [l]) ==
      if ValidationKept(l) then ValidationLines(lines)[ValidationKey(l) := ValueOf(l)] else ValidationLines(lines)
  {
    assert (lines + [l])[..|lines|] == lines;
  }

  /** Line `line` sets the key `k` for the validator. */
  predicate ValidationSets(line: string, k: string) {
    ValidationKept(line) && ValidationKey(line) == k
  }

  /** The validator, too, keeps the value of the LAST line that sets a key. */
  lemma {:induction false} ValidationLastWins(lines: seq<string>, i: nat)
    requires i < |lines| && ValidationKept(lines[i])
    requires forall j :: i < j < |lines| ==> !ValidationSets(lines[j], ValidationKey(lines[i]))
    ensures ValidationKey(lines[i]) in ValidationLines(lines)
    ensures ValidationLines(lines)[ValidationKey(lines[i])] == ValueOf(lines[i])
  {
    var n := |lines| - 1;
    var init := lines[..n];
    assert lines == init + [lines[n]];
    ValidationSnoc(init, lines[n]);
    if i < n {
      assert init[i] == lines[i];
      forall j | i < j < |init| ensures !ValidationSets(init[j], ValidationKey(init[i])) {
        assert init[j] == lines[j];
      }
      ValidationLastWins(init, i);
    }
  }

  /** A key no line sets for the validator is absent from its dict. */
  lemma {:induction false} ValidationOnlySet(lines: seq<string>, k: string)
    requires forall j :: 0 <= j < |lines| ==> !ValidationSets(lines[j], k)
    ensures k !in ValidationLines(lines)
  {
    if |lines| > 0 {
      var init := lines[..|lines| - 1];
      forall j | 0 <= j < |init| ensures !ValidationSets(init[j], k) {
        assert init[j] == lines[j];
      }
      ValidationOnlySet(init, k);
    }
  }

  /** A `---` line anywhere in the text is skipped: taking it out changes nothing. */
  lemma {:induction false} RuleSkipped(a: seq<string>, l: string, b: seq<string>)
    requires StartsWith(l, "---")
    ensures ValidationLines(a + [l] + b) == ValidationLines(a + b)
    decreases |b|
  {
    if |b| == 0 {
      assert a + [l] + b == a + [l] && a + b == a;
      ValidationSnoc(a, l);
    } else {
      var n := |b| - 1;
      RuleSkipped(a, l, b[..n]);
      assert a + [l] + b == (a + [l] + b[..n]) + [b[n]];
      assert a + b == (a + b[..n]) + [b[n]];
      ValidationSnoc(a + [l] + b[..n], b[n]);
      ValidationSnoc(a + b[..n], b[n]);
    }
  }

  lemma {:induction false} ValidationWrittenLines(kv: seq<(string, string)>)
    requires forall i :: 0 <= i < |kv| ==> ValidationKeyOk(kv[i].0)
    ensures ValidationLines(Lines(kv)) == ToMap(StripValues(kv))
  {
    if |kv| > 0 {
      var n := |kv| - 1;
      var init := kv[..n];
      forall i | 0 <= i < |init| ensures ValidationKeyOk(init[i].0) {
        assert init[i] == kv[i];
      }
      ValidationWrittenLines(init);
      var l := Line(kv[n].0, kv[n].1);
      ValidationLineRead(kv[n].0, kv[n].1);
      ValidationSnoc(Lines(init), l);
      assert StripValues(kv)[..n] == StripValues(init);
    }
  }



  /**
    On the encoder's own output, with keys in `_norm` form that do not start
    with `---`, the two readers agree.
   */
  lemma ReadersAgree(entries: seq<Entry>)
    requires Encodable(entries)
    requires forall i :: 0 <= i < |entries| ==> !StartsWith(entries[i].0, "---")
    ensures ValidationParse(Encode(entries)) == DecodeAlt(Encode(entries))
  {
    var kv := Written(entries);
    WrittenEncodable(entries);
    forall i | 0 <= i < |kv| ensures !StartsWith(kv[i].0, "---") {
      assert kv[i] in kv;
      var j :| 0 <= j < |entries| && entries[j] == (kv[i].0, Some(kv[i].1));
    }
    LinesSplittable(kv);
    SplitJoin(Lines(kv));
    ValidationWrittenLines(kv);
    DecodeEncoded(entries);
  }

  /**
    The readers disagree on a key with a capital letter: the validator keeps
    it as written, the updater only knows its lower-cased form.
   */
  lemma ReadersDiffer(k: string, v: string)
    requires ':' !in k && Stripped(k) && NoLineBreak(k) && NoLineBreak(v) && !StartsWith(k, "---")
    requires exists i :: 0 <= i < |k| && IsUpper(k[i])
    ensures k in ValidationParse(Line(k, v))
    ensures k !in DecodeAlt(Line(k, v))
  {
    var l := Line(k, v);
    LineParts(k, v);
    LineNotRule(k, v);
    LineSplittable(k, v);
    SplitJoin([l]);
    StripStripped(k);
  }

  // ----- The shape-name fallback of `_set_alt_text` -----

  /** Python's `s.replace(c, sub)` for a single character `c`. */
  function Replace(s: string, c: char, sub: string): (r: string)
    ensures forall i :: 0 <= i < |r| ==> r[i] in sub || (r[i] in s && r[i] != c)
    ensures c !in s ==> r == s
  {
    if |s| == 0 then ""
    else
      var rest := Replace(s[1..], c, sub);
      if s[0] == c then sub + rest else [s[0]] + rest
  }

  /**
    The shape name written when no alt-text channel is available
    (pptx_exporter.py:130-131): the text with line breaks shown as ` | ` and
    colons as `_`, cut to 100 characters, after a `MAPPED_` prefix.
   */
  function NameFallback(alt: string): (name: string)
    ensures |name| <= 107 && StartsWith(name, "MAPPED_")
    ensures ':' !in name && '\n' !in name[7..]
    ensures ':' !in alt && '\n' !in alt ==> name[7..] == Take(alt, 100)
  {
    var safe := Replace(Replace(alt, '\n', " | "), ':', "_");
    var name := "MAPPED_" + Take(safe, 100);
    assert name[7..] == Take(safe, 100);
    name
  }

  // ----- `_tag_shape` -----

  /** The bindings `_tag_shape` writes unless told otherwise. */
  const QuestionBinding := "TEXT_QUESTION"
  const BaseBinding := "TEXT_BASE"

  /** The object types `_tag_shape` knows. */
  const TagTypes: seq<string> := ["chart", "table", "question_text", "text_base", "text_title"]

  /** Every key a tag may hold. */
  const TagKeys: seq<string> :=
    ["type", "table_title", "column", "columns", "exclude_rows", "bind_question", "bind_base", "auto_update"]

  /** No key occurs twice, as in a Python dict. */
  predicate KeysDistinct(entries: seq<Entry>) {
    forall i, j :: 0 <= i < j < |entries| ==> entries[i].0 != entries[j].0
  }

  /** The exclusion note every chart and table tag carries. */
  const ExcludeNote := "base, mean, average, avg"

  /** The dict `_tag_shape` builds for a chart (pptx_exporter.py:142-151). */
  function ChartTag(title: Option<string>, column: string, bindQuestion: Option<string>, bindBase: Option<string>)
    : (e: seq<Entry>)
    ensures KeysDistinct(e) && forall i :: 0 <= i < |e| ==> e[i].0 in TagKeys
    ensures ("type", Some("chart")) in e && ("table_title", title) in e && ("column", Some(column)) in e
    ensures ("bind_question", bindQuestion) in e && ("bind_base", bindBase) in e
    ensures ("auto_update", Some("yes")) in e
  {
    [("type", Some("chart")), ("table_title", title), ("column", Some(column)),
     ("exclude_rows", Some(ExcludeNote)), ("bind_question", bindQuestion), ("bind_base", bindBase),
     ("auto_update", Some("yes"))]
  }

  /** The dict `_tag_shape` builds for a table (pptx_exporter.py:153-161). */
  function TableTag(title: Option<string>, column: string): (e: seq<Entry>)
    ensures KeysDistinct(e) && forall i :: 0 <= i < |e| ==> e[i].0 in TagKeys
    ensures ("type", Some("table")) in e && ("table_title", title) in e && ("column", Some(column)) in e
    ensures ("auto_update", Some("yes")) in e
    ensures forall i :: 0 <= i < |e| ==> e[i].0 != "bind_question" && e[i].0 != "bind_base"
  {
    [("type", Some("table")), ("table_title", title), ("columns", Some("*")), ("column", Some(column)),
     ("exclude_rows", Some(ExcludeNote)), ("auto_update", Some("yes"))]
  }

  /** The dict `_tag_shape` builds for a text box (pptx_exporter.py:163-185). */
  function TextTag(objType: string, title: Option<string>, column: string): (e: seq<Entry>)
    ensures KeysDistinct(e) && forall i :: 0 <= i < |e| ==> e[i].0 in TagKeys
    ensures ("type", Some(objType)) in e && ("table_title", title) in e && ("column", Some(column)) in e
    ensures ("auto_update", Some("yes")) in e
    ensures forall i :: 0 <= i < |e| ==> e[i].0 != "bind_question" && e[i].0 != "bind_base"
  {
    [("type", Some(objType)), ("table_title", title), ("column", Some(column)), ("auto_update", Some("yes"))]
  }

  /**
    The entries `_tag_shape` (pptx_exporter.py:138-185) hands to the encoder
    for a shape, or None for an object type it does not know, which writes
    nothing.
   */
  function TagEntries(objType: string, title: Option<string>, colKey: Option<string>,
                      bindQuestion: Option<string>, bindBase: Option<string>): (r: Option<seq<Entry>>)
    ensures r.None? <==> objType !in TagTypes
    ensures r.Some? ==> KeysDistinct(r.value)
    ensures r.Some? ==> forall i :: 0 <= i < |r.value| ==> r.value[i].0 in TagKeys
    ensures r.Some? ==> ("type", Some(objType)) in r.value && ("table_title", title) in r.value
    ensures r.Some? ==> ("column", Some(if Truthy(colKey) then colKey.value else "Total")) in r.value
    ensures r.Some? ==> ("auto_update", Some("yes")) in r.value
    ensures r.Some? && objType == "chart" ==> ("bind_question", bindQuestion) in r.value && ("bind_base", bindBase) in r.value
    ensures r.Some? && objType != "chart" ==>
      forall i :: 0 <= i < |r.value| ==> r.value[i].0 != "bind_question" && r.value[i].0 != "bind_base"
  {
    var column := if Truthy(colKey) then colKey.value else "Total";
    if objType == "chart" then Some(ChartTag(title, column, bindQuestion, bindBase))
    else if objType == "table" then Some(TableTag(title, column))
    else if objType in TagTypes then Some(TextTag(objType, title, column))
    else None
  }

}

=== FILE: blocks.dfy ===
/**
  `_find_blocks` (crosstab_parser.py:6-19): a sheet is split into maximal runs
  of non-empty rows, and a run is kept as a table block when it is dense
  enough.
 */
module Blocks {

  import opened Common
  import opened Grid

  /** A block of rows `start..end`, both ends included, as `(start, end)` in the source. */
  datatype Block = Block(start: nat, end: nat)

  /** Row `i` is empty, or lies past the last row (the `[True]` sentinel). */
  predicate BlankAt(f: Frame, i: nat) {
    i >= |f.rows| || EmptyRow(f.rows[i])
  }

  /** Rows `s..e` are all non-empty and the rows just outside them are not. */
  predicate MaximalRun(f: Frame, s: nat, e: nat) {
    && s <= e < |f.rows|
    && (s == 0 || BlankAt(f, s - 1))
    && BlankAt(f, e + 1)
    && forall k :: s <= k <= e ==> !EmptyRow(f.rows[k])
  }

  /** The threshold of crosstab_parser.py:16: ten cells, two rows, two sheet columns. */
  predicate Dense(f: Frame, s: nat, e: nat)
    requires s <= e < |f.rows|
  {
    CellCount(f.rows[s..e + 1]) >= 10 && e - s + 1 >= 2 && f.width >= 2
  }

  /** A block the extractor may return: a maximal dense run. */
  predicate TableRun(f: Frame, s: nat, e: nat) {
    MaximalRun(f, s, e) && Dense(f, s, e)
  }

  /** Each block ends at least one empty row before the next one starts. */
  predicate Separated(bs: seq<Block>) {
    forall k :: 0 <= k < |bs| - 1 ==> bs[k].end + 1 < bs[k + 1].start
  }

  /** Every block is a maximal dense run. */
  predicate Sound(f: Frame, bs: seq<Block>) {
    forall k :: 0 <= k < |bs| ==> TableRun(f, bs[k].start, bs[k].end)
  }

  /** Every block starts at row `lo` or later. */
  predicate From(lo: nat, bs: seq<Block>) {
    forall k :: 0 <= k < |bs| ==> lo <= bs[k].start
  }

  /** Every maximal dense run starting at row `lo` or later is a block. */
  ghost predicate Complete(f: Frame, lo: nat, bs: seq<Block>) {
    forall s, e :: lo <= s && TableRun(f, s, e) ==> Block(s, e) in bs
  }

  /** Where the loop stands: the open run's start, or the current row when no run is open. */
  function Low(i: nat, start: Option<nat>): nat {
    if start.Some? then start.value else i
  }

  /**
    The loop of `_find_blocks` from row `i` on, with `start` the first row of
    the run being read (Python's `start`, `None` between runs). Row
    `|f.rows|` is the sentinel that closes a final run.
   */
  function Scan(f: Frame, i: nat, start: Option<nat>): (bs: seq<Block>)
    requires Reading(f, i, start)
    ensures Sound(f, bs) && From(Low(i, start), bs) && Separated(bs)
    decreases |f.rows| + 1 - i
  {
    if i > |f.rows| then []
    else if start.None? && !BlankAt(f, i) then Scan(f, i + 1, Some(i))
    else if start.Some? && BlankAt(f, i) then
      var s := start.value;
      var rest := Scan(f, i + 1, None);
      if Dense(f, s, i - 1) then
        CloseRun(f, i, s);
        PrependBlock(f, s, i - 1, rest);
        [Block(s, i - 1)] + rest
      else rest
    else Scan(f, i + 1, start)
  }

  /**
    What holds where the loop stands at row `i`: an open run started at a
    row after a blank one (or at row 0) and has been non-empty since; with
    no run open, the previous row was blank.
   */
  predicate Reading(f: Frame, i: nat, start: Option<nat>) {
    && (start.Some? ==> start.value < i <= |f.rows|)
    && (start.Some? ==> start.value == 0 || BlankAt(f, start.value - 1))
    && (start.Some? ==> forall k :: start.value <= k < i ==> !EmptyRow(f.rows[k]))
    && (start.None? ==> i == 0 || BlankAt(f, i - 1))
  }

  /** A run open since `s` and closed by the blank row `i` is maximal. */
  lemma CloseRun(f: Frame, i: nat, s: nat)
    requires Reading(f, i, Some(s)) && BlankAt(f, i)
    ensures MaximalRun(f, s, i - 1)
  {
  }

  /** A block closed before the rest of the scan keeps the scan's three properties. */
  lemma PrependBlock(f: Frame, s: nat, e: nat, rest: seq<Block>)
    requires TableRun(f, s, e)
    requires Sound(f, rest) && From(e + 2, rest) && Separated(rest)
    ensures Sound(f, [Block(s, e)] + rest) && From(s, [Block(s, e)] + rest) && Separated([Block(s, e)] + rest)
  {
    var bs := [Block(s, e)] + rest;
    forall k | 0 <= k < |bs| ensures TableRun(f, bs[k].start, bs[k].end) && s <= bs[k].start {
      if k > 0 {
        assert bs[k] == rest[k - 1];
      }
    }
    forall k | 0 <= k < |bs| - 1 ensures bs[k].end + 1 < bs[k + 1].start {
      assert bs[k + 1] == rest[k];
      if k > 0 {
        assert bs[k] == rest[k - 1];
      }
    }
  }

  /**
    `_find_blocks`: exactly the maximal runs of non-empty rows that pass the
    density threshold, in sheet order, separated by empty rows.
   */
  function FindBlocks(f: Frame): (bs: seq<Block>)
    ensures Sound(f, bs) && Separated(bs)
    ensures Complete(f, 0, bs)
  {
    ScanComplete(f, 0, None);
    Scan(f, 0, None)
  }

  /** Blocks that are separated one by one are ordered and disjoint throughout. */
  lemma {:induction false} SeparatedOrdered(bs: seq<Block>, k: nat, l: nat)
    requires Separated(bs)
    requires forall m :: 0 <= m < |bs| ==> bs[m].start <= bs[m].end
    requires k < l < |bs|
    ensures bs[k].end + 1 < bs[l].start
    decreases l - k
  {
    if k + 1 < l {
      SeparatedOrdered(bs, k + 1, l);
    }
  }

  /** Where the loop stands after row `i`. */
  function Next(f: Frame, i: nat, start: Option<nat>): Option<nat> {
    if start.None? && !BlankAt(f, i) then Some(i)
    else if start.Some? && BlankAt(f, i) then None
    else start
  }

  /** One step of the loop keeps what holds where it stands. */
  lemma ReadingNext(f: Frame, i: nat, start: Option<nat>)
    requires Reading(f, i, start) && i <= |f.rows|
    ensures Reading(f, i + 1, Next(f, i, start))
  {
  }

  /** The loop misses no maximal dense run at or after where it stands. */
  lemma {:induction false} ScanComplete(f: Frame, i: nat, start: Option<nat>)
    requires Reading(f, i, start)
    ensures Complete(f, Low(i, start), Scan(f, i, start))
    decreases |f.rows| + 1 - i
  {
    if i <= |f.rows| {
      ReadingNext(f, i, start);
      ScanComplete(f, i + 1, Next(f, i, start));
      CompleteStep(f, i, start);
    }
  }

  /** One step of the loop passes completeness back from the next row. */
  lemma CompleteStep(f: Frame, i: nat, start: Option<nat>)
    requires Reading(f, i, start) && i <= |f.rows|
    requires Reading(f, i + 1, Next(f, i, start))
    requires Complete(f, Low(i + 1, Next(f, i, start)), Scan(f, i + 1, Next(f, i, start)))
    ensures Complete(f, Low(i, start), Scan(f, i, start))
  {
    if start.Some? && BlankAt(f, i) {
      CompleteAtClose(f, i, start.value);
    } else if start.None? && BlankAt(f, i) {
      forall s, e | i <= s && TableRun(f, s, e) ensures i + 1 <= s {
      }
    }
  }

  /** Closing the run open since `s0` at the blank row `i` keeps the scan complete. */
  lemma CompleteAtClose(f: Frame, i: nat, s0: nat)
    requires Reading(f, i, Some(s0)) && i <= |f.rows| && BlankAt(f, i)
    requires Complete(f, i + 1, Scan(f, i + 1, None))
    ensures Complete(f, s0, Scan(f, i, Some(s0)))
  {
    var bs := Scan(f, i, Some(s0));
    forall s, e | s0 <= s && TableRun(f, s, e) ensures Block(s, e) in bs {
      if s <= i {
        RunInside(f, s0, i, s, e);
      }
    }
  }

  /**
    A maximal run that starts inside the non-empty rows `s0..i-1`, closed by
    the blank row `i`, is exactly that run.
   */
  lemma RunInside(f: Frame, s0: nat, i: nat, s: nat, e: nat)
    requires s0 < i <= |f.rows| && BlankAt(f, i)
    requires s0 == 0 || BlankAt(f, s0 - 1)
    requires forall k :: s0 <= k < i ==> !EmptyRow(f.rows[k])
    requires s0 <= s <= i && MaximalRun(f, s, e)
    ensures s == s0 && e == i - 1
  {
  }
}

=== FILE: common.dfy ===
/**
  Shared vocabulary of the model: Python's "a value or None", the truthiness
  test the code applies to optional strings, and `list.index`.
 */
module Common {

  /** A value that may be absent, as Python's `None`. */
  datatype Option<T> = None | Some(value: T) {

    /** `dict.get(key, default)` once the lookup has been made. */
    function GetOr(default: T): T {
      match this
      case Some(v) => v
      case None => default
    }
  }

  /** Python truthiness of an optional string: present and non-empty. */
  predicate Truthy(s: Option<string>) {
    s.Some? && s.value != ""
  }

  /** `i` is the first position of `x` in `s`. */
  predicate IsFirstIndex<T(==)>(s: seq<T>, x: T, i: nat) {
    i < |s| && s[i] == x && forall j :: 0 <= j < i ==> s[j] != x
  }

  /** Python's `list.index`: the first position of `x` in `s`. */
  function IndexOf<T(==)>(s: seq<T>, x: T): (i: nat)
    requires x in s
    ensures IsFirstIndex(s, x, i)
  {
    if s[0] == x then 0 else 1 + IndexOf(s[1..], x)
  }

  /** Python's `s[:n]`: the first `n` elements, or all of them when there are fewer. */
  function Take<T>(s: seq<T>, n: nat): (r: seq<T>)
    ensures |r| == if n < |s| then n else |s|
    ensures r == s[..|r|]
  {
    if n < |s| then s[..n] else s
  }

  /** The positions below `n` outside `ex`, in increasing order. */
  function KeptIndices(n: nat, ex: set<nat>): (ks: seq<nat>)
    ensures forall m :: 0 <= m < |ks| ==> ks[m] < n && ks[m] !in ex
    ensures forall m, l :: 0 <= m < l < |ks| ==> ks[m] < ks[l]
    ensures forall i: nat :: i < n && i !in ex ==> i in ks
  {
    if n == 0 then []
    else
      var ks := KeptIndices(n - 1, ex);
      if n - 1 in ex then ks else ks + [n - 1]
  }

  /** Only the excluded positions below `n` matter. */
  lemma {:induction false} KeptIndicesAgree(n: nat, a: set<nat>, b: set<nat>)
    requires forall i: nat :: i < n ==> (i in a <==> i in b)
    ensures KeptIndices(n, a) == KeptIndices(n, b)
  {
    if n > 0 {
      KeptIndicesAgree(n - 1, a, b);
    }
  }

  /** Python's `[x for i, x in enumerate(s) if i not in ex]`. */
  function Keep<T>(s: seq<T>, ex: set<nat>): (r: seq<T>)
    ensures |r| == |KeptIndices(|s|, ex)|
    ensures forall m :: 0 <= m < |r| ==> r[m] == s[KeptIndices(|s|, ex)[m]]
  {
    var ks := KeptIndices(|s|, ex);
    seq(|ks|, m requires 0 <= m < |ks| => s[ks[m]])
  }

  /** The values present in `s`, in order: `[x for x in s if x is not None]`. */
  function Somes<T>(s: seq<Option<T>>): (r: seq<T>)
    ensures |r| <= |s|
    ensures forall x :: x in r ==> Some(x) in s
  {
    if |s| == 0 then []
    else (if s[0].Some? then [s[0].value] else []) + Somes(s[1..])
  }

  /** The values present from position `k` on: the one at `k`, if any, then the rest. */
  lemma SomesStep<T>(s: seq<Option<T>>, k: nat)
    requires k < |s|
    ensures Somes(s[k..]) == (if s[k].Some? then [s[k].value] else []) + Somes(s[k + 1..])
  {
    assert s[k..][1..] == s[k + 1..];
  }

  /** Every present value is kept. */
  lemma {:induction false} SomesComplete<T>(s: seq<Option<T>>, m: nat)
    requires m < |s| && s[m].Some?
    ensures s[m].value in Somes(s)
  {
    if m > 0 {
      assert s[1..][m - 1] == s[m];
      SomesComplete(s[1..], m - 1);
    }
  }

  /** Present values keep their relative order. */
  lemma {:induction false} SomesOrdered<T>(s: seq<Option<T>>, m1: nat, m2: nat)
    requires m1 < m2 < |s| && s[m1].Some? && s[m2].Some?
    ensures exists a, b :: 0 <= a < b < |Somes(s)| && Somes(s)[a] == s[m1].value && Somes(s)[b] == s[m2].value
  {
    var front := if s[0].Some? then [s[0].value] else [];
    var rest := Somes(s[1..]);
    assert Somes(s) == front + rest;
    assert s[1..][m2 - 1] == s[m2];
    if m1 > 0 {
      assert s[1..][m1 - 1] == s[m1];
      SomesOrdered(s[1..], m1 - 1, m2 - 1);
      var a, b :| 0 <= a < b < |rest| && rest[a] == s[m1].value && rest[b] == s[m2].value;
      assert Somes(s)[|front| + a] == s[m1].value && Somes(s)[|front| + b] == s[m2].value;
    } else {
      SomesComplete(s[1..], m2 - 1);
      var b :| 0 <= b < |rest| && rest[b] == s[m2].value;
      assert Somes(s)[0] == s[0].value && Somes(s)[b + 1] == s[m2].value;
    }
  }

  /** The sequences of `ss` laid end to end. */
  function Flatten<T>(ss: seq<seq<T>>): seq<T> {
    if |ss| == 0 then [] else Flatten(ss[..|ss| - 1]) + ss[|ss| - 1]
  }

  /** Laying out the first `i` sequences gives a prefix of laying out all of them. */
  lemma {:induction false} FlattenPrefix<T>(ss: seq<seq<T>>, i: nat)
    requires i <= |ss|
    ensures |Flatten(ss[..i])| <= |Flatten(ss)|
    ensures Flatten(ss)[..|Flatten(ss[..i])|] == Flatten(ss[..i])
    decreases |ss|
  {
    if i < |ss| {
      var init := ss[..|ss| - 1];
      assert init[..i] == ss[..i];
      FlattenPrefix(init, i);
      assert (Flatten(init) + ss[|ss| - 1])[..|Flatten(init)|] == Flatten(init);
    } else {
      assert ss[..i] == ss;
    }
  }

  /** Sequence `i` sits in the layout right after the sequences before it. */
  lemma FlattenSpan<T>(ss: seq<seq<T>>, i: nat)
    requires i < |ss|
    ensures |Flatten(ss[..i])| + |ss[i]| <= |Flatten(ss)|
    ensures Flatten(ss)[|Flatten(ss[..i])|..|Flatten(ss[..i])| + |ss[i]|] == ss[i]
  {
    FlattenPrefix(ss, i + 1);
    assert ss[..i + 1][..i] == ss[..i];
  }
}

=== FILE: crosstab.dfy ===
/**
  The per-block part of `parse_workbook` (crosstab_parser.py:58-107): each
  block `_find_blocks` returns is cut from the sheet, stripped, and read as a
  table with a header row, a title, row labels, column labels, a numeric
  matrix and an id.
 */
module Crosstab {

  import opened Common
  import opened Text
  import opened Numbers
  import opened Grid
  import opened Blocks

  /** One sheet of the workbook as `xls.parse(name, header=None)` returns it. */
  datatype Sheet = Sheet(name: string, frame: Frame)

  /**
    The table record of crosstab_parser.py:96-104. A `None` in `values` is
    pandas' NaN: a missing cell or one `pd.to_numeric` could not read.
   */
  datatype Table = Table(
    id: string,
    sheet: string,
    title: string,
    rowLabels: seq<string>,
    colLabels: seq<string>,
    values: seq<seq<Option<int>>>,
    blockStart: nat,
    blockEnd: nat)

  /** `fillna("").astype(str)` of one cell. */
  function CellText(c: Cell): string {
    match c
    case Empty => ""
    case Number(t) => NumberLabel(t)
    case Text(s) => s
  }

  /** `pd.to_numeric(cell, errors="coerce")`: text that is not a number becomes NaN. */
  function ToNumber(c: Cell): (r: Option<int>)
    ensures c.Empty? ==> r.None?
    ensures c.Number? ==> r == Some(c.tenths)
  {
    match c
    case Empty => None
    case Number(t) => Some(t)
    case Text(s) => ParseDecimal(s)
  }

  /** A row with at least two non-null cells can be the header. */
  predicate Wide(row: seq<Cell>) {
    RowCount(row) >= 2
  }

  /** `min(5, rows)`: how many leading rows are tried as the header. */
  function HeaderLimit(rows: seq<seq<Cell>>): nat {
    if |rows| < 5 then |rows| else 5
  }

  /** The header loop of crosstab_parser.py:69-72 from row `r` on. */
  function FindHeader(rows: seq<seq<Cell>>, r: nat): (h: Option<nat>)
    requires r <= HeaderLimit(rows)
    ensures h.Some? ==> r <= h.value < HeaderLimit(rows) && Wide(rows[h.value])
    ensures forall k :: r <= k < HeaderLimit(rows) && (h.None? || k < h.value) ==> !Wide(rows[k])
    decreases HeaderLimit(rows) - r
  {
    if r == HeaderLimit(rows) then None
    else if Wide(rows[r]) then Some(r)
    else FindHeader(rows, r + 1)
  }

  /**
    The header row (crosstab_parser.py:67-74): the first of the first five
    rows with two non-null cells, otherwise row 0.
   */
  function HeaderRow(rows: seq<seq<Cell>>): (h: nat)
    ensures |rows| > 0 ==> h < |rows|
    ensures || (h < HeaderLimit(rows) && Wide(rows[h]) && forall k :: 0 <= k < h ==> !Wide(rows[k]))
            || (h == 0 && forall k :: 0 <= k < HeaderLimit(rows) ==> !Wide(rows[k]))
  {
    FindHeader(rows, 0).GetOr(0)
  }

  /** The first row from `r` on, below `h`, that has a non-null cell; `h` if none does. */
  function FirstFilledRow(rows: seq<seq<Cell>>, r: nat, h: nat): (k: nat)
    requires r <= h <= |rows|
    ensures r <= k <= h
    ensures forall j :: r <= j < k ==> EmptyRow(rows[j])
    ensures k < h ==> !EmptyRow(rows[k])
    decreases h - r
  {
    if r == h || !EmptyRow(rows[r]) then r else FirstFilledRow(rows, r + 1, h)
  }

  /** The position of the first non-null cell of a row, or its length. */
  function FirstFilled(row: seq<Cell>): (j: nat)
    ensures j <= |row|
    ensures forall k :: 0 <= k < j ==> row[k] == Empty
    ensures j < |row| ==> row[j] != Empty
  {
    if |row| == 0 || row[0] != Empty then 0 else 1 + FirstFilled(row[1..])
  }

  /** `row.dropna().astype(str).tolist()[0]`: the text of a row's first non-null cell. */
  function LeadText(row: seq<Cell>): string
    requires !EmptyRow(row)
  {
    CellText(row[FirstFilled(row)])
  }

  /** The generated title `f"{s} table {bi}"`. */
  function FallbackTitle(sheet: string, bi: nat): string {
    sheet + " table " + NatToString(bi)
  }

  /**
    The title (crosstab_parser.py:84-92): the first non-null cell of the first
    row above the header that has one; the generated title when there is no
    such row or that cell's text is empty.
   */
  function TitleOf(sheet: string, bi: nat, rows: seq<seq<Cell>>, h: nat): (t: string)
    requires h <= |rows|
    ensures t != ""
    ensures (forall j :: 0 <= j < h ==> EmptyRow(rows[j])) ==> t == FallbackTitle(sheet, bi)
    ensures forall r: nat :: FirstFilledIs(rows, h, r) ==>
              t == (if LeadText(rows[r]) != "" then LeadText(rows[r]) else FallbackTitle(sheet, bi))
  {
    var r := FirstFilledRow(rows, 0, h);
    FirstFilledUnique(rows, h, r);
    var found := if r < h then LeadText(rows[r]) else "";
    if found != "" then found else FallbackTitle(sheet, bi)
  }

  /** Row `r`, above row `h`, is the first row with a non-null cell. */
  predicate FirstFilledIs(rows: seq<seq<Cell>>, h: nat, r: nat)
    requires h <= |rows|
  {
    r < h && !EmptyRow(rows[r]) && forall j :: 0 <= j < r ==> EmptyRow(rows[j])
  }

  /** The title loop finds the one first filled row, when there is one. */
  lemma FirstFilledUnique(rows: seq<seq<Cell>>, h: nat, k: nat)
    requires h <= |rows| && k == FirstFilledRow(rows, 0, h)
    ensures forall r: nat :: FirstFilledIs(rows, h, r) ==> k == r
    ensures k == h ==> forall j :: 0 <= j < h ==> EmptyRow(rows[j])
  {
  }

  /** The id `f"{s}#{bi}"`. */
  function MakeId(sheet: string, bi: nat): string {
    sheet + "#" + NatToString(bi)
  }

  /** Two ids agree only for the same sheet and the same block ordinal. */
  lemma IdInjective(s1: string, a: nat, s2: string, b: nat)
    requires MakeId(s1, a) == MakeId(s2, b)
    ensures s1 == s2 && a == b
  {
    var d1, d2 := NatToString(a), NatToString(b);
    var x := MakeId(s1, a);
    HashThenDigits(s1, d1);
    HashThenDigits(s2, d2);
    if |d1| == |d2| {
      assert d1 == x[|x| - |d1|..] == d2;
      assert s1 == x[..|s1|] == s2;
      NatToStringInjective(a, b);
    }
  }

  /** In `s + "#" + d` the `#` sits at `|s|` and the digits of `d` follow it. */
  lemma HashThenDigits(s: string, d: string)
    requires AllDigits(d)
    ensures (s + "#" + d)[|s|] == '#'
    ensures forall j :: 0 <= j < |d| ==> (s + "#" + d)[|s| + 1 + j] == d[j] && d[j] != '#'
  {
  }

  /** The shape invariant of a table: one label and one value row per body row, one value per column label. */
  predicate WellShaped(t: Table) {
    && |t.rowLabels| == |t.values|
    && |t.colLabels| >= 1
    && forall i :: 0 <= i < |t.values| ==> |t.values[i]| == |t.colLabels|
  }

  /**
    The table read from a stripped block `sub` (crosstab_parser.py:67-104):
    the header row gives the column labels, the rows below it the row labels
    (first column) and the values (the other columns).
   */
  function TableOf(sheet: string, bi: nat, sub: Frame, blk: Block): (t: Table)
    requires Rectangular(sub) && |sub.rows| >= 2 && sub.width >= 2
    ensures WellShaped(t)
    ensures t.id == MakeId(sheet, bi) && t.sheet == sheet
    ensures t.blockStart == blk.start && t.blockEnd == blk.end
    ensures |t.rowLabels| == |sub.rows| - HeaderRow(sub.rows) - 1
    ensures |t.colLabels| == sub.width - 1
    ensures t.title == TitleOf(sheet, bi, sub.rows, HeaderRow(sub.rows))
  {
    var h := HeaderRow(sub.rows);
    var body := sub.rows[h + 1..];
    var header := seq(sub.width - 1, j requires 0 <= j < sub.width - 1 => CellText(sub.rows[h][j + 1]));
    var labels := seq(|body|, i requires 0 <= i < |body| => CellText(body[i][0]));
    var values := seq(|body|, i requires 0 <= i < |body| =>
                      seq(sub.width - 1, j requires 0 <= j < sub.width - 1 => ToNumber(body[i][j + 1])));
    Table(MakeId(sheet, bi), sheet, TitleOf(sheet, bi, sub.rows, h), labels, header, values, blk.start, blk.end)
  }

  /** What `TableOf` reads from each cell of the stripped block, whose header is row `h`. */
  lemma TableContents(t: Table, sheet: string, bi: nat, sub: Frame, blk: Block, h: nat)
    requires Rectangular(sub) && |sub.rows| >= 2 && sub.width >= 2
    requires t == TableOf(sheet, bi, sub, blk) && h == HeaderRow(sub.rows)
    ensures forall j :: 0 <= j < |t.colLabels| ==> t.colLabels[j] == CellText(sub.rows[h][j + 1])
    ensures forall i :: 0 <= i < |t.rowLabels| ==> t.rowLabels[i] == CellText(sub.rows[h + 1 + i][0])
    ensures forall i, j :: 0 <= i < |t.rowLabels| && 0 <= j < |t.colLabels| ==>
              t.values[i][j] == ToNumber(sub.rows[h + 1 + i][j + 1])
  {
  }

  /** The rows `st..en` of the block, across the whole sheet: `raw.iloc[st:en+1, :]`. */
  function BlockBand(f: Frame, blk: Block): (b: Box)
    requires Rectangular(f) && blk.start <= blk.end < |f.rows|
    ensures InFrame(f, b) && b.top == blk.start && b.bottom == blk.end + 1
  {
    Box(blk.start, blk.end + 1, 0, f.width)
  }

  /** `raw.iloc[st:en+1, :]` followed by `_strip_edges`. */
  function BlockFrame(f: Frame, blk: Block): (sub: Frame)
    requires Rectangular(f) && blk.start <= blk.end < |f.rows|
    ensures Rectangular(sub)
    ensures CellCount(sub.rows) == CellCount(f.rows[blk.start..blk.end + 1])
  {
    var band := Crop(f, BlockBand(f, blk));
    assert band.rows == f.rows[blk.start..blk.end + 1] by {
      forall i | 0 <= i < |band.rows| ensures band.rows[i] == f.rows[blk.start + i] {
        assert f.rows[blk.start + i][0..f.width] == f.rows[blk.start + i];
      }
    }
    StripEdges(band)
  }

  /**
    The stripped block is a piece of the sheet lying within the block's
    rows, with its top-left cell at the sheet coordinates `StripTop` and
    `StripLeft` give for the block's band.
   */
  lemma BlockSits(f: Frame, blk: Block)
    requires Rectangular(f) && blk.start <= blk.end < |f.rows|
    ensures blk.start <= StripTop(f, BlockBand(f, blk))
    ensures StripTop(f, BlockBand(f, blk)) + |BlockFrame(f, blk).rows| <= blk.end + 1
    ensures SitsAt(BlockFrame(f, blk), f, StripTop(f, BlockBand(f, blk)), StripLeft(f, BlockBand(f, blk)))
  {
    StrippedSits(f, BlockBand(f, blk));
  }

  /**
    The table's labels and values are cells of `f`: with the header in row
    `top` and the label column at `left`, column label `j` is the header cell
    `j + 1` columns right of `left`, row label `i` the cell at `left` in the
    `i`-th row below the header, and each value the cell in that row under
    its column label, read as a number.
   */
  predicate ReadFrom(t: Table, f: Frame, top: nat, left: nat)
    requires WellShaped(t) && Rectangular(f)
  {
    && top + |t.rowLabels| < |f.rows| && left + |t.colLabels| < f.width
    && (forall j :: 0 <= j < |t.colLabels| ==> t.colLabels[j] == CellText(f.rows[top][left + 1 + j]))
    && (forall i :: 0 <= i < |t.rowLabels| ==> t.rowLabels[i] == CellText(f.rows[top + 1 + i][left]))
    && (forall i, j :: 0 <= i < |t.rowLabels| && 0 <= j < |t.colLabels| ==>
          t.values[i][j] == ToNumber(f.rows[top + 1 + i][left + 1 + j]))
  }

  /** The sheet row holding the header of the stripped block. */
  function HeaderTop(f: Frame, blk: Block): nat
    requires Rectangular(f) && blk.start <= blk.end < |f.rows|
  {
    StripTop(f, BlockBand(f, blk)) + HeaderRow(BlockFrame(f, blk).rows)
  }

  /** The sheet column holding the row labels of the stripped block. */
  function LabelColumn(f: Frame, blk: Block): nat
    requires Rectangular(f) && blk.start <= blk.end < |f.rows|
  {
    StripLeft(f, BlockBand(f, blk))
  }

  /**
    The table read from a block, in sheet coordinates (crosstab_parser.py:61-82):
    its header row and the body rows below it lie within the block's rows,
    and its labels and values are the sheet's cells there.
   */
  lemma TableCells(sheet: string, bi: nat, f: Frame, blk: Block, t: Table)
    requires Rectangular(f) && blk.start <= blk.end < |f.rows|
    requires BuildTable(sheet, bi, f, blk) == Some(t)
    ensures WellShaped(t)
    ensures blk.start <= HeaderTop(f, blk) && HeaderTop(f, blk) + |t.rowLabels| <= blk.end
    ensures ReadFrom(t, f, HeaderTop(f, blk), LabelColumn(f, blk))
  {
    var sub := BlockFrame(f, blk);
    var r0 := StripTop(f, BlockBand(f, blk));
    BlockSits(f, blk);
    CellsAt(t, sheet, bi, sub, blk, f, r0, LabelColumn(f, blk), HeaderTop(f, blk));
  }

  /** `TableOf` on a frame that sits in `f`, read in `f`'s coordinates. */
  lemma CellsAt(t: Table, sheet: string, bi: nat, sub: Frame, blk: Block, f: Frame, r0: nat, left: nat, top: nat)
    requires Rectangular(sub) && |sub.rows| >= 2 && sub.width >= 2
    requires t == TableOf(sheet, bi, sub, blk)
    requires Rectangular(f) && SitsAt(sub, f, r0, left) && top == r0 + HeaderRow(sub.rows)
    ensures WellShaped(t)
    ensures top + |t.rowLabels| < r0 + |sub.rows|
    ensures ReadFrom(t, f, top, left)
  {
    var h := HeaderRow(sub.rows);
    TableContents(t, sheet, bi, sub, blk, h);
    HeaderCellsAt(t, sub, f, r0, left, h, top);
    LabelCellsAt(t, sub, f, r0, left, h, top);
    ValueCellsAt(t, sub, f, r0, left, h, top);
  }

  /** Labels read from header row `h` of `sub` are the cells of sheet row `top`. */
  lemma HeaderCellsAt(t: Table, sub: Frame, f: Frame, r0: nat, left: nat, h: nat, top: nat)
    requires Rectangular(f) && SitsAt(sub, f, r0, left) && Rectangular(sub) && h < |sub.rows| && top == r0 + h
    requires |t.colLabels| == sub.width - 1
    requires forall j :: 0 <= j < |t.colLabels| ==> t.colLabels[j] == CellText(sub.rows[h][j + 1])
    ensures forall j :: 0 <= j < |t.colLabels| ==> t.colLabels[j] == CellText(f.rows[top][left + 1 + j])
  {
    forall j | 0 <= j < |t.colLabels| ensures t.colLabels[j] == CellText(f.rows[top][left + 1 + j]) {
      assert sub.rows[h][j + 1] == f.rows[r0 + h][left + (j + 1)];
    }
  }

  /** Labels read from the first column of `sub` below row `h` are the cells of sheet column `left`. */
  lemma LabelCellsAt(t: Table, sub: Frame, f: Frame, r0: nat, left: nat, h: nat, top: nat)
    requires Rectangular(f) && SitsAt(sub, f, r0, left) && Rectangular(sub) && sub.width >= 1 && top == r0 + h
    requires h + 1 + |t.rowLabels| <= |sub.rows|
    requires forall i :: 0 <= i < |t.rowLabels| ==> t.rowLabels[i] == CellText(sub.rows[h + 1 + i][0])
    ensures forall i :: 0 <= i < |t.rowLabels| ==> t.rowLabels[i] == CellText(f.rows[top + 1 + i][left])
  {
    forall i | 0 <= i < |t.rowLabels| ensures t.rowLabels[i] == CellText(f.rows[top + 1 + i][left]) {
      assert sub.rows[h + 1 + i][0] == f.rows[r0 + (h + 1 + i)][left + 0];
    }
  }

  /** Values read from the body of `sub` are the cells of the sheet below and right of the labels. */
  lemma ValueCellsAt(t: Table, sub: Frame, f: Frame, r0: nat, left: nat, h: nat, top: nat)
    requires Rectangular(f) && SitsAt(sub, f, r0, left) && Rectangular(sub) && top == r0 + h && WellShaped(t)
    requires h + 1 + |t.rowLabels| <= |sub.rows| && |t.colLabels| == sub.width - 1
    requires forall i, j :: 0 <= i < |t.rowLabels| && 0 <= j < |t.colLabels| ==>
               t.values[i][j] == ToNumber(sub.rows[h + 1 + i][j + 1])
    ensures forall i, j :: 0 <= i < |t.rowLabels| && 0 <= j < |t.colLabels| ==>
              t.values[i][j] == ToNumber(f.rows[top + 1 + i][left + 1 + j])
  {
    forall i, j | 0 <= i < |t.rowLabels| && 0 <= j < |t.colLabels|
      ensures t.values[i][j] == ToNumber(f.rows[top + 1 + i][left + 1 + j])
    {
      assert sub.rows[h + 1 + i][j + 1] == f.rows[r0 + (h + 1 + i)][left + (j + 1)];
    }
  }



  /**
    One iteration of the block loop (crosstab_parser.py:61-105): a block that
    strips down to fewer than two rows or columns is skipped.
   */
  function BuildTable(sheet: string, bi: nat, f: Frame, blk: Block): (r: Option<Table>)
    requires Rectangular(f) && blk.start <= blk.end < |f.rows|
    ensures var sub := BlockFrame(f, blk); r.None? <==> |sub.rows| < 2 || sub.width < 2
    ensures r.Some? ==> && WellShaped(r.value) && r.value.sheet == sheet && r.value.id == MakeId(sheet, bi)
                        && r.value.blockStart == blk.start && r.value.blockEnd == blk.end
  {
    var sub := BlockFrame(f, blk);
    if |sub.rows| < 2 || sub.width < 2 then None else Some(TableOf(sheet, bi, sub, blk))
  }

  /** The table carries the id of block ordinal `b` of its sheet, and that block's bounds. */
  ghost predicate FromBlock(t: Table, sheet: string, blocks: seq<Block>, lo: nat) {
    exists b :: lo < b <= |blocks| && t.id == MakeId(sheet, b) && blocks[b - 1] == Block(t.blockStart, t.blockEnd)
  }

  /** Every table comes from a block after block `lo`. */
  ghost predicate AllFromBlocks(ts: seq<Table>, sheet: string, blocks: seq<Block>, lo: nat) {
    forall m :: 0 <= m < |ts| ==> FromBlock(ts[m], sheet, blocks, lo)
  }

  /** No two tables share an id. */
  predicate IdsDistinct(ts: seq<Table>) {
    forall m, n :: 0 <= m < n < |ts| ==> ts[m].id != ts[n].id
  }

  /** Every table belongs to `sheet` and is well shaped. */
  predicate AllOfSheet(ts: seq<Table>, sheet: string) {
    forall m :: 0 <= m < |ts| ==> ts[m].sheet == sheet && WellShaped(ts[m])
  }

  /** The block loop from block `k` on; `enumerate(blocks, start=1)` numbers block `k` as `k + 1`. */
  function TablesFrom(sheet: string, f: Frame, blocks: seq<Block>, k: nat): (ts: seq<Table>)
    requires Rectangular(f) && k <= |blocks|
    requires forall m :: 0 <= m < |blocks| ==> blocks[m].start <= blocks[m].end < |f.rows|
    ensures AllOfSheet(ts, sheet) && AllFromBlocks(ts, sheet, blocks, k) && IdsDistinct(ts)
    decreases |blocks| - k
  {
    if k == |blocks| then []
    else
      var rest := TablesFrom(sheet, f, blocks, k + 1);
      var r := BuildTable(sheet, k + 1, f, blocks[k]);
      if r.None? then
        FromLaterBlocks(rest, sheet, blocks, k);
        rest
      else
        PrependTable(sheet, blocks, k, r.value, rest);
        [r.value] + rest
  }

  /** Tables from blocks after `k + 1` come from blocks after `k`. */
  lemma FromLaterBlocks(ts: seq<Table>, sheet: string, blocks: seq<Block>, k: nat)
    requires AllFromBlocks(ts, sheet, blocks, k + 1)
    ensures AllFromBlocks(ts, sheet, blocks, k)
  {
    forall m | 0 <= m < |ts| ensures FromBlock(ts[m], sheet, blocks, k) {
      var b :| k + 1 < b <= |blocks| && ts[m].id == MakeId(sheet, b)
               && blocks[b - 1] == Block(ts[m].blockStart, ts[m].blockEnd);
    }
  }

  /** A table of block `k + 1` in front of the tables of later blocks keeps ids distinct. */
  lemma PrependTable(sheet: string, blocks: seq<Block>, k: nat, t: Table, rest: seq<Table>)
    requires k < |blocks| && t.sheet == sheet && WellShaped(t)
    requires t.id == MakeId(sheet, k + 1) && blocks[k] == Block(t.blockStart, t.blockEnd)
    requires AllOfSheet(rest, sheet) && AllFromBlocks(rest, sheet, blocks, k + 1) && IdsDistinct(rest)
    ensures AllOfSheet([t] + rest, sheet) && AllFromBlocks([t] + rest, sheet, blocks, k) && IdsDistinct([t] + rest)
  {
    var ts := [t] + rest;
    forall m | 0 <= m < |ts| ensures FromBlock(ts[m], sheet, blocks, k) && ts[m].sheet == sheet && WellShaped(ts[m]) {
      if m == 0 {
        assert FromBlock(t, sheet, blocks, k) by {
          assert k < k + 1 <= |blocks| && t.id == MakeId(sheet, k + 1);
        }
      } else {
        assert FromBlock(rest[m - 1], sheet, blocks, k + 1);
        var b :| k + 1 < b <= |blocks| && rest[m - 1].id == MakeId(sheet, b)
                 && blocks[b - 1] == Block(rest[m - 1].blockStart, rest[m - 1].blockEnd);
        assert ts[m] == rest[m - 1];
      }
    }
    forall m, n | 0 <= m < n < |ts| ensures ts[m].id != ts[n].id {
      assert ts[n] == rest[n - 1];
      if m == 0 {
        assert FromBlock(rest[n - 1], sheet, blocks, k + 1);
        var b :| k + 1 < b <= |blocks| && rest[n - 1].id == MakeId(sheet, b)
                 && blocks[b - 1] == Block(rest[n - 1].blockStart, rest[n - 1].blockEnd);
        if t.id == rest[n - 1].id {
          IdInjective(sheet, k + 1, sheet, b);
        }
      } else {
        assert ts[m] == rest[m - 1];
      }
    }
  }

  /** What building each block gives, in block order; block `m` is numbered `m + 1`. */
  function Built(sheet: string, f: Frame, blocks: seq<Block>): (r: seq<Option<Table>>)
    requires Rectangular(f)
    requires forall x :: 0 <= x < |blocks| ==> blocks[x].start <= blocks[x].end < |f.rows|
  {
    seq(|blocks|, m requires 0 <= m < |blocks| => BuildTable(sheet, m + 1, f, blocks[m]))
  }

  /**
    The block loop from block `k` on keeps exactly the tables those blocks
    build, in block order, skipping the blocks that build none.
   */
  lemma {:induction false} TablesFromBuilt(sheet: string, f: Frame, blocks: seq<Block>, k: nat)
    requires Rectangular(f) && k <= |blocks|
    requires forall x :: 0 <= x < |blocks| ==> blocks[x].start <= blocks[x].end < |f.rows|
    ensures TablesFrom(sheet, f, blocks, k) == Somes(Built(sheet, f, blocks)[k..])
    decreases |blocks| - k
  {
    if k < |blocks| {
      var all := Built(sheet, f, blocks);
      TablesFromBuilt(sheet, f, blocks, k + 1);
      TablesFromStep(sheet, f, blocks, k);
      SomesStep(all, k);
      assert all[k] == BuildTable(sheet, k + 1, f, blocks[k]);
    }
  }

  /** One turn of the block loop: block `k`'s table, if any, then the rest. */
  lemma TablesFromStep(sheet: string, f: Frame, blocks: seq<Block>, k: nat)
    requires Rectangular(f) && k < |blocks|
    requires forall x :: 0 <= x < |blocks| ==> blocks[x].start <= blocks[x].end < |f.rows|
    ensures TablesFrom(sheet, f, blocks, k)
            == (if BuildTable(sheet, k + 1, f, blocks[k]).Some? then [BuildTable(sheet, k + 1, f, blocks[k]).value] else [])
               + TablesFrom(sheet, f, blocks, k + 1)
  {
    var r := BuildTable(sheet, k + 1, f, blocks[k]);
    var rest := TablesFrom(sheet, f, blocks, k + 1);
    if r.Some? {
      assert TablesFrom(sheet, f, blocks, k) == [r.value] + rest;
    } else {
      assert TablesFrom(sheet, f, blocks, k) == rest;
      EmptyFront(rest);
    }
  }

  /** Nothing in front leaves a sequence as it is. */
  lemma EmptyFront(ts: seq<Table>)
    ensures [] + ts == ts
  {
  }

  /** The tables of one sheet, in block order. */
  function SheetTables(s: Sheet): (ts: seq<Table>)
    requires Rectangular(s.frame)
    ensures AllOfSheet(ts, s.name) && IdsDistinct(ts)
    ensures AllFromBlocks(ts, s.name, FindBlocks(s.frame), 0)
  {
    var blocks := FindBlocks(s.frame);
    assert forall m :: 0 <= m < |blocks| ==> blocks[m].start <= blocks[m].end < |s.frame.rows| by {
      assert Sound(s.frame, blocks);
    }
    TablesFrom(s.name, s.frame, blocks, 0)
  }

  /**
    The tables of one sheet are exactly those its blocks build, in block
    order: every block that yields a table contributes it, nothing else
    appears, and earlier blocks come first.
   */
  lemma SheetTablesBuilt(s: Sheet)
    requires Rectangular(s.frame)
    ensures forall x :: 0 <= x < |FindBlocks(s.frame)| ==>
              FindBlocks(s.frame)[x].start <= FindBlocks(s.frame)[x].end < |s.frame.rows|
    ensures SheetTables(s) == Somes(Built(s.name, s.frame, FindBlocks(s.frame)))
  {
    var blocks := FindBlocks(s.frame);
    assert Sound(s.frame, blocks);
    TablesFromBuilt(s.name, s.frame, blocks, 0);
    assert Built(s.name, s.frame, blocks)[0..] == Built(s.name, s.frame, blocks);
  }

  /** Every sheet of the workbook is a rectangular frame, as pandas returns it. */
  predicate Frames(sheets: seq<Sheet>) {
    forall i :: 0 <= i < |sheets| ==> Rectangular(sheets[i].frame)
  }

  /** Every table's id is its sheet's name, `#` and an ordinal. */
  ghost predicate SheetIds(ts: seq<Table>) {
    forall m :: 0 <= m < |ts| ==> SheetId(ts[m])
  }

  /** The table's id is its sheet's name, `#` and an ordinal. */
  ghost predicate SheetId(t: Table) {
    exists b: nat :: t.id == MakeId(t.sheet, b)
  }

  /** Every table belongs to one of the sheets. */
  ghost predicate InSheets(ts: seq<Table>, sheets: seq<Sheet>) {
    forall m :: 0 <= m < |ts| ==> exists i :: 0 <= i < |sheets| && ts[m].sheet == sheets[i].name
  }

  /** Every table is well shaped. */
  predicate AllShaped(ts: seq<Table>) {
    forall m :: 0 <= m < |ts| ==> WellShaped(ts[m])
  }

  /** `parse_workbook`: the tables of every sheet, sheet by sheet. */
  function ParseWorkbook(sheets: seq<Sheet>): (ts: seq<Table>)
    requires Frames(sheets)
    ensures AllShaped(ts) && InSheets(ts, sheets) && SheetIds(ts)
  {
    if |sheets| == 0 then []
    else
      var init := ParseWorkbook(sheets[..|sheets| - 1]);
      var last := SheetTables(sheets[|sheets| - 1]);
      AppendSheet(sheets, init, last);
      init + last
  }

  /** The tables of each sheet, sheet by sheet. */
  function PerSheet(sheets: seq<Sheet>): (r: seq<seq<Table>>)
    requires Frames(sheets)
  {
    seq(|sheets|, i requires 0 <= i < |sheets| => SheetTables(sheets[i]))
  }

  /**
    The workbook's tables are the tables of its sheets laid end to end in
    sheet order, each sheet's own in block order.
   */
  lemma {:induction false} WorkbookFlattens(sheets: seq<Sheet>)
    requires Frames(sheets)
    ensures ParseWorkbook(sheets) == Flatten(PerSheet(sheets))
  {
    if |sheets| > 0 {
      var n := |sheets| - 1;
      var pre := sheets[..n];
      WorkbookFlattens(pre);
      assert PerSheet(sheets)[..n] == PerSheet(pre);
      assert PerSheet(sheets)[n] == SheetTables(sheets[n]);
    }
  }

  /** The tables of the last sheet extend those of the sheets before it. */
  lemma AppendSheet(sheets: seq<Sheet>, init: seq<Table>, last: seq<Table>)
    requires |sheets| > 0
    requires AllShaped(init) && InSheets(init, sheets[..|sheets| - 1]) && SheetIds(init)
    requires AllOfSheet(last, sheets[|sheets| - 1].name)
    requires AllFromBlocks(last, sheets[|sheets| - 1].name, FindBlocks(sheets[|sheets| - 1].frame), 0)
    ensures AllShaped(init + last) && InSheets(init + last, sheets) && SheetIds(init + last)
  {
    var ts := init + last;
    var n := |sheets| - 1;
    forall m | 0 <= m < |ts|
      ensures WellShaped(ts[m])
      ensures exists i :: 0 <= i < |sheets| && ts[m].sheet == sheets[i].name
      ensures SheetId(ts[m])
    {
      if m < |init| {
        assert ts[m] == init[m];
        var i :| 0 <= i < n && init[m].sheet == sheets[..n][i].name;
        assert sheets[..n][i] == sheets[i];
        var a: nat :| init[m].id == MakeId(init[m].sheet, a);
      } else {
        var t := last[m - |init|];
        assert ts[m] == t;
        assert FromBlock(t, sheets[n].name, FindBlocks(sheets[n].frame), 0);
        var b :| 0 < b && t.id == MakeId(sheets[n].name, b);
        assert t.sheet == sheets[n].name;
        assert t.id == MakeId(t.sheet, b as nat);
      }
    }
  }

  /** Sheet names are distinct, as they are in a workbook. */
  predicate DistinctNames(sheets: seq<Sheet>) {
    forall i, j :: 0 <= i < j < |sheets| ==> sheets[i].name != sheets[j].name
  }

  /** Tables of one sheet after tables of other sheets: ids stay distinct. */
  lemma ConcatDistinct(init: seq<Table>, last: seq<Table>, name: string)
    requires IdsDistinct(init) && IdsDistinct(last) && SheetIds(init) && SheetIds(last)
    requires forall m :: 0 <= m < |init| ==> init[m].sheet != name
    requires forall m :: 0 <= m < |last| ==> last[m].sheet == name
    ensures IdsDistinct(init + last)
  {
    var ts := init + last;
    forall m, k | 0 <= m < k < |ts| ensures ts[m].id != ts[k].id {
      if k < |init| {
        assert ts[m] == init[m] && ts[k] == init[k];
      } else if m >= |init| {
        assert ts[m] == last[m - |init|] && ts[k] == last[k - |init|];
      } else {
        var t, u := init[m], last[k - |init|];
        assert ts[m] == t && ts[k] == u;
        var a: nat :| t.id == MakeId(t.sheet, a);
        var b: nat :| u.id == MakeId(u.sheet, b);
        if t.id == u.id {
          IdInjective(t.sheet, a, u.sheet, b);
        }
      }
    }
  }

  /** The ids of one sheet's tables carry that sheet's name. */
  lemma LastSheetIds(s: Sheet)
    requires Rectangular(s.frame)
    ensures SheetIds(SheetTables(s))
  {
    BlockIds(SheetTables(s), s.name, FindBlocks(s.frame));
  }

  /** Tables of one sheet's blocks carry ids made from the sheet's name. */
  lemma BlockIds(ts: seq<Table>, name: string, blocks: seq<Block>)
    requires AllOfSheet(ts, name) && AllFromBlocks(ts, name, blocks, 0)
    ensures SheetIds(ts)
  {
    forall m | 0 <= m < |ts| ensures SheetId(ts[m]) {
      var b :| 0 < b <= |blocks| && ts[m].id == MakeId(name, b)
               && blocks[b - 1] == Block(ts[m].blockStart, ts[m].blockEnd);
      assert ts[m].id == MakeId(ts[m].sheet, b as nat);
    }
  }

  /** Tables of sheets other than `name` do not belong to `name`. */
  lemma OtherSheets(ts: seq<Table>, sheets: seq<Sheet>, name: string)
    requires InSheets(ts, sheets)
    requires forall i :: 0 <= i < |sheets| ==> sheets[i].name != name
    ensures forall m :: 0 <= m < |ts| ==> ts[m].sheet != name
  {
  }

  /** Across a workbook whose sheet names differ, no two tables share an id. */
  lemma {:induction false} WorkbookIdsDistinct(sheets: seq<Sheet>)
    requires Frames(sheets) && DistinctNames(sheets)
    ensures IdsDistinct(ParseWorkbook(sheets))
  {
    if |sheets| > 0 {
      var n := |sheets| - 1;
      var pre := sheets[..n];
      assert forall i :: 0 <= i < n ==> pre[i] == sheets[i];
      WorkbookIdsDistinct(pre);
      NewSheetDistinct(sheets, ParseWorkbook(pre), SheetTables(sheets[n]));
    }
  }

  /** The last sheet's tables add no id the earlier sheets' tables have. */
  lemma NewSheetDistinct(sheets: seq<Sheet>, init: seq<Table>, last: seq<Table>)
    requires |sheets| > 0 && Frames(sheets) && DistinctNames(sheets)
    requires IdsDistinct(init) && SheetIds(init) && InSheets(init, sheets[..|sheets| - 1])
    requires last == SheetTables(sheets[|sheets| - 1])
    ensures IdsDistinct(init + last)
  {
    var n := |sheets| - 1;
    LastSheetIds(sheets[n]);
    OtherSheets(init, sheets[..n], sheets[n].name);
    ConcatDistinct(init, last, sheets[n].name);
  }
}

=== FILE: deck.dfy ===
/**
  Slides as the updater and the mapping helper see them. A shape has a name,
  an alt text and its content: a chart's data, a table's cell texts, a text
  box's text, or anything else (a picture, a connector).
 */
module Deck {

  import opened Common

  /**
    What `ChartData` holds once filled: the categories and one named series.
    A `None` value is a gap (Python's None or NaN).
   */
  datatype ChartData = ChartData(categories: seq<string>, seriesName: Option<string>, values: seq<Option<int>>)

  datatype Content =
    | Chart(data: ChartData)
    | Grid(cells: seq<seq<string>>)
    | TextBox(text: string)
    | Other

  datatype Shape = Shape(name: string, alt: string, content: Content)

  datatype Slide = Slide(shapes: seq<Shape>)

  /** A slide table: at least one row, every row as wide as the first. */
  predicate Rect(cells: seq<seq<string>>) {
    |cells| > 0 && forall r :: 0 <= r < |cells| ==> |cells[r]| == |cells[0]|
  }

  /** Every table on the slide is rectangular, as python-pptx tables are. */
  predicate GridsRect(shapes: seq<Shape>) {
    forall i :: 0 <= i < |shapes| && shapes[i].content.Grid? ==> Rect(shapes[i].content.cells)
  }

  /** Two contents of the same kind. */
  predicate SameKind(a: Content, b: Content) {
    && (a.Chart? <==> b.Chart?)
    && (a.Grid? <==> b.Grid?)
    && (a.TextBox? <==> b.TextBox?)
    && (a.Grid? ==> Rect(a.cells) == Rect(b.cells))
  }

  /** The same shapes, in the same order, with the same names, alt texts and kinds of content. */
  predicate SameFrame(a: seq<Shape>, b: seq<Shape>) {
    && |a| == |b|
    && forall i :: 0 <= i < |a| ==>
         a[i].name == b[i].name && a[i].alt == b[i].alt && SameKind(a[i].content, b[i].content)
  }

  lemma SameFrameTrans(a: seq<Shape>, b: seq<Shape>, c: seq<Shape>)
    requires SameFrame(a, b) && SameFrame(b, c)
    ensures SameFrame(a, c)
  {
  }

  /** `_find_shape` (deck_update.py:112-116): the first shape with the name. */
  function FindShape(shapes: seq<Shape>, name: string): (r: Option<nat>)
    ensures r.Some? ==> r.value < |shapes| && shapes[r.value].name == name
    ensures r.Some? ==> forall j :: 0 <= j < r.value ==> shapes[j].name != name
    ensures r.None? ==> forall j :: 0 <= j < |shapes| ==> shapes[j].name != name
  {
    if |shapes| == 0 then None
    else if shapes[0].name == name then Some(0)
    else
      var r := FindShape(shapes[1..], name);
      assert forall j :: 1 <= j < |shapes| ==> shapes[j] == shapes[1..][j - 1];
      if r.Some? then Some(r.value + 1) else None
  }
}

=== FILE: export.dfy ===
/**
  The exporter (pptx_exporter.py): the first deck built from the parsed
  tables. Every table gets a chart slide whose series follows the
  exporter's own exclusion and column rules, which differ slightly from the
  updater's, and optionally the table itself as a grid of texts. Every
  shape it adds is tagged with an alt text written by `_tag_shape`.
 */
module Export {

  import opened Common
  import opened Text
  import opened Numbers
  import opened Crosstab
  import opened AltText
  import opened Deck

  // ----- `_chart_type_map` (pptx_exporter.py:67-77) -----

  /** The python-pptx chart types the exporter uses. */
  datatype ChartType = BarClustered | ColumnClustered | Doughnut | LineMarkers

  const BarKinds: seq<string> := ["bar_h", "bar horizontal", "horizontal"]
  const ColumnKinds: seq<string> := ["bar_v", "bar", "column", "vertical"]
  const DoughnutKinds: seq<string> := ["donut", "doughnut"]
  const LineKinds: seq<string> := ["line"]

  /**
    The chart type for a requested kind, compared in lower case: the bar,
    doughnut and line spellings pick their type, and every other kind,
    including a missing or empty one, gives a column chart.
   */
  function ChartTypeMap(kind: Option<string>): (c: ChartType)
    ensures var k := Lower(kind.GetOr(""));
      && (c == BarClustered <==> k in BarKinds)
      && (c == Doughnut <==> k in DoughnutKinds)
      && (c == LineMarkers <==> k in LineKinds)
      && (c == ColumnClustered <==> k !in BarKinds && k !in DoughnutKinds && k !in LineKinds)
  {
    var k := Lower(kind.GetOr(""));
    if k in BarKinds then BarClustered
    else if k in ColumnKinds then ColumnClustered
    else if k in DoughnutKinds then Doughnut
    else if k in LineKinds then LineMarkers
    else ColumnClustered
  }

  /** The map ignores case: kinds that agree in lower case get the same chart type. */
  lemma ChartTypeCaseInsensitive(a: string, b: string)
    ensures ChartTypeMap(Some(a)) == ChartTypeMap(Some(Lower(a)))
    ensures Lower(a) == Lower(b) ==> ChartTypeMap(Some(a)) == ChartTypeMap(Some(b))
  {
    LowerIdempotent(a);
  }

  // ----- The chart series of `add_chart_slide` (pptx_exporter.py:231-263) -----

  /** `rlab.strip().lower()`: the exporter does not collapse inner whitespace. */
  function Folded(lab: string): string {
    Lower(Strip(lab))
  }

  predicate BaseLike(lab: string) {
    StartsWith(Folded(lab), "base")
  }

  const AveragePrefixes: seq<string> := ["mean", "average", "avg"]

  predicate AverageLike(lab: string) {
    StartsWithAny(Folded(lab), AveragePrefixes)
  }

  /** The first base row from position `i` on (pptx_exporter.py:232-236). */
  function FirstBaseFrom(labels: seq<string>, i: nat): (r: Option<nat>)
    requires i <= |labels|
    ensures r.Some? ==> i <= r.value < |labels| && BaseLike(labels[r.value])
    ensures r.Some? ==> forall j :: i <= j < r.value ==> !BaseLike(labels[j])
    ensures r.None? ==> forall j :: i <= j < |labels| ==> !BaseLike(labels[j])
    decreases |labels| - i
  {
    if i == |labels| then None
    else if BaseLike(labels[i]) then Some(i)
    else FirstBaseFrom(labels, i + 1)
  }

  /**
    The rows the exported chart leaves out (pptx_exporter.py:232-245): the
    FIRST row whose label starts with `base`, and every row starting with
    `mean`, `average` or `avg`. A second base row stays in the chart.
   */
  function ExportExclusions(labels: seq<string>): (ex: set<nat>)
    ensures forall i: nat :: i in ex <==>
      (i < |labels| && (AverageLike(labels[i]) || (BaseLike(labels[i]) && forall j :: 0 <= j < i ==> !BaseLike(labels[j]))))
  {
    var b := FirstBaseFrom(labels, 0);
    set i: nat | i < |labels| && (AverageLike(labels[i]) || b == Some(i))
  }

  /** The series column: the first "Total", else column 0, else none. */
  function TotalIdx(cols: seq<string>): (r: Option<nat>)
    ensures r.None? <==> |cols| == 0
    ensures "Total" in cols ==> r.Some? && IsFirstIndex(cols, "Total", r.value)
    ensures |cols| > 0 && "Total" !in cols ==> r == Some(0)
  {
    if "Total" in cols then Some(IndexOf(cols, "Total"))
    else if |cols| > 0 then Some(0)
    else None
  }

  /** `row[c] if c < len(row) else None`, row by row. */
  function ColumnOf(values: seq<seq<Option<int>>>, c: nat): (col: seq<Option<int>>)
    ensures |col| == |values|
    ensures forall j :: 0 <= j < |values| ==> col[j] == if c < |values[j]| then values[j][c] else None
  {
    seq(|values|, j requires 0 <= j < |values| => if c < |values[j]| then values[j][c] else None)
  }

  /** The exporter's chart data for the rows outside `ex`. */
  function ChartFrom(t: Table, ex: set<nat>): (d: ChartData)
    ensures |t.rowLabels| == |t.values| ==> |d.categories| == |d.values|
    ensures |d.categories| == |KeptIndices(|t.rowLabels|, ex)|
    ensures forall m :: 0 <= m < |d.categories| ==> d.categories[m] == t.rowLabels[KeptIndices(|t.rowLabels|, ex)[m]]
    ensures d.seriesName == Some(if |t.colLabels| > 0 then "Total" else "Series")
    ensures |t.colLabels| == 0 ==> forall m :: 0 <= m < |d.values| ==> d.values[m] == Some(0)
    ensures |t.colLabels| > 0 ==> |d.values| == |KeptIndices(|t.values|, ex)|
    ensures |t.colLabels| > 0 ==> forall m :: 0 <= m < |d.values| ==>
      var j := KeptIndices(|t.values|, ex)[m];
      var c := TotalIdx(t.colLabels).value;
      d.values[m] == if c < |t.values[j]| then t.values[j][c] else None
  {
    var cats := Keep(t.rowLabels, ex);
    match TotalIdx(t.colLabels)
    case Some(c) => ChartData(cats, Some("Total"), Keep(ColumnOf(t.values, c), ex))
    case None => ChartData(cats, Some("Series"), seq(|cats|, _ => Some(0)))
  }

  /**
    The chart data `add_chart_slide` builds: the labels of the rows not left
    out, in order, with their values in the series column, and a series
    named "Total", or "Series" with every value 0 when the table has no
    columns.
   */
  function ExportChart(t: Table): (d: ChartData)
    ensures |t.rowLabels| == |t.values| ==> |d.categories| == |d.values|
    ensures d.seriesName == Some(if |t.colLabels| > 0 then "Total" else "Series")
  {
    ChartFrom(t, ExportExclusions(t.rowLabels))
  }

  /**
    The exported chart shows every row except the average rows and the
    first base row, and nothing else; the first base row never shows.
   */
  lemma ExportChartRows(t: Table)
    ensures var d := ExportChart(t);
      && (forall m :: 0 <= m < |d.categories| ==> d.categories[m] in t.rowLabels && !AverageLike(d.categories[m]))
      && (forall i :: 0 <= i < |t.rowLabels| && !AverageLike(t.rowLabels[i])
            && !(BaseLike(t.rowLabels[i]) && forall j :: 0 <= j < i ==> !BaseLike(t.rowLabels[j]))
            ==> t.rowLabels[i] in d.categories)
  {
    var ex := ExportExclusions(t.rowLabels);
    var d := ChartFrom(t, ex);
    var ks := KeptIndices(|t.rowLabels|, ex);
    forall i | 0 <= i < |t.rowLabels| && !AverageLike(t.rowLabels[i])
      && !(BaseLike(t.rowLabels[i]) && forall j :: 0 <= j < i ==> !BaseLike(t.rowLabels[j]))
      ensures t.rowLabels[i] in d.categories
    {
      var m :| 0 <= m < |ks| && ks[m] == i;
      assert d.categories[m] == t.rowLabels[i];
    }
  }

  // ----- `_add_table` (pptx_exporter.py:187-203) -----

  /** One body row of the grid: the label, then the first `width` values formatted, then empty cells. */
  function BodyRow(lab: string, row: seq<Option<int>>, width: nat, fmt: Option<int> -> string): (r: seq<string>)
    ensures |r| == 1 + width && r[0] == lab
    ensures forall c :: 1 <= c <= width ==> r[c] == if c - 1 < |row| then fmt(row[c - 1]) else ""
  {
    [lab] + seq(width, c requires 0 <= c < width => if c < |row| then fmt(row[c]) else "")
  }

  /**
    The text grid `_add_table` writes, with the formatter given: an empty
    corner, the column labels across the top, the row labels down the side,
    and each value under its column; a row shorter than the header leaves
    its last cells empty, and values past the last column are ignored.
   */
  function ExportGridWith(t: Table, fmt: Option<int> -> string): (g: seq<seq<string>>)
    requires |t.rowLabels| <= |t.values|
    ensures Rect(g) && |g| == 1 + |t.rowLabels| && |g[0]| == 1 + |t.colLabels|
    ensures g[0] == [""] + t.colLabels
    ensures forall i :: 1 <= i < |g| ==> g[i][0] == t.rowLabels[i - 1]
    ensures forall i, c :: 1 <= i < |g| && 1 <= c < |g[0]| ==>
      g[i][c] == if c - 1 < |t.values[i - 1]| then fmt(t.values[i - 1][c - 1]) else ""
  {
    var w := |t.colLabels|;
    var body := seq(|t.rowLabels|, i requires 0 <= i < |t.rowLabels| => BodyRow(t.rowLabels[i], t.values[i], w, fmt));
    [[""] + t.colLabels] + body
  }

  /** The grid with the corrected formatter: a NaN value gives an empty cell. */
  function ExportGrid(t: Table): (g: seq<seq<string>>)
    requires |t.rowLabels| <= |t.values|
    ensures Rect(g) && |g| == 1 + |t.rowLabels| && |g[0]| == 1 + |t.colLabels|
    ensures forall i, c :: 1 <= i < |g| && 1 <= c < |g[0]| ==>
      (g[i][c] == "" <==> c - 1 >= |t.values[i - 1]| || t.values[i - 1][c - 1].None?)
  {
    ExportGridWith(t, FormatValue)
  }

  /** The grid as written at pptx_exporter.py:203: a NaN value prints as `nan`. */
  function ExportGridAsWritten(t: Table): (g: seq<seq<string>>)
    requires |t.rowLabels| <= |t.values|
    ensures Rect(g) && |g| == 1 + |t.rowLabels| && |g[0]| == 1 + |t.colLabels|
    ensures forall i, c :: 1 <= i < |g| && 1 <= c < |g[0]| && c - 1 < |t.values[i - 1]| && t.values[i - 1][c - 1].None? ==>
      g[i][c] == "nan"
  {
    ExportGridWith(t, FormatAsWritten)
  }

  /**
    A table whose only value is NaN: as written the exported cell reads
    `nan`, the corrected grid leaves it empty.
   */
  lemma NanCellExported()
    ensures var t := Table("S#1", "S", "Q1", ["a"], ["Total"], [[None]], 0, 2);
            ExportGridAsWritten(t)[1][1] == "nan" && ExportGrid(t)[1][1] == ""
  {
  }

  // ----- Slides (pptx_exporter.py:32-65, 216-323, 342-371) -----

  /** The arguments of one `_tag_shape` call: object type, table title and column. */
  datatype TagCall = TagCall(objType: string, title: string, colKey: Option<string>)

  /** A shape the exporter adds, with the `_tag_shape` call made on it, if any. */
  datatype Placed = Placed(content: Content, tag: Option<TagCall>)

  /**
    A slide of the exported deck. A chart slide holds its title box, the
    question box when a question was given, the chart, the table when one
    was asked for, and the base box when a base text was given.
   */
  datatype ExportedSlide =
    | TitleSlide(heading: Placed)
    | ChartSlide(kind: ChartType, heading: Placed, question: Option<Placed>, chart: Placed,
                 table: Option<Placed>, base: Option<Placed>)

  function OptionalShape(p: Option<Placed>): seq<Placed> {
    if p.Some? then [p.value] else []
  }

  /** The shapes the exporter adds to a slide, in order; the layout's own placeholders are not listed. */
  function Shapes(s: ExportedSlide): (r: seq<Placed>)
    ensures s.TitleSlide? ==> r == [s.heading]
    ensures s.ChartSlide? ==> |r| > 0 && r[0] == s.heading
  {
    match s
    case TitleSlide(h) => [h]
    case ChartSlide(_, h, q, c, t, b) => [h] + (OptionalShape(q) + [c] + OptionalShape(t) + OptionalShape(b))
  }

  /**
    The alt text a shape carries: what `_tag_shape` writes for a known
    object type, with the default bindings, and nothing otherwise.
   */
  function AltOf(p: Placed): string {
    if p.tag.Some? && p.tag.value.objType in TagTypes then
      var c := p.tag.value;
      Encode(TagEntries(c.objType, Some(c.title), c.colKey, Some(QuestionBinding), Some(BaseBinding)).value)
    else ""
  }

  /**
    `add_chart_slide`: a chart slide whose heading is the given title, else
    the table's, whose question box reads `Question: ` and the question,
    whose chart shows `ExportChart` tagged with the series name, and whose
    table and base boxes are there exactly when asked for.
   */
  function AddChartSlide(t: Table, kind: string, includeTable: bool, chartTitle: Option<string>,
                         baseText: Option<string>, questionText: Option<string>): (s: ExportedSlide)
    requires includeTable ==> |t.rowLabels| <= |t.values|
    ensures s.ChartSlide? && s.kind == ChartTypeMap(Some(kind))
    ensures s.heading.content == TextBox(if Truthy(chartTitle) then chartTitle.value else t.title)
    ensures s.question.Some? <==> Truthy(questionText)
    ensures s.question.Some? ==> s.question.value.content == TextBox("Question: " + questionText.value)
    ensures s.chart == Placed(Chart(ExportChart(t)), Some(TagCall("chart", t.title, ExportChart(t).seriesName)))
    ensures s.table.Some? <==> includeTable
    ensures s.table.Some? ==> s.table.value == Placed(Grid(ExportGrid(t)), Some(TagCall("table", t.title, None)))
    ensures s.base.Some? <==> Truthy(baseText)
    ensures s.base.Some? ==> s.base.value.content == TextBox(baseText.value)
  {
    var heading := if Truthy(chartTitle) then chartTitle.value else t.title;
    var titleBox := Placed(TextBox(heading), if t.title != "" then Some(TagCall("text_title", t.title, Some("Total"))) else None);
    var question := if Truthy(questionText)
      then Some(Placed(TextBox("Question: " + questionText.value), Some(TagCall("question_text", t.title, Some("Total")))))
      else None;
    var d := ExportChart(t);
    var chart := Placed(Chart(d), Some(TagCall("chart", t.title, d.seriesName)));
    var table := if includeTable then Some(Placed(Grid(ExportGrid(t)), Some(TagCall("table", t.title, None)))) else None;
    var base := if Truthy(baseText) then Some(Placed(TextBox(baseText.value), Some(TagCall("text_base", t.title, None)))) else None;
    ChartSlide(ChartTypeMap(Some(kind)), titleBox, question, chart, table, base)
  }

  /**
    What the user chose for one table. A field is None when the key is
    absent from the selection dict.
   */
  datatype Selection = Selection(chartType: Option<string>, title: Option<string>,
                                 baseText: Option<string>, questionText: Option<string>)

  /** The chart types that ask for the table under the chart. */
  const TableVariants: seq<string> := ["chart+table", "chart_with_table", "chart table"]

  /** `selections.get(t["id"], {})`. */
  function SelectionOf(selections: map<string, Selection>, t: Table): Selection {
    if t.id in selections then selections[t.id] else Selection(None, None, None, None)
  }

  /** The requested chart type, "bar_h" when none is given. */
  function RequestedKind(sel: Selection): string {
    sel.chartType.GetOr("bar_h")
  }

  /** The table is shown under the chart. */
  predicate WithTable(sel: Selection) {
    Lower(RequestedKind(sel)) in TableVariants
  }

  /** The default kind is a horizontal bar chart. */
  lemma DefaultKindIsBar()
    ensures ChartTypeMap(Some("bar_h")) == BarClustered
  {
    assert Lower("bar_h") == "bar_h";
  }

  /** The slide `export_pptx` (pptx_exporter.py:354-371) builds for one table. */
  function TableSlide(t: Table, sel: Selection): (s: ExportedSlide)
    requires WithTable(sel) ==> |t.rowLabels| <= |t.values|
    ensures s.ChartSlide?
    ensures sel.chartType.None? ==> s.kind == BarClustered
    ensures WithTable(sel) ==> s.kind == BarClustered && s.table.Some? && s.table.value.content == Grid(ExportGrid(t))
    ensures !WithTable(sel) ==> s.kind == ChartTypeMap(Some(RequestedKind(sel))) && s.table.None?
    ensures s.heading.content == TextBox(if Truthy(sel.title) then sel.title.value else t.title)
  {
    DefaultKindIsBar();
    var kind := if WithTable(sel) then "bar_h" else RequestedKind(sel);
    var title := if Truthy(sel.title) then sel.title.value else t.title;
    AddChartSlide(t, kind, WithTable(sel), Some(title), sel.baseText, sel.questionText)
  }

  /** The heading of the opening slide (pptx_exporter.py:349-352). */
  const ReportTitle := "Automated Crosstab Report"

  /** Slide `k` of the exported deck: the title slide, then the slide of table `k - 1`. */
  function DeckSlide(tables: seq<Table>, selections: map<string, Selection>, k: nat): (s: ExportedSlide)
    requires k <= |tables|
    requires k > 0 && WithTable(SelectionOf(selections, tables[k - 1])) ==> |tables[k - 1].rowLabels| <= |tables[k - 1].values|
  {
    if k == 0 then TitleSlide(Placed(TextBox(ReportTitle), None))
    else TableSlide(tables[k - 1], SelectionOf(selections, tables[k - 1]))
  }

  /**
    `export_pptx`: an untagged title slide, then one chart slide per table
    in input order, each following that table's selection.
   */
  function ExportDeck(tables: seq<Table>, selections: map<string, Selection>): (r: seq<ExportedSlide>)
    requires forall k :: 0 <= k < |tables| && WithTable(SelectionOf(selections, tables[k])) ==>
      |tables[k].rowLabels| <= |tables[k].values|
    ensures |r| == 1 + |tables|
    ensures forall k :: 0 <= k < |r| ==> r[k] == DeckSlide(tables, selections, k)
  {
    seq(1 + |tables|, k requires 0 <= k <= |tables| => DeckSlide(tables, selections, k))
  }

  /**
    The exported deck opens with the untagged report title and then holds,
    for every table in order, the slide its selection asks for.
   */
  lemma ExportDeckSlides(tables: seq<Table>, selections: map<string, Selection>)
    requires forall k :: 0 <= k < |tables| && WithTable(SelectionOf(selections, tables[k])) ==>
      |tables[k].rowLabels| <= |tables[k].values|
    ensures var r := ExportDeck(tables, selections);
      && r[0] == TitleSlide(Placed(TextBox(ReportTitle), None))
      && forall k :: 0 <= k < |tables| ==> r[k + 1] == TableSlide(tables[k], SelectionOf(selections, tables[k]))
  {
    var r := ExportDeck(tables, selections);
    assert r[0] == DeckSlide(tables, selections, 0);
    forall k | 0 <= k < |tables| ensures r[k + 1] == TableSlide(tables[k], SelectionOf(selections, tables[k])) {
      assert r[k + 1] == DeckSlide(tables, selections, k + 1);
    }
  }
}

=== FILE: grid.dfy ===
/**
  A sheet as pandas holds it after `xls.parse(sheet, header=None)`: a
  rectangular grid of cells, each missing (NaN), a number or a text. This
  module gives the counting the extractor's thresholds use and
  `_strip_edges` (crosstab_parser.py:21-32).
 */
module Grid {

  /** One cell: missing, a number (in tenths, see module Numbers), or text. */
  datatype Cell = Empty | Number(tenths: int) | Text(s: string)

  /** A DataFrame: rows of cells, every row `width` long. */
  datatype Frame = Frame(rows: seq<seq<Cell>>, width: nat)

  predicate Rectangular(f: Frame) {
    forall i :: 0 <= i < |f.rows| ==> |f.rows[i]| == f.width
  }

  /** `row.isna().all()`. */
  predicate EmptyRow(row: seq<Cell>) {
    forall j :: 0 <= j < |row| ==> row[j] == Empty
  }

  /** `row.notna().sum()`. */
  function RowCount(row: seq<Cell>): nat {
    if |row| == 0 then 0
    else RowCount(row[..|row| - 1]) + (if row[|row| - 1] == Empty then 0 else 1)
  }

  /** `df.notna().sum().sum()`. */
  function CellCount(rows: seq<seq<Cell>>): nat {
    if |rows| == 0 then 0 else CellCount(rows[..|rows| - 1]) + RowCount(rows[|rows| - 1])
  }

  lemma {:induction false} RowCountAppend(a: seq<Cell>, b: seq<Cell>)
    ensures RowCount(a + b) == RowCount(a) + RowCount(b)
    decreases |b|
  {
    if |b| == 0 {
      assert a + b == a;
    } else {
      assert (a + b)[..|a + b| - 1] == a + b[..|b| - 1];
      RowCountAppend(a, b[..|b| - 1]);
    }
  }

  /** A row counts no cells exactly when it is empty. */
  lemma {:induction false} RowCountZero(row: seq<Cell>)
    ensures RowCount(row) == 0 <==> EmptyRow(row)
    decreases |row|
  {
    if |row| > 0 {
      var init := row[..|row| - 1];
      RowCountZero(init);
      if EmptyRow(init) && row[|row| - 1] == Empty {
        forall j | 0 <= j < |row| ensures row[j] == Empty {
          if j < |row| - 1 {
            assert row[j] == init[j];
          }
        }
      }
      if EmptyRow(row) {
        forall j | 0 <= j < |init| ensures init[j] == Empty {
          assert init[j] == row[j];
        }
      }
    }
  }

  lemma {:induction false} CellCountAppend(a: seq<seq<Cell>>, b: seq<seq<Cell>>)
    ensures CellCount(a + b) == CellCount(a) + CellCount(b)
    decreases |b|
  {
    if |b| == 0 {
      assert a + b == a;
    } else {
      assert (a + b)[..|a + b| - 1] == a + b[..|b| - 1];
      CellCountAppend(a, b[..|b| - 1]);
    }
  }

  lemma {:induction false} CellCountBlank(rows: seq<seq<Cell>>)
    requires forall i :: 0 <= i < |rows| ==> EmptyRow(rows[i])
    ensures CellCount(rows) == 0
    decreases |rows|
  {
    if |rows| > 0 {
      RowCountZero(rows[|rows| - 1]);
      CellCountBlank(rows[..|rows| - 1]);
    }
  }

  lemma {:induction false} CellCountPointwise(a: seq<seq<Cell>>, b: seq<seq<Cell>>)
    requires |a| == |b|
    requires forall i :: 0 <= i < |a| ==> RowCount(a[i]) == RowCount(b[i])
    ensures CellCount(a) == CellCount(b)
    decreases |a|
  {
    if |a| > 0 {
      CellCountPointwise(a[..|a| - 1], b[..|b| - 1]);
    }
  }

  /** Cutting empty cells off both ends of a row keeps its count. */
  lemma RowCountSlice(row: seq<Cell>, a: nat, b: nat)
    requires a <= b <= |row|
    requires forall j :: 0 <= j < a ==> row[j] == Empty
    requires forall j :: b <= j < |row| ==> row[j] == Empty
    ensures RowCount(row[a..b]) == RowCount(row)
  {
    assert row == row[..a] + row[a..b] + row[b..];
    RowCountAppend(row[..a] + row[a..b], row[b..]);
    RowCountAppend(row[..a], row[a..b]);
    RowCountZero(row[..a]);
    RowCountZero(row[b..]);
  }

  /** A rectangle inside a frame: rows `top..bottom`, columns `left..right`. */
  datatype Box = Box(top: nat, bottom: nat, left: nat, right: nat)

  predicate InFrame(f: Frame, b: Box) {
    b.top <= b.bottom <= |f.rows| && b.left <= b.right <= f.width
  }

  /** `df.iloc[top:bottom, left:right]`. */
  function Crop(f: Frame, b: Box): (r: Frame)
    requires Rectangular(f) && InFrame(f, b)
    ensures Rectangular(r)
    ensures |r.rows| == b.bottom - b.top && r.width == b.right - b.left
    ensures forall i :: 0 <= i < |r.rows| ==> r.rows[i] == f.rows[b.top + i][b.left..b.right]
  {
    Frame(seq(b.bottom - b.top, i requires 0 <= i < b.bottom - b.top => f.rows[b.top + i][b.left..b.right]),
          b.right - b.left)
  }

  /** Every cell of `row` outside columns `a..b` is missing. */
  predicate BlankOutside(row: seq<Cell>, a: nat, b: nat) {
    forall j :: 0 <= j < |row| && (j < a || b <= j) ==> row[j] == Empty
  }

  /** Every non-missing cell of `f` lies inside `b`. */
  predicate Covers(f: Frame, b: Box) {
    forall i :: 0 <= i < |f.rows| ==>
      if b.top <= i < b.bottom then BlankOutside(f.rows[i], b.left, b.right) else EmptyRow(f.rows[i])
  }

  /** `sub` lies inside `f` with its top-left cell at row `r0`, column `c0`. */
  predicate SitsAt(sub: Frame, f: Frame, r0: nat, c0: nat) {
    && r0 + |sub.rows| <= |f.rows| && c0 + sub.width <= f.width
    && forall r, c :: 0 <= r < |sub.rows| && 0 <= c < |sub.rows[r]| ==>
         c0 + c < |f.rows[r0 + r]| && sub.rows[r][c] == f.rows[r0 + r][c0 + c]
  }

  /** A crop sits in its frame at its box's top-left corner. */
  lemma CropSits(f: Frame, b: Box)
    requires Rectangular(f) && InFrame(f, b)
    ensures SitsAt(Crop(f, b), f, b.top, b.left)
  {
    var r := Crop(f, b);
    forall i, c | 0 <= i < |r.rows| && 0 <= c < |r.rows[i]|
      ensures b.left + c < |f.rows[b.top + i]| && r.rows[i][c] == f.rows[b.top + i][b.left + c]
    {
      assert r.rows[i] == f.rows[b.top + i][b.left..b.right];
    }
  }

  /** A crop of a crop of `f` sits in `f` at the summed corners, within the outer box's rows. */
  lemma CropInCrop(f: Frame, outer: Box, b: Box)
    requires Rectangular(f) && InFrame(f, outer) && InFrame(Crop(f, outer), b)
    ensures outer.top + b.bottom <= outer.bottom
    ensures SitsAt(Crop(Crop(f, outer), b), f, outer.top + b.top, outer.left + b.left)
  {
    var mid := Crop(f, outer);
    CropSits(f, outer);
    CropSits(mid, b);
    SitsAtTrans(Crop(mid, b), mid, f, b.top, b.left, outer.top, outer.left, outer.top + b.top, outer.left + b.left);
  }

  /** What `_strip_edges` keeps sits in the frame at its box's top-left corner. */
  lemma StripSits(f: Frame)
    requires Rectangular(f)
    ensures StripBox(f).top + |StripEdges(f).rows| <= |f.rows|
    ensures SitsAt(StripEdges(f), f, StripBox(f).top, StripBox(f).left)
  {
    StripEdgesIsCrop(f);
    CropSits(f, StripBox(f));
  }

  /** The sheet row of the top-left cell `_strip_edges` keeps of the piece `outer` of `f`. */
  function StripTop(f: Frame, outer: Box): (r: nat)
    requires Rectangular(f) && InFrame(f, outer)
    ensures outer.top <= r <= outer.bottom
  {
    outer.top + StripBox(Crop(f, outer)).top
  }

  /** The sheet column of that cell. */
  function StripLeft(f: Frame, outer: Box): (c: nat)
    requires Rectangular(f) && InFrame(f, outer)
    ensures outer.left <= c <= outer.right
  {
    outer.left + StripBox(Crop(f, outer)).left
  }

  /** Stripping a piece of the sheet leaves a piece of the sheet, within the piece's rows. */
  lemma StrippedSits(f: Frame, outer: Box)
    requires Rectangular(f) && InFrame(f, outer)
    ensures StripTop(f, outer) + |StripEdges(Crop(f, outer)).rows| <= outer.bottom
    ensures SitsAt(StripEdges(Crop(f, outer)), f, StripTop(f, outer), StripLeft(f, outer))
  {
    var band := Crop(f, outer);
    CropSits(f, outer);
    StripSits(band);
    SitsAtTrans(StripEdges(band), band, f, StripBox(band).top, StripBox(band).left,
                outer.top, outer.left, StripTop(f, outer), StripLeft(f, outer));
  }

  /** A frame inside a frame inside `f` lies inside `f`, at the summed offsets. */
  lemma SitsAtTrans(sub: Frame, mid: Frame, f: Frame, r0: nat, c0: nat, r1: nat, c1: nat, r: nat, c: nat)
    requires SitsAt(sub, mid, r0, c0) && SitsAt(mid, f, r1, c1)
    requires r == r1 + r0 && c == c1 + c0
    ensures SitsAt(sub, f, r, c)
  {
    forall i, j | 0 <= i < |sub.rows| && 0 <= j < |sub.rows[i]|
      ensures c + j < |f.rows[r + i]| && sub.rows[i][j] == f.rows[r + i][c + j]
    {
      var x := sub.rows[i][j];
      assert x == mid.rows[r0 + i][c0 + j];
    }
  }

  /** Empty rows at the end do not contribute to the count. */
  lemma {:induction false} CellCountDropBack(rows: seq<seq<Cell>>, b: nat)
    requires b <= |rows|
    requires forall i :: b <= i < |rows| ==> EmptyRow(rows[i])
    ensures CellCount(rows[..b]) == CellCount(rows)
    decreases |rows|
  {
    if b == |rows| {
      assert rows[..b] == rows;
    } else {
      var init := rows[..|rows| - 1];
      RowCountZero(rows[|rows| - 1]);
      assert init[..b] == rows[..b];
      CellCountDropBack(init, b);
    }
  }

  /** Empty rows at the start do not contribute to the count. */
  lemma {:induction false} CellCountDropFront(rows: seq<seq<Cell>>, a: nat)
    requires a <= |rows|
    requires forall i :: 0 <= i < a ==> EmptyRow(rows[i])
    ensures CellCount(rows[a..]) == CellCount(rows)
    decreases |rows|
  {
    if a == |rows| {
      CellCountBlank(rows);
    } else {
      var init := rows[..|rows| - 1];
      var tail := rows[a..];
      assert tail[..|tail| - 1] == init[a..];
      assert tail[|tail| - 1] == rows[|rows| - 1];
      CellCountDropFront(init, a);
    }
  }

  /** Empty rows outside `a..b` do not contribute to the count. */
  lemma CellCountMiddle(rows: seq<seq<Cell>>, a: nat, b: nat)
    requires a <= b <= |rows|
    requires forall i :: 0 <= i < a ==> EmptyRow(rows[i])
    requires forall i :: b <= i < |rows| ==> EmptyRow(rows[i])
    ensures CellCount(rows[a..b]) == CellCount(rows)
  {
    var front := rows[..b];
    assert front[a..] == rows[a..b];
    CellCountDropFront(front, a);
    CellCountDropBack(rows, b);
  }

  /** Cropping to a box that covers every non-missing cell keeps the cell count. */
  lemma CropKeepsCount(f: Frame, b: Box)
    requires Rectangular(f) && InFrame(f, b) && Covers(f, b)
    ensures CellCount(Crop(f, b).rows) == CellCount(f.rows)
  {
    var r := Crop(f, b);
    var inner := f.rows[b.top..b.bottom];
    forall i | 0 <= i < |inner| ensures RowCount(r.rows[i]) == RowCount(inner[i]) {
      var row := f.rows[b.top + i];
      assert inner[i] == row;
      assert BlankOutside(row, b.left, b.right);
      RowCountSlice(row, b.left, b.right);
    }
    CellCountPointwise(r.rows, inner);
    CellCountMiddle(f.rows, b.top, b.bottom);
  }

  /** Column `j` of `rows` holds only missing cells (vacuously so when there are no rows). */
  predicate ColumnEmpty(rows: seq<seq<Cell>>, j: nat) {
    forall i :: 0 <= i < |rows| ==> j < |rows[i]| && rows[i][j] == Empty
  }

  /** `df.iloc[:, j].isna().all()`. */
  predicate EmptyColumn(f: Frame, j: nat) {
    ColumnEmpty(f.rows, j)
  }

  /** The first loop of `_strip_edges`: the first row from `i` on that is not empty. */
  function LeadingBlankRows(rows: seq<seq<Cell>>, i: nat): (k: nat)
    requires i <= |rows|
    ensures i <= k <= |rows|
    ensures forall r :: i <= r < k ==> EmptyRow(rows[r])
    ensures k < |rows| ==> !EmptyRow(rows[k])
    decreases |rows| - i
  {
    if i < |rows| && EmptyRow(rows[i]) then LeadingBlankRows(rows, i + 1) else i
  }

  /** The second loop of `_strip_edges`: drops empty rows from `hi` down to `lo`. */
  function TrailingBlankRows(rows: seq<seq<Cell>>, lo: nat, hi: nat): (k: nat)
    requires lo <= hi <= |rows|
    ensures lo <= k <= hi
    ensures forall r :: k <= r < hi ==> EmptyRow(rows[r])
    ensures k > lo ==> !EmptyRow(rows[k - 1])
  {
    if hi > lo && EmptyRow(rows[hi - 1]) then TrailingBlankRows(rows, lo, hi - 1) else hi
  }

  /** The third loop of `_strip_edges`: the first column from `j` on that is not empty. */
  function LeadingBlankColumns(rows: seq<seq<Cell>>, width: nat, j: nat): (k: nat)
    requires forall i :: 0 <= i < |rows| ==> |rows[i]| == width
    requires j <= width
    ensures j <= k <= width
    ensures forall c :: j <= c < k ==> ColumnEmpty(rows, c)
    ensures k < width ==> !ColumnEmpty(rows, k)
    decreases width - j
  {
    if j < width && ColumnEmpty(rows, j) then LeadingBlankColumns(rows, width, j + 1) else j
  }

  /** The fourth loop of `_strip_edges`: drops empty columns from `hi` down to `lo`. */
  function TrailingBlankColumns(rows: seq<seq<Cell>>, lo: nat, hi: nat): (k: nat)
    requires lo <= hi
    ensures lo <= k <= hi
    ensures forall c :: k <= c < hi ==> ColumnEmpty(rows, c)
    ensures k > lo ==> !ColumnEmpty(rows, k - 1)
  {
    if hi > lo && ColumnEmpty(rows, hi - 1) then TrailingBlankColumns(rows, lo, hi - 1) else hi
  }

  /**
    What the four loops of `_strip_edges` leave: a box inside the frame
    covering every non-missing cell, whose outer rows and columns each hold
    one, and which is empty in both directions or in neither.
   */
  predicate EdgesKept(f: Frame, b: Box)
    requires Rectangular(f)
  {
    && InFrame(f, b) && Covers(f, b)
    && (b.top < b.bottom ==> !EmptyRow(f.rows[b.top]) && !EmptyRow(f.rows[b.bottom - 1]))
    && (b.top < b.bottom ==>
          && b.left < b.right
          && !ColumnEmpty(f.rows[b.top..b.bottom], b.left)
          && !ColumnEmpty(f.rows[b.top..b.bottom], b.right - 1))
    && (b.top == b.bottom ==> b.left == b.right)
  }

  /** The rows `top..bottom` are what the two row loops keep. */
  predicate RowsKept(rows: seq<seq<Cell>>, top: nat, bottom: nat) {
    && top <= bottom <= |rows|
    && (forall r :: 0 <= r < top ==> EmptyRow(rows[r]))
    && (forall r :: bottom <= r < |rows| ==> EmptyRow(rows[r]))
    && (top < |rows| ==> !EmptyRow(rows[top]))
    && (bottom > top ==> !EmptyRow(rows[bottom - 1]))
  }

  /** The columns `left..right` are what the two column loops keep of the band `g`. */
  predicate ColumnsKept(g: seq<seq<Cell>>, width: nat, left: nat, right: nat) {
    && left <= right <= width
    && (forall c :: 0 <= c < width && !(left <= c < right) ==> ColumnEmpty(g, c))
    && (|g| > 0 && !EmptyRow(g[0]) ==> left < right && !ColumnEmpty(g, left) && !ColumnEmpty(g, right - 1))
    && (|g| == 0 ==> left == right)
  }

  /** The two row loops of `_strip_edges`. */
  function RowBounds(rows: seq<seq<Cell>>): (tb: (nat, nat))
    ensures RowsKept(rows, tb.0, tb.1)
  {
    var top := LeadingBlankRows(rows, 0);
    (top, TrailingBlankRows(rows, top, |rows|))
  }

  /**
    The rectangle `_strip_edges` keeps: the row loops run on the whole
    frame, the column loops on the rows that survived them.
   */
  function StripBox(f: Frame): (b: Box)
    requires Rectangular(f)
    ensures EdgesKept(f, b)
  {
    var tb := RowBounds(f.rows);
    BandRows(f, tb.0, tb.1);
    var lr := ColumnBounds(f.rows[tb.0..tb.1], f.width);
    StripBoxFacts(f, tb.0, tb.1, lr.0, lr.1);
    Box(tb.0, tb.1, lr.0, lr.1)
  }

  /** The box the four loops compute covers the frame and has non-empty edges. */
  lemma StripBoxFacts(f: Frame, top: nat, bottom: nat, left: nat, right: nat)
    requires Rectangular(f) && RowsKept(f.rows, top, bottom)
    requires ColumnsKept(f.rows[top..bottom], f.width, left, right)
    requires top < bottom ==> f.rows[top..bottom][0] == f.rows[top]
    ensures EdgesKept(f, Box(top, bottom, left, right))
  {
    StripBoxCovers(f, Box(top, bottom, left, right));
  }

  /** The rows `top..bottom` as a band of `width`-long rows, starting with row `top`. */
  lemma BandRows(f: Frame, top: nat, bottom: nat)
    requires Rectangular(f) && top <= bottom <= |f.rows|
    ensures forall i :: 0 <= i < bottom - top ==> |f.rows[top..bottom][i]| == f.width
    ensures top < bottom ==> f.rows[top..bottom][0] == f.rows[top]
  {
  }

  /**
    The two column loops of `_strip_edges` on the band `g`: every column
    outside the result is empty, and the outer columns kept are not.
   */
  function ColumnBounds(g: seq<seq<Cell>>, width: nat): (lr: (nat, nat))
    requires forall i :: 0 <= i < |g| ==> |g[i]| == width
    ensures ColumnsKept(g, width, lr.0, lr.1)
  {
    var left := LeadingBlankColumns(g, width, 0);
    var right := TrailingBlankColumns(g, left, width);
    ColumnLoops(g, width, left, right);
    (left, right)
  }

  lemma ColumnLoops(g: seq<seq<Cell>>, width: nat, left: nat, right: nat)
    requires forall i :: 0 <= i < |g| ==> |g[i]| == width
    requires left == LeadingBlankColumns(g, width, 0)
    requires right == TrailingBlankColumns(g, left, width)
    ensures |g| > 0 && !EmptyRow(g[0]) ==> left < right
    ensures |g| == 0 ==> left == right
  {
    if |g| > 0 && !EmptyRow(g[0]) {
      var j :| 0 <= j < |g[0]| && g[0][j] != Empty;
      assert !ColumnEmpty(g, j);
    }
    if |g| == 0 && left < width {
      assert ColumnEmpty(g, left);
    }
  }

  /** Rows outside `top..bottom` and columns outside `left..right` being empty means `b` covers `f`. */
  lemma StripBoxCovers(f: Frame, b: Box)
    requires Rectangular(f) && InFrame(f, b)
    requires forall r :: 0 <= r < b.top ==> EmptyRow(f.rows[r])
    requires forall r :: b.bottom <= r < |f.rows| ==> EmptyRow(f.rows[r])
    requires forall c :: 0 <= c < f.width && !(b.left <= c < b.right) ==> ColumnEmpty(f.rows[b.top..b.bottom], c)
    ensures Covers(f, b)
  {
    var g := f.rows[b.top..b.bottom];
    forall i | b.top <= i < b.bottom ensures BlankOutside(f.rows[i], b.left, b.right) {
      assert f.rows[i] == g[i - b.top];
      forall j | 0 <= j < |f.rows[i]| && (j < b.left || b.right <= j) ensures f.rows[i][j] == Empty {
        assert ColumnEmpty(g, j);
      }
    }
  }

  /** The frame edge test the extractor's later steps rely on. */
  predicate Framed(f: Frame) {
    |f.rows| > 0 && f.width > 0
    && !EmptyRow(f.rows[0]) && !EmptyRow(f.rows[|f.rows| - 1])
    && !EmptyColumn(f, 0) && !EmptyColumn(f, f.width - 1)
  }

  /** Cropping columns `a..b` of a band keeps the band's non-empty columns non-empty. */
  lemma CropColumn(g: seq<seq<Cell>>, rows: seq<seq<Cell>>, a: nat, b: nat, c: nat)
    requires a <= c < b
    requires |rows| == |g| && forall i :: 0 <= i < |g| ==> b <= |g[i]| && rows[i] == g[i][a..b]
    requires !ColumnEmpty(g, c)
    ensures !ColumnEmpty(rows, c - a)
  {
    var i :| 0 <= i < |g| && !(c < |g[i]| && g[i][c] == Empty);
    assert rows[i][c - a] == g[i][c];
  }

  /**
    Cropping to a covering box whose edge rows and edge columns each hold a
    non-missing cell gives a framed frame.
   */
  lemma CropFramed(f: Frame, b: Box)
    requires Rectangular(f) && InFrame(f, b) && Covers(f, b)
    requires b.top < b.bottom && b.left < b.right
    requires !EmptyRow(f.rows[b.top]) && !EmptyRow(f.rows[b.bottom - 1])
    requires !ColumnEmpty(f.rows[b.top..b.bottom], b.left)
    requires !ColumnEmpty(f.rows[b.top..b.bottom], b.right - 1)
    ensures Framed(Crop(f, b))
  {
    CropEdgeRows(f, b);
    CropEdgeColumns(f, b);
  }

  /** The first and last rows of the crop keep a non-missing cell. */
  lemma CropEdgeRows(f: Frame, b: Box)
    requires Rectangular(f) && InFrame(f, b) && Covers(f, b)
    requires b.top < b.bottom
    requires !EmptyRow(f.rows[b.top]) && !EmptyRow(f.rows[b.bottom - 1])
    ensures var r := Crop(f, b); !EmptyRow(r.rows[0]) && !EmptyRow(r.rows[|r.rows| - 1])
  {
    var r := Crop(f, b);
    RowStaysNonEmpty(f.rows[b.top], b.left, b.right);
    RowStaysNonEmpty(f.rows[b.bottom - 1], b.left, b.right);
    assert r.rows[0] == f.rows[b.top][b.left..b.right];
    assert r.rows[|r.rows| - 1] == f.rows[b.bottom - 1][b.left..b.right];
  }

  /** The first and last columns of the crop keep a non-missing cell. */
  lemma CropEdgeColumns(f: Frame, b: Box)
    requires Rectangular(f) && InFrame(f, b)
    requires b.left < b.right
    requires !ColumnEmpty(f.rows[b.top..b.bottom], b.left)
    requires !ColumnEmpty(f.rows[b.top..b.bottom], b.right - 1)
    ensures var r := Crop(f, b); !EmptyColumn(r, 0) && !EmptyColumn(r, r.width - 1)
  {
    var r := Crop(f, b);
    var g := f.rows[b.top..b.bottom];
    forall i | 0 <= i < |g| ensures b.right <= |g[i]| && r.rows[i] == g[i][b.left..b.right] {
      assert g[i] == f.rows[b.top + i];
    }
    CropColumn(g, r.rows, b.left, b.right, b.left);
    CropColumn(g, r.rows, b.left, b.right, b.right - 1);
  }

  /** Cropping to the box the loops keep gives what `_strip_edges` promises. */
  lemma CropStripped(f: Frame, b: Box)
    requires Rectangular(f) && EdgesKept(f, b)
    ensures var r := Crop(f, b);
      && CellCount(r.rows) == CellCount(f.rows)
      && (|r.rows| == 0 <==> r.width == 0)
      && (|r.rows| > 0 ==> Framed(r))
  {
    CropKeepsCount(f, b);
    if b.top < b.bottom {
      CropFramed(f, b);
    }
  }

  /** A non-empty row whose cells outside `a..b` are missing keeps a cell inside. */
  lemma RowStaysNonEmpty(row: seq<Cell>, a: nat, b: nat)
    requires a <= b <= |row| && BlankOutside(row, a, b) && !EmptyRow(row)
    ensures !EmptyRow(row[a..b])
  {
    var j :| 0 <= j < |row| && row[j] != Empty;
    assert row[a..b][j - a] == row[j];
  }

  /**
    `_strip_edges` (crosstab_parser.py:21-32): the cropped frame has the same
    number of non-missing cells, and unless nothing is left its outer rows and
    columns each hold a non-missing cell.
   */
  function StripEdges(f: Frame): (r: Frame)
    requires Rectangular(f)
    ensures Rectangular(r)
    ensures CellCount(r.rows) == CellCount(f.rows)
    ensures |r.rows| == 0 <==> r.width == 0
    ensures |r.rows| > 0 ==> Framed(r)
  {
    var b := StripBox(f);
    CropStripped(f, b);
    Crop(f, b)
  }

  /** `_strip_edges` keeps exactly the box its loops compute. */
  lemma StripEdgesIsCrop(f: Frame)
    requires Rectangular(f)
    ensures StripEdges(f) == Crop(f, StripBox(f))
  {
  }

  /** On a framed frame the four loops of `_strip_edges` remove nothing. */
  lemma StripBoxOfFramed(f: Frame)
    requires Rectangular(f) && Framed(f)
    ensures StripBox(f) == Box(0, |f.rows|, 0, f.width)
  {
    assert LeadingBlankRows(f.rows, 0) == 0;
    assert TrailingBlankRows(f.rows, 0, |f.rows|) == |f.rows|;
    assert f.rows[0..|f.rows|] == f.rows;
    assert LeadingBlankColumns(f.rows, f.width, 0) == 0;
    assert TrailingBlankColumns(f.rows, 0, f.width) == f.width;
  }

  /** Cropping to the whole frame gives the frame back. */
  lemma CropWhole(f: Frame)
    requires Rectangular(f)
    ensures Crop(f, Box(0, |f.rows|, 0, f.width)) == f
  {
    var r := Crop(f, Box(0, |f.rows|, 0, f.width));
    forall i | 0 <= i < |f.rows| ensures r.rows[i] == f.rows[i] {
      assert f.rows[i][0..f.width] == f.rows[i];
    }
  }

  /** Stripping a stripped frame changes nothing. */
  lemma StripIdempotent(f: Frame)
    requires Rectangular(f)
    ensures StripEdges(StripEdges(f)) == StripEdges(f)
  {
    var r := StripEdges(f);
    if |r.rows| > 0 {
      StripBoxOfFramed(r);
      CropWhole(r);
    } else {
      var b := StripBox(r);
      assert b == Box(0, 0, 0, 0);
    }
  }
}

=== FILE: interplay.dfy ===
/**
  How the exporter's output meets the updater and the mapping helper. The
  three scripts share the alt-text format but not all of their rules: the
  exporter leaves out fewer rows than the updater, picks its series column
  differently when there is no "Total", and writes `table_title` and
  `column` where the updater looks for `table_key` and `col`.
 */
module Interplay {

  import opened Common
  import opened Text
  import opened Numbers
  import opened Crosstab
  import opened AltText
  import opened Deck
  import opened Refresh
  import opened Export
  import opened Mapping

  // ----- Row exclusions -----

  /** The exporter's prefixes hold no whitespace. */
  lemma PrefixesSolid()
    ensures Solid("base") && Solid("mean") && Solid("average") && Solid("avg")
  {
  }

  /** A label the exporter reads as starting with a prefix, the updater does too. */
  lemma FoldedPrefixNorm(lab: string, p: string, k: nat)
    requires k < |ExcludePrefixes| && p == ExcludePrefixes[k]
    requires StartsWith(Folded(lab), p)
    ensures Excluded(lab)
  {
    PrefixesSolid();
    StripLowerPrefixNorm(lab, p);
  }

  /** Every row the exported chart leaves out, the refreshed chart leaves out too. */
  lemma ExportExclusionsRefreshed(labels: seq<string>)
    ensures ExportExclusions(labels) <= ExcludeIndices(labels)
  {
    forall i | i in ExportExclusions(labels) ensures i in ExcludeIndices(labels) {
      var lab := labels[i];
      if AverageLike(lab) {
        var k :| 0 <= k < |AveragePrefixes| && StartsWith(Folded(lab), AveragePrefixes[k]);
        FoldedPrefixNorm(lab, AveragePrefixes[k], k + 1);
      } else {
        FoldedPrefixNorm(lab, "base", 0);
      }
    }
  }

  /** A base row is never an average row. */
  lemma BaseNotAverage(lab: string)
    requires BaseLike(lab)
    ensures !AverageLike(lab)
  {
    var f := Folded(lab);
    assert f[0] == 'b';
    forall k | 0 <= k < |AveragePrefixes| ensures !StartsWith(f, AveragePrefixes[k]) {
      assert AveragePrefixes[k][0] != 'b';
    }
  }

  /**
    A second base row shows in the exported chart, and disappears once the
    deck is refreshed without explicit rows.
   */
  lemma SecondBaseRow(t: Table, colKey: Option<string>, i: nat, j: nat)
    requires |t.rowLabels| <= |t.values|
    requires i < j < |t.rowLabels| && BaseLike(t.rowLabels[i]) && BaseLike(t.rowLabels[j])
    ensures t.rowLabels[j] in ExportChart(t).categories
    ensures t.rowLabels[j] !in ChartRefresh(t, colKey, None).categories
  {
    BaseNotAverage(t.rowLabels[j]);
    ExportChartRows(t);
    FoldedPrefixNorm(t.rowLabels[j], "base", 0);
    ChartOmitsExcluded(t, colKey, None);
  }

  // ----- The series column -----

  /** With a "Total" column both scripts chart the same column. */
  lemma TotalColumnAgrees(cols: seq<string>)
    requires "Total" in cols
    ensures TotalIdx(cols) == ChooseColIdx(cols, Some("Total"))
  {
  }

  /**
    Without a "Total" column the exporter charts the first column, while the
    updater, asked for "Total", falls back to an "Overall" column.
   */
  lemma OverallColumnDisagrees(cols: seq<string>)
    requires "Total" !in cols && "Overall" in cols && cols[0] != "Overall"
    ensures TotalIdx(cols) == Some(0)
    ensures ChooseColIdx(cols, Some("Total")).Some? && cols[ChooseColIdx(cols, Some("Total")).value] == "Overall"
  {
    assert Fallbacks[0] !in cols && Fallbacks[1] in cols;
  }

  // ----- Tables -----

  /** A table whose labels the updater finds again as written: stripped, distinct columns, rows distinct in normal form. */
  predicate Findable(t: Table) {
    && WellShaped(t)
    && (forall c :: 0 <= c < |t.colLabels| ==> Stripped(t.colLabels[c]))
    && (forall a, b :: 0 <= a < b < |t.colLabels| ==> t.colLabels[a] != t.colLabels[b])
    && (forall i :: 0 <= i < |t.rowLabels| ==> Stripped(t.rowLabels[i]))
    && (forall a, b :: 0 <= a < b < |t.rowLabels| ==> Norm(t.rowLabels[a]) != Norm(t.rowLabels[b]))
  }

  /** The updater reads each exported cell from the very value the exporter wrote there. */
  lemma ExportedCellSource(t: Table, i: nat, c: nat)
    requires Findable(t) && i < |t.rowLabels| && c < |t.colLabels|
    ensures CellSource(t, t.colLabels[c], t.rowLabels[i]) == Some(t.values[i][c])
  {
    var h := t.colLabels[c];
    var lab := t.rowLabels[i];
    StripStripped(h);
    StripStripped(lab);
    var idx := RowIndexMap(t.rowLabels);
    var j := idx[Norm(lab)];
    assert j == i;
    var ci := IndexOf(t.colLabels, h);
    assert ci == c;
  }

  /** A refreshed body cell of an exported grid shows what the exporter wrote there. */
  lemma CellFixed(t: Table, i: nat, c: nat)
    requires Findable(t) && i < |t.rowLabels| && c < |t.colLabels|
    ensures Refresh.BodyCell(t, t.colLabels[c], t.rowLabels[i], FormatValue) == FormatValue(t.values[i][c])
  {
    ExportedCellSource(t, i, c);
  }

  /** Every body cell of the table, looked up again by its own labels, shows the value it holds. */
  predicate CellsFixed(t: Table)
    requires WellShaped(t)
  {
    forall i, c :: 0 <= i < |t.rowLabels| && 0 <= c < |t.colLabels| ==>
      Refresh.BodyCell(t, t.colLabels[c], t.rowLabels[i], FormatValue) == FormatValue(t.values[i][c])
  }

  /** The whole grid is unchanged once every body cell is. */
  lemma GridFixedFrom(t: Table)
    requires WellShaped(t) && CellsFixed(t)
    ensures var g := ExportGridWith(t, FormatValue);
      RefreshGridWith(g, t, FormatValue) == g
  {
    var g := ExportGridWith(t, FormatValue);
    RowsFixed(t, g, RefreshGridWith(g, t, FormatValue));
  }

  /** A grid shaped like an exported one equals its refresh when every body cell is fixed. */
  lemma RowsFixed(t: Table, g: seq<seq<string>>, r: seq<seq<string>>)
    requires WellShaped(t) && CellsFixed(t)
    requires Rect(g) && |g| == 1 + |t.rowLabels| && |g[0]| == 1 + |t.colLabels|
    requires g[0] == [""] + t.colLabels
    requires forall i :: 1 <= i < |g| ==> g[i][0] == t.rowLabels[i - 1]
    requires forall i, c :: 1 <= i < |g| && 1 <= c < |g[0]| ==>
      g[i][c] == if c - 1 < |t.values[i - 1]| then FormatValue(t.values[i - 1][c - 1]) else ""
    requires Rect(r) && |r| == |g| && |r[0]| == |g[0]| && r[0] == g[0]
    requires forall i :: 0 <= i < |r| && |r[0]| > 0 ==> r[i][0] == g[i][0]
    requires forall i, c :: 1 <= i < |r| && 1 <= c < |r[0]| ==> r[i][c] == Refresh.BodyCell(t, g[0][c], g[i][0], FormatValue)
    ensures r == g
  {
    forall i, c | 1 <= i < |r| && 1 <= c < |r[0]| ensures r[i][c] == g[i][c] {
      assert Refresh.BodyCell(t, t.colLabels[c - 1], t.rowLabels[i - 1], FormatValue) == FormatValue(t.values[i - 1][c - 1]);
      HeaderAt(g[0], t.colLabels, c);
      CellAt(t, g, r, i, c);
    }
    forall i | 0 <= i < |r| ensures r[i] == g[i] {
      assert |r[i]| == |g[i]|;
    }
  }

  /** The c-th header cell of an exported grid is the (c-1)-th column label. */
  lemma HeaderAt(header: seq<string>, labels: seq<string>, c: nat)
    requires header == [""] + labels && 1 <= c <= |labels|
    ensures header[c] == labels[c - 1]
  {
  }

  /** One body cell of the refreshed grid is the exported cell it replaces. */
  lemma CellAt(t: Table, g: seq<seq<string>>, r: seq<seq<string>>, i: nat, c: nat)
    requires 1 <= i <= |t.rowLabels| && 1 <= c <= |t.colLabels| && i - 1 < |t.values| && |t.values[i - 1]| == |t.colLabels|
    requires Refresh.BodyCell(t, t.colLabels[c - 1], t.rowLabels[i - 1], FormatValue) == FormatValue(t.values[i - 1][c - 1])
    requires |g| == |r| == 1 + |t.rowLabels| && |g[0]| == 1 + |t.colLabels| && |g[i]| == |g[0]| && |r[i]| == |g[0]|
    requires g[0][c] == t.colLabels[c - 1] && g[i][0] == t.rowLabels[i - 1]
    requires g[i][c] == if c - 1 < |t.values[i - 1]| then FormatValue(t.values[i - 1][c - 1]) else ""
    requires r[i][c] == Refresh.BodyCell(t, g[0][c], g[i][0], FormatValue)
    ensures r[i][c] == g[i][c]
  {
  }

  /** The grid, refreshed from the table it was exported from, with the formatter both use. */
  lemma GridFixedWith(t: Table)
    requires Findable(t)
    ensures var g := ExportGridWith(t, FormatValue);
      RefreshGridWith(g, t, FormatValue) == g
  {
    forall i, c | 0 <= i < |t.rowLabels| && 0 <= c < |t.colLabels|
      ensures Refresh.BodyCell(t, t.colLabels[c], t.rowLabels[i], FormatValue) == FormatValue(t.values[i][c])
    {
      CellFixed(t, i, c);
    }
    GridFixedFrom(t);
  }

  /** Refreshing an exported grid from the table it was exported from changes no cell. */
  lemma ExportedGridFixed(t: Table)
    requires Findable(t)
    ensures RefreshGrid(ExportGrid(t), t) == ExportGrid(t)
  {
    GridFixedWith(t);
  }

  // ----- Exported alt texts -----

  /** Lower-case letters and underscores only. */
  predicate Word(k: string) {
    forall i :: 0 <= i < |k| ==> 'a' <= k[i] <= 'z' || k[i] == '_'
  }

  /** A word is a key the encoder can write. */
  lemma WordKeyOk(k: string)
    requires Word(k)
    ensures KeyOk(k) && !StartsWith(k, "---")
  {
    assert forall i :: 0 <= i < |k| ==> !IsSpace(k[i]) && k[i] != ':';
    if |k| >= 3 {
      assert k[..3][0] == k[0] != '-';
    }
  }

  /** The tag keys are in `_norm` form and hold no colon. */
  lemma TagKeysOk()
    ensures forall k :: k in TagKeys ==> KeyOk(k) && !StartsWith(k, "---")
    ensures "table_key" !in TagKeys && "col" !in TagKeys
  {
    forall k | k in TagKeys ensures KeyOk(k) && !StartsWith(k, "---") {
      assert Word(k);
      WordKeyOk(k);
    }
  }

  /** Printable ASCII, space included. */
  predicate Printable(s: string) {
    forall i :: 0 <= i < |s| ==> ' ' <= s[i] <= '~'
  }

  lemma PrintablePlain(s: string)
    requires Printable(s)
    ensures NoLineBreak(s)
  {
  }

  /** The object types stay on one line. */
  lemma TypesPlain()
    ensures forall k :: k in TagTypes ==> NoLineBreak(k)
  {
    forall k | k in TagTypes ensures NoLineBreak(k) {
      assert Printable(k);
      PrintablePlain(k);
    }
  }

  lemma NotePlain()
    ensures NoLineBreak(ExcludeNote)
  {
    assert Printable(ExcludeNote);
    PrintablePlain(ExcludeNote);
  }

  lemma FixedPlain()
    ensures NoLineBreak("*") && NoLineBreak("yes") && NoLineBreak("Total")
  {
    assert Printable("*") && Printable("yes") && Printable("Total");
    PrintablePlain("*");
    PrintablePlain("yes");
    PrintablePlain("Total");
  }

  lemma BindingsPlain()
    ensures NoLineBreak(QuestionBinding) && NoLineBreak(BaseBinding)
  {
    assert Printable(QuestionBinding) && Printable(BaseBinding);
    PrintablePlain(QuestionBinding);
    PrintablePlain(BaseBinding);
  }

  /** The fixed values a tag may hold stay on one line. */
  lemma TagValuesPlain()
    ensures forall k :: k in TagTypes ==> NoLineBreak(k)
    ensures NoLineBreak(ExcludeNote) && NoLineBreak("*") && NoLineBreak("yes") && NoLineBreak("Total")
    ensures NoLineBreak(QuestionBinding) && NoLineBreak(BaseBinding)
  {
    TypesPlain();
    NotePlain();
    FixedPlain();
    BindingsPlain();
  }

  /** No object type is empty. */
  lemma TagTypesNamed()
    ensures forall k :: k in TagTypes ==> k != ""
  {
  }

  /** Entries with tag keys and one-line values can be written and read back. */
  lemma TagKeysEncodable(e: seq<Entry>)
    requires forall i :: 0 <= i < |e| ==> e[i].0 in TagKeys
    requires forall i :: 0 <= i < |e| && e[i].1.Some? ==> NoLineBreak(e[i].1.value)
    ensures Encodable(e)
  {
    TagKeysOk();
  }

  /** The entries `_tag_shape` writes for an exported shape. */
  function TagOf(c: TagCall): Option<seq<Entry>> {
    TagEntries(c.objType, Some(c.title), c.colKey, Some(QuestionBinding), Some(BaseBinding))
  }

  /** A title and column that stay on one line. */
  predicate OneLine(c: TagCall) {
    NoLineBreak(c.title) && (c.colKey.Some? ==> NoLineBreak(c.colKey.value))
  }

  /** The column value a tag carries, "Total" unless a column was given. */
  function TagColumn(c: TagCall): string {
    if Truthy(c.colKey) then c.colKey.value else "Total"
  }

  lemma ChartTagEncodable(title: string, column: string)
    requires NoLineBreak(title) && NoLineBreak(column)
    ensures Encodable(ChartTag(Some(title), column, Some(QuestionBinding), Some(BaseBinding)))
  {
    TagValuesPlain();
    TagKeysEncodable(ChartTag(Some(title), column, Some(QuestionBinding), Some(BaseBinding)));
  }

  lemma TableTagEncodable(title: string, column: string)
    requires NoLineBreak(title) && NoLineBreak(column)
    ensures Encodable(TableTag(Some(title), column))
  {
    TagValuesPlain();
    TagKeysEncodable(TableTag(Some(title), column));
  }

  lemma TextTagEncodable(objType: string, title: string, column: string)
    requires NoLineBreak(objType) && NoLineBreak(title) && NoLineBreak(column)
    ensures Encodable(TextTag(objType, Some(title), column))
  {
    TagValuesPlain();
    TagKeysEncodable(TextTag(objType, Some(title), column));
  }

  /** With a one-line title and column, an exported tag can be read back. */
  lemma TagEncodable(c: TagCall)
    requires c.objType in TagTypes && OneLine(c)
    ensures Encodable(TagOf(c).value)
  {
    TagValuesPlain();
    var col := TagColumn(c);
    if c.objType == "chart" {
      ChartTagEncodable(c.title, col);
    } else if c.objType == "table" {
      TableTagEncodable(c.title, col);
    } else {
      TextTagEncodable(c.objType, c.title, col);
    }
  }

  /** The alt text of a tagged exported shape is its encoded tag. */
  lemma AltOfTag(p: Placed)
    requires p.tag.Some? && p.tag.value.objType in TagTypes
    ensures TagOf(p.tag.value).Some? && AltOf(p) == Encode(TagOf(p.tag.value).value)
  {
  }

  /** Reading back what the encoder wrote yields only keys the entries had. */
  lemma DecodedKeysAmong(e: seq<Entry>, keys: seq<string>)
    requires Encodable(e) && forall j :: 0 <= j < |e| ==> e[j].0 in keys
    ensures forall k :: k in DecodeAlt(Encode(e)) ==> k in keys
  {
    DecodeEncoded(e);
    var kv := Written(e);
    var sv := StripValues(kv);
    ToMapKeys(sv);
    forall k | k in ToMap(sv) ensures k in keys {
      var i :| 0 <= i < |sv| && sv[i].0 == k;
      KeyWritten(e, kv, i);
    }
  }

  lemma KeyWritten(e: seq<Entry>, kv: seq<(string, string)>, i: nat)
    requires kv == Written(e) && i < |kv|
    ensures exists j :: 0 <= j < |e| && e[j].0 == kv[i].0
  {
    assert kv[i] in kv;
    var j :| 0 <= j < |e| && e[j] == (kv[i].0, Some(kv[i].1));
  }

  /** Every key the updater decodes from an exported tag is a tag key. */
  lemma DecodedTagKeys(c: TagCall)
    requires c.objType in TagTypes && OneLine(c)
    ensures forall k :: k in DecodeAlt(Encode(TagOf(c).value)) ==> k in TagKeys
  {
    TagEncodable(c);
    DecodedKeysAmong(TagOf(c).value, TagKeys);
  }

  /**
    The updater cannot bind an exported shape through its alt text: the
    exporter writes `table_title` and `column`, the updater reads only
    `table_key` and `col`. Only a `CHART:` or `TABLE:` name binds it.
   */
  lemma ExportedTagUnbound(name: string, p: Placed)
    requires p.tag.Some? && p.tag.value.objType in TagTypes && OneLine(p.tag.value)
    ensures var alt := DecodeAlt(AltOf(p));
      "table_key" !in alt && "col" !in alt
    ensures BindingOf(Shape(name, AltOf(p), p.content)).tableKey == NameTags(name).0
  {
    AltOfTag(p);
    DecodedTagKeys(p.tag.value);
    TagKeysOk();
  }

  /** On an exported tag the validator and the updater read the same dict. */
  lemma ExportedReadersAgree(p: Placed)
    requires p.tag.Some? && p.tag.value.objType in TagTypes && OneLine(p.tag.value)
    ensures ValidationParse(AltOf(p)) == DecodeAlt(AltOf(p))
  {
    var e := TagOf(p.tag.value).value;
    AltOfTag(p);
    TagEncodable(p.tag.value);
    TagKeysOk();
    ReadersAgree(e);
  }

  /** The mapping helper lists every tagged exported shape as mapped, whatever its name. */
  lemma ExportedShapeMapped(name: string, p: Placed)
    requires p.tag.Some? && p.tag.value.objType in TagTypes
    ensures StatusOf(name, AltOf(p)) == Mapped
  {
    var c := p.tag.value;
    AltOfTag(p);
    TagTypesNamed();
    TypeMarked(TagOf(c).value, c.objType);
    var alt := AltOf(p);
    assert Marked(alt);
    assert alt != "";
  }
}

=== FILE: mapping.dfy ===
/**
  The mapping helper (mapping_helper.py). It lists every shape of a deck
  with its kind and mapping status, writes a template of mappings for the
  charts and tables, applies edited mappings as alt texts, and checks mapped
  shapes against the crosstab's tables.
 */
module Mapping {

  import opened Common
  import opened Text
  import opened Numbers
  import opened Crosstab
  import opened AltText
  import opened Deck
  import opened Refresh

  // ----- Listing shapes: `list_all_shapes` (mapping_helper.py:17-99) -----

  /**
    What the listing learns of a shape before classifying it: whether it holds
    a chart, whether it holds a table, and the text of its text frame when it
    has one (mapping_helper.py:24-38, 56).
   */
  datatype Probe = Probe(hasChart: bool, hasTable: bool, text: Option<string>)

  /** The probe of a modelled shape: only a text box has a text frame. */
  function ProbeOf(c: Content): Probe {
    Probe(c.Chart?, c.Grid?, if c.TextBox? then Some(c.text) else None)
  }

  datatype Kind = ChartShape | TableShape | TextShape | OtherShape

  /** The `type` string the listing reports. */
  function KindName(k: Kind): string {
    match k
    case ChartShape => "chart"
    case TableShape => "table"
    case TextShape => "text"
    case OtherShape => "other"
  }

  /**
    The shape type (mapping_helper.py:51-59): a chart wins over a table, a
    table over text, and text counts only when it is not blank.
   */
  function KindOf(p: Probe): (k: Kind)
    ensures k == ChartShape <==> p.hasChart
    ensures k == TableShape <==> !p.hasChart && p.hasTable
    ensures k == TextShape <==> !p.hasChart && !p.hasTable && p.text.Some? && Strip(p.text.value) != ""
  {
    if p.hasChart then ChartShape
    else if p.hasTable then TableShape
    else if p.text.Some? && Strip(p.text.value) != "" then TextShape
    else OtherShape
  }

  /**
    On modelled shapes the kind follows the content: charts, tables, text
    boxes with some non-whitespace text, and everything else.
   */
  lemma KindOfContent(c: Content)
    ensures KindOf(ProbeOf(c)) == ChartShape <==> c.Chart?
    ensures KindOf(ProbeOf(c)) == TableShape <==> c.Grid?
    ensures KindOf(ProbeOf(c)) == TextShape <==> c.TextBox? && Strip(c.text) != ""
    ensures KindOf(ProbeOf(c)) == OtherShape <==> c.Other? || (c.TextBox? && Strip(c.text) == "")
  {
  }

  /** The name the listing shows (mapping_helper.py:43): the shape's own, or `Unnamed_<slide>_<n>`. */
  function DisplayName(name: string, slide: nat, n: nat): (d: string)
    ensures name != "" ==> d == name
    ensures d != ""
  {
    if name != "" then name else "Unnamed_" + NatToString(slide) + "_" + NatToString(n)
  }

  /** `a + "_" + b` for digit strings splits back at its first underscore. */
  lemma UnderscoreSplit(a: string, b: string)
    requires AllDigits(a)
    ensures '_' in a + "_" + b
    ensures SplitFirst(a + "_" + b, '_') == (a, b)
  {
    assert forall i :: 0 <= i < |a| ==> a[i] != '_';
    assert a + "_" + b == a + ['_'] + b;
    SplitFirstAt(a, '_', b);
  }

  /** Shapes without a name get different display names at different positions. */
  lemma UnnamedDistinct(s1: nat, n1: nat, s2: nat, n2: nat)
    requires DisplayName("", s1, n1) == DisplayName("", s2, n2)
    ensures s1 == s2 && n1 == n2
  {
    var a1, b1 := NatToString(s1), NatToString(n1);
    var a2, b2 := NatToString(s2), NatToString(n2);
    var p := "Unnamed_";
    assert p + a1 + "_" + b1 == p + (a1 + "_" + b1);
    assert p + a2 + "_" + b2 == p + (a2 + "_" + b2);
    var w1, w2 := a1 + "_" + b1, a2 + "_" + b2;
    assert w1 == (p + w1)[|p|..] == (p + w2)[|p|..] == w2;
    UnderscoreSplit(a1, b1);
    UnderscoreSplit(a2, b2);
    NatToStringInjective(s1, s2);
    NatToStringInjective(n1, n2);
  }

  datatype Status = Mapped | NamedButUnmapped | Unmapped

  /** The name prefixes of shapes meant to be mapped. */
  const NamePrefixes: seq<string> := ["CHART_", "TABLE_", "TEXT_"]

  /** An alt text carrying one of the two markers of a mapping. */
  predicate Marked(alt: string) {
    Contains(alt, "table_title:") || Contains(alt, "type:")
  }

  /** The mapping status (mapping_helper.py:90-95). */
  function StatusOf(name: string, alt: string): (st: Status)
    ensures st == Mapped <==> alt != "" && Marked(alt)
    ensures st == NamedButUnmapped <==> alt != "" && !Marked(alt) && StartsWithAny(name, NamePrefixes)
    ensures alt == "" ==> st == Unmapped
  {
    if alt != "" && Marked(alt) then Mapped
    else if alt != "" && StartsWithAny(name, NamePrefixes) then NamedButUnmapped
    else Unmapped
  }

  /** One record of the listing. */
  datatype ShapeInfo = ShapeInfo(slide: nat, shapeNum: nat, name: string, kind: Kind, alt: string, status: Status)

  /** The record of shape number `n` on slide number `slide`, both counted from 1. */
  function InfoOf(s: Shape, slide: nat, n: nat): ShapeInfo {
    var name := DisplayName(s.name, slide, n);
    ShapeInfo(slide, n, name, KindOf(ProbeOf(s.content)), s.alt, StatusOf(name, s.alt))
  }

  /** The records of one slide's shapes, in order. */
  function SlideInfos(sl: Slide, k: nat): (r: seq<ShapeInfo>)
    ensures |r| == |sl.shapes|
    ensures forall j :: 0 <= j < |r| ==> r[j] == InfoOf(sl.shapes[j], k, j + 1)
  {
    seq(|sl.shapes|, j requires 0 <= j < |sl.shapes| => InfoOf(sl.shapes[j], k, j + 1))
  }

  /** How many shapes the first `n` slides hold. */
  function Offset(slides: seq<Slide>, n: nat): nat
    requires n <= |slides|
  {
    if n == 0 then 0 else Offset(slides, n - 1) + |slides[n - 1].shapes|
  }

  /** Shape `j` of slide `k` (from 0) has its record at position `Offset(slides, k) + j` of `r`. */
  predicate ListedAt(r: seq<ShapeInfo>, slides: seq<Slide>, k: nat, j: nat)
    requires k < |slides| && j < |slides[k].shapes|
  {
    Offset(slides, k) + j < |r| && r[Offset(slides, k) + j] == InfoOf(slides[k].shapes[j], k + 1, j + 1)
  }

  /** The listing of the first `n` slides. */
  function ListUpTo(slides: seq<Slide>, n: nat): (r: seq<ShapeInfo>)
    requires n <= |slides|
    ensures |r| == Offset(slides, n)
    ensures forall k: nat, j: nat :: k < n && j < |slides[k].shapes| ==> ListedAt(r, slides, k, j)
  {
    if n == 0 then []
    else
      var prev := ListUpTo(slides, n - 1);
      var r := prev + SlideInfos(slides[n - 1], n);
      ListStep(slides, n, prev, r);
      r
  }

  /** Appending slide `n`'s records keeps every earlier position and places the new ones after them. */
  lemma ListStep(slides: seq<Slide>, n: nat, prev: seq<ShapeInfo>, r: seq<ShapeInfo>)
    requires 0 < n <= |slides|
    requires |prev| == Offset(slides, n - 1)
    requires forall k: nat, j: nat :: k < n - 1 && j < |slides[k].shapes| ==> ListedAt(prev, slides, k, j)
    requires r == prev + SlideInfos(slides[n - 1], n)
    ensures forall k: nat, j: nat :: k < n && j < |slides[k].shapes| ==> ListedAt(r, slides, k, j)
  {
    forall k: nat, j: nat | k < n && j < |slides[k].shapes| ensures ListedAt(r, slides, k, j) {
      if k < n - 1 {
        assert ListedAt(prev, slides, k, j);
      }
    }
  }

  /**
    `list_all_shapes`: one record per shape, slide by slide and shape by
    shape, with 1-based numbers.
   */
  function ListShapes(slides: seq<Slide>): (r: seq<ShapeInfo>)
    ensures |r| == Offset(slides, |slides|)
    ensures forall k: nat, j: nat :: k < |slides| && j < |slides[k].shapes| ==> ListedAt(r, slides, k, j)
  {
    ListUpTo(slides, |slides|)
  }

  // ----- The template: `generate_mapping_template` (mapping_helper.py:101-137) -----

  /** The placeholder the template puts where a table title belongs. */
  const Placeholder := "REPLACE_WITH_TABLE_TITLE"

  /** Only charts and tables get a template entry. */
  predicate Templated(k: Kind) {
    k == ChartShape || k == TableShape
  }

  /** The dict the template writes for a chart (`isChart`) or a table (mapping_helper.py:126-133). */
  function TemplateEntries(isChart: bool): (e: seq<Entry>)
    ensures KeysDistinct(e)
    ensures ("type", Some(if isChart then "chart" else "table")) in e
    ensures ("table_title", Some(Placeholder)) in e && ("exclude_rows", Some(ExcludeNote)) in e
    ensures ("auto_update", Some("yes")) in e
    ensures isChart ==> ("column", Some("Total")) in e
    ensures !isChart ==> forall i :: 0 <= i < |e| ==> e[i].0 != "column"
  {
    [("type", Some(if isChart then "chart" else "table")), ("table_title", Some(Placeholder))]
    + (if isChart then [("column", Some("Total"))] else [])
    + [("exclude_rows", Some(ExcludeNote)), ("auto_update", Some("yes"))]
  }

  /** The positions of listed shapes the template skips. */
  function Untemplated(infos: seq<ShapeInfo>): set<nat> {
    set i: nat | i < |infos| && !Templated(infos[i].kind)
  }

  /** Every listed shape paired with the dict the template would write for it. */
  function Candidates(infos: seq<ShapeInfo>): (c: seq<(string, seq<Entry>)>)
    ensures |c| == |infos|
    ensures forall i :: 0 <= i < |c| ==> c[i] == (infos[i].name, TemplateEntries(infos[i].kind == ChartShape))
  {
    seq(|infos|, i requires 0 <= i < |infos| => (infos[i].name, TemplateEntries(infos[i].kind == ChartShape)))
  }

  /**
    The `MAPPINGS` items the template writes: one per chart or table in
    listing order, under the listed name, with a `column` entry for charts only.
   */
  function Template(infos: seq<ShapeInfo>): (t: seq<(string, seq<Entry>)>)
    ensures var ks := KeptIndices(|infos|, Untemplated(infos));
      && |t| == |ks|
      && forall m :: 0 <= m < |t| ==>
           Templated(infos[ks[m]].kind) && t[m] == (infos[ks[m]].name, TemplateEntries(infos[ks[m]].kind == ChartShape))
  {
    Keep(Candidates(infos), Untemplated(infos))
  }

  /** Every chart and table of the listing has its item in the template. */
  lemma TemplateCovers(infos: seq<ShapeInfo>, i: nat)
    requires i < |infos| && Templated(infos[i].kind)
    ensures (infos[i].name, TemplateEntries(infos[i].kind == ChartShape)) in Template(infos)
  {
    var ks := KeptIndices(|infos|, Untemplated(infos));
    assert i !in Untemplated(infos);
    var m :| 0 <= m < |ks| && ks[m] == i;
    assert Template(infos)[m] == (infos[i].name, TemplateEntries(infos[i].kind == ChartShape));
  }

  /** A dict the template writes: it names a chart or a table as its type. */
  predicate TemplateLike(e: seq<Entry>) {
    ("type", Some("chart")) in e || ("type", Some("table")) in e
  }

  /** Every template item is a template dict and carries the placeholder title. */
  lemma TemplateItems(infos: seq<ShapeInfo>)
    ensures forall m :: 0 <= m < |Template(infos)| ==>
      TemplateLike(Template(infos)[m].1) && ("table_title", Some(Placeholder)) in Template(infos)[m].1
  {
  }

  /** The dict literal `MAPPINGS = {...}`: a name written twice keeps its last dict. */
  function MappingsOf(items: seq<(string, seq<Entry>)>): (mp: map<string, seq<Entry>>)
    ensures forall i :: 0 <= i < |items| ==> items[i].0 in mp
    ensures forall k :: k in mp ==> (k, mp[k]) in items
  {
    if |items| == 0 then map[]
    else
      var n := |items| - 1;
      var prev := MappingsOf(items[..n]);
      assert forall p :: p in items[..n] ==> p in items;
      assert forall i :: 0 <= i < n ==> items[i] == items[..n][i];
      prev[items[n].0 := items[n].1]
  }

  /** A name written twice keeps the dict of its last item. */
  lemma {:induction false} MappingsLastWins(items: seq<(string, seq<Entry>)>, i: nat)
    requires i < |items|
    requires forall j :: i < j < |items| ==> items[j].0 != items[i].0
    ensures MappingsOf(items)[items[i].0] == items[i].1
  {
    var n := |items| - 1;
    if i < n {
      assert forall j :: i < j < n ==> items[..n][j] == items[j];
      MappingsLastWins(items[..n], i);
    }
  }

  // ----- Applying mappings: `apply_mapping_from_file` (mapping_helper.py:139-172) -----

  /**
    One shape under the mappings (mapping_helper.py:156-167): a named shape
    listed in the mappings gets the dict's `key: value` lines as its alt text,
    unless none of its values is written; nothing else about it changes.
   */
  function ApplyShape(s: Shape, mp: map<string, seq<Entry>>): (r: Shape)
    ensures r.name == s.name && r.content == s.content
    ensures s.name == "" || s.name !in mp ==> r == s
    ensures s.name != "" && s.name in mp && Written(mp[s.name]) != [] ==> r.alt == Encode(mp[s.name])
    ensures s.name in mp && Written(mp[s.name]) == [] ==> r == s
  {
    if s.name != "" && s.name in mp && Written(mp[s.name]) != [] then s.(alt := Encode(mp[s.name])) else s
  }

  /** Every shape of every slide under the mappings. */
  function ApplyMappings(slides: seq<Slide>, mp: map<string, seq<Entry>>): (r: seq<Slide>)
    ensures |r| == |slides|
    ensures forall k :: 0 <= k < |r| ==> |r[k].shapes| == |slides[k].shapes|
    ensures forall k, j :: 0 <= k < |r| && 0 <= j < |r[k].shapes| ==>
      r[k].shapes[j] == ApplyShape(slides[k].shapes[j], mp)
  {
    seq(|slides|, k requires 0 <= k < |slides| =>
      Slide(seq(|slides[k].shapes|, j requires 0 <= j < |slides[k].shapes| => ApplyShape(slides[k].shapes[j], mp))))
  }

  /** Applying the same mappings twice changes nothing more. */
  lemma ApplyIdempotent(slides: seq<Slide>, mp: map<string, seq<Entry>>)
    ensures ApplyMappings(ApplyMappings(slides, mp), mp) == ApplyMappings(slides, mp)
  {
    var once := ApplyMappings(slides, mp);
    var twice := ApplyMappings(once, mp);
    forall k | 0 <= k < |once| ensures twice[k] == once[k] {
      assert twice[k].shapes == once[k].shapes;
    }
  }

  /**
    The updater reads an applied alt text back as the dict it came from,
    without its None and empty values and with its values stripped.
   */
  lemma AppliedReadBack(s: Shape, mp: map<string, seq<Entry>>)
    requires s.name != "" && s.name in mp && Written(mp[s.name]) != []
    requires Encodable(mp[s.name])
    ensures DecodeAlt(ApplyShape(s, mp).alt) == ToMap(StripValues(Written(mp[s.name])))
  {
    DecodeEncoded(mp[s.name]);
  }

  /** Text found in one line is found in the joined lines. */
  lemma {:induction false} JoinContains(lines: seq<string>, i: nat, sub: string)
    requires i < |lines| && Contains(lines[i], sub)
    ensures Contains(JoinLines(lines), sub)
  {
    if |lines| > 1 {
      var rest := JoinLines(lines[1..]);
      assert JoinLines(lines) == lines[0] + ("\n" + rest);
      if i == 0 {
        ContainsExtend(lines[0], "\n" + rest, sub);
      } else {
        JoinContains(lines[1..], i - 1, sub);
        ContainsInSuffix(lines[0] + "\n", rest, sub);
        assert lines[0] + "\n" + rest == lines[0] + ("\n" + rest);
      }
    }
  }

  /** A dict with a non-empty `type` encodes to text carrying the `type:` marker. */
  lemma TypeMarked(entries: seq<Entry>, v: string)
    requires ("type", Some(v)) in entries && v != ""
    ensures Written(entries) != []
    ensures Contains(Encode(entries), "type:")
  {
    var kv := Written(entries);
    var j :| 0 <= j < |entries| && entries[j] == ("type", Some(v));
    assert ("type", v) in kv;
    var i :| 0 <= i < |kv| && kv[i] == ("type", v);
    MarkedLines(kv, i);
  }

  /** The joined lines of pairs one of which has key `type` carry the `type:` marker. */
  lemma MarkedLines(kv: seq<(string, string)>, i: nat)
    requires i < |kv| && kv[i].0 == "type"
    ensures Contains(JoinLines(Lines(kv)), "type:")
  {
    var lines := Lines(kv);
    assert lines[i] == Line("type", kv[i].1);
    TypeLine(kv[i].1);
    JoinContains(lines, i, "type:");
  }

  /** A `type` line starts with the `type:` marker. */
  lemma TypeLine(v: string)
    ensures Contains(Line("type", v), "type:")
  {
    var l := Line("type", v);
    assert l[..5] == "type:";
  }

  /** The dict the mappings hold under a name comes from one of the items. */
  lemma MappingsKeep(items: seq<(string, seq<Entry>)>, name: string)
    requires forall m :: 0 <= m < |items| ==> TemplateLike(items[m].1)
    requires name in MappingsOf(items)
    ensures TemplateLike(MappingsOf(items)[name])
  {
    var mi :| 0 <= mi < |items| && items[mi] == (name, MappingsOf(items)[name]);
  }

  /** A named shape given a template dict is listed as mapped afterwards. */
  lemma AppliedMarked(s: Shape, mp: map<string, seq<Entry>>, slide: nat, n: nat)
    requires s.name != "" && s.name in mp && TemplateLike(mp[s.name])
    ensures InfoOf(ApplyShape(s, mp), slide, n).status == Mapped
  {
    if ("type", Some("chart")) in mp[s.name] {
      TypeMarked(mp[s.name], "chart");
    } else {
      TypeMarked(mp[s.name], "table");
    }
  }

  /** A named chart or table of the deck has an item in the template made from it. */
  lemma TemplateNamesShape(slides: seq<Slide>, k: nat, j: nat)
    requires k < |slides| && j < |slides[k].shapes|
    requires slides[k].shapes[j].name != ""
    requires slides[k].shapes[j].content.Chart? || slides[k].shapes[j].content.Grid?
    ensures slides[k].shapes[j].name in MappingsOf(Template(ListShapes(slides)))
  {
    var s := slides[k].shapes[j];
    var infos := ListShapes(slides);
    assert ListedAt(infos, slides, k, j);
    var i := Offset(slides, k) + j;
    KindOfContent(s.content);
    TemplateCovers(infos, i);
    var t := Template(infos);
    var m :| 0 <= m < |t| && t[m].0 == s.name;
  }

  /**
    Applying the unedited template to the deck it was made from marks every
    named chart and table as mapped when the deck is listed again.
   */
  lemma TemplateMarksShapes(slides: seq<Slide>, k: nat, j: nat)
    requires k < |slides| && j < |slides[k].shapes|
    requires slides[k].shapes[j].name != ""
    requires slides[k].shapes[j].content.Chart? || slides[k].shapes[j].content.Grid?
    ensures var after := ApplyMappings(slides, MappingsOf(Template(ListShapes(slides))));
      InfoOf(after[k].shapes[j], k + 1, j + 1).status == Mapped
  {
    var t := Template(ListShapes(slides));
    var mp := MappingsOf(t);
    TemplateNamesShape(slides, k, j);
    TemplateItems(ListShapes(slides));
    MappingsKeep(t, slides[k].shapes[j].name);
    AppliedMarked(slides[k].shapes[j], mp, k + 1, j + 1);
  }

  // ----- Validation: `validate_mappings` (mapping_helper.py:174-227) -----

  /** The issue for a chart column the table lacks (mapping_helper.py:212-214). */
  function ColumnIssue(name: string, column: string, title: string): string {
    "Shape '" + name + "': Column '" + column + "' not found in table '" + title + "'"
  }

  /** The issue for a title no table carries (mapping_helper.py:222-224). */
  function TableIssue(name: string, title: string): string {
    "Shape '" + name + "': Table '" + title + "' not found in crosstab"
  }

  /**
    What the check makes of one mapped shape: no `table_title` to check, a
    valid or an invalid mapping, or (as written) a chart whose column is
    found but which is counted neither way.
   */
  datatype Verdict = NoTitle | Valid | Invalid(issue: string) | Uncounted

  /** A chart whose alt text names a `column`: the only shape whose column is checked. */
  predicate ChartColumn(info: ShapeInfo) {
    info.kind == ChartShape && "column" in ValidationParse(info.alt)
  }

  /**
    The check of one mapped shape (mapping_helper.py:192-225) against the
    first table titled exactly as its `table_title`. `countFound` selects the
    corrected reading, in which a chart whose column is found is valid.
   */
  function Judge(info: ShapeInfo, tables: seq<Table>, countFound: bool): (v: Verdict)
    ensures v == NoTitle <==> "table_title" !in ValidationParse(info.alt)
    ensures v.Invalid? && ExactTitle(tables, ValidationParse(info.alt)["table_title"]).Some? ==>
      info.kind == ChartShape && "column" in ValidationParse(info.alt)
    ensures countFound ==> v != Uncounted
    ensures v == Uncounted ==> info.kind == ChartShape
    ensures "table_title" in ValidationParse(info.alt) && ExactTitle(tables, ValidationParse(info.alt)["table_title"]).None? ==>
      v == Invalid(TableIssue(info.name, ValidationParse(info.alt)["table_title"]))
    ensures ( && "table_title" in ValidationParse(info.alt)
              && ExactTitle(tables, ValidationParse(info.alt)["table_title"]).Some?
              && !ChartColumn(info))
            ==> v == Valid
    ensures ( && "table_title" in ValidationParse(info.alt)
              && ExactTitle(tables, ValidationParse(info.alt)["table_title"]).Some?
              && ChartColumn(info)
              && ValidationParse(info.alt)["column"] !in ExactTitle(tables, ValidationParse(info.alt)["table_title"]).value.colLabels)
            ==> v == Invalid(ColumnIssue(info.name, ValidationParse(info.alt)["column"], ValidationParse(info.alt)["table_title"]))
    ensures ( && "table_title" in ValidationParse(info.alt)
              && ExactTitle(tables, ValidationParse(info.alt)["table_title"]).Some?
              && ChartColumn(info)
              && ValidationParse(info.alt)["column"] in ExactTitle(tables, ValidationParse(info.alt)["table_title"]).value.colLabels)
            ==> v == if countFound then Valid else Uncounted
  {
    var m := ValidationParse(info.alt);
    if "table_title" !in m then NoTitle
    else
      var title := m["table_title"];
      match ExactTitle(tables, title)
      case None => Invalid(TableIssue(info.name, title))
      case Some(t) =>
        if "column" in m && info.kind == ChartShape then
          if m["column"] !in t.colLabels then Invalid(ColumnIssue(info.name, m["column"], title))
          else if countFound then Valid
          else Uncounted
        else Valid
  }

  /** A title no table carries makes the mapping invalid, whatever else it says. */
  lemma MissingTableInvalid(info: ShapeInfo, tables: seq<Table>, countFound: bool)
    requires "table_title" in ValidationParse(info.alt)
    requires forall t :: t in tables ==> t.title != ValidationParse(info.alt)["table_title"]
    ensures Judge(info, tables, countFound) ==
      Invalid(TableIssue(info.name, ValidationParse(info.alt)["table_title"]))
  {
  }

  /** The `validation_results` counters and issues. */
  datatype Tally = Tally(total: nat, mapped: nat, valid: nat, invalid: nat, issues: seq<string>)

  /** Mapped shapes among the first `n` records. */
  function MappedCount(infos: seq<ShapeInfo>, n: nat): (c: nat)
    requires n <= |infos|
    ensures c <= n
  {
    if n == 0 then 0 else MappedCount(infos, n - 1) + (if infos[n - 1].status == Mapped then 1 else 0)
  }

  /** A mapped shape whose alt text names a table: the shapes the check is about. */
  predicate Checked(info: ShapeInfo) {
    info.status == Mapped && "table_title" in ValidationParse(info.alt)
  }

  /** Checked shapes among the first `n` records. */
  function CheckedCount(infos: seq<ShapeInfo>, n: nat): (c: nat)
    requires n <= |infos|
    ensures c <= MappedCount(infos, n)
  {
    if n == 0 then 0 else CheckedCount(infos, n - 1) + (if Checked(infos[n - 1]) then 1 else 0)
  }

  /** The tally after the first `n` records of the listing. */
  function TallyUpTo(infos: seq<ShapeInfo>, tables: seq<Table>, countFound: bool, n: nat): (r: Tally)
    requires n <= |infos|
    ensures r.total == |infos|
    ensures r.mapped == MappedCount(infos, n)
    ensures r.valid + r.invalid <= r.mapped <= r.total
    ensures |r.issues| == r.invalid
    ensures countFound ==> r.valid + r.invalid == CheckedCount(infos, n)
  {
    if n == 0 then Tally(|infos|, 0, 0, 0, [])
    else
      var r := TallyUpTo(infos, tables, countFound, n - 1);
      var info := infos[n - 1];
      if info.status != Mapped then r
      else
        var r1 := r.(mapped := r.mapped + 1);
        match Judge(info, tables, countFound)
        case Valid => r1.(valid := r1.valid + 1)
        case Invalid(issue) => r1.(invalid := r1.invalid + 1, issues := r1.issues + [issue])
        case _ => r1
  }

  /**
    `validate_mappings` as written: the shapes of the deck checked against
    the workbook's tables. Every counted mapping is a mapped shape, and every
    invalid one leaves exactly one issue.
   */
  function ValidateAsWritten(slides: seq<Slide>, sheets: seq<Sheet>): (r: Tally)
    requires Frames(sheets)
    ensures r.total == Offset(slides, |slides|)
    ensures r.valid + r.invalid <= r.mapped <= r.total
    ensures |r.issues| == r.invalid
  {
    var infos := ListShapes(slides);
    TallyUpTo(infos, ParseWorkbook(sheets), false, |infos|)
  }

  /**
    The validation as evidently intended: every mapped shape that names a
    table is counted exactly once, valid or invalid.
   */
  function Validate(slides: seq<Slide>, sheets: seq<Sheet>): (r: Tally)
    requires Frames(sheets)
    ensures r.total == Offset(slides, |slides|)
    ensures r.valid + r.invalid <= r.mapped <= r.total
    ensures |r.issues| == r.invalid
    ensures r.valid + r.invalid == CheckedCount(ListShapes(slides), r.total)
  {
    var infos := ListShapes(slides);
    TallyUpTo(infos, ParseWorkbook(sheets), true, |infos|)
  }

  /**
    As written, a mapped chart whose table and column are both found is
    counted neither valid nor invalid, so the counters fall short of the
    checked shapes; the corrected reading counts it valid.
   */
  lemma FoundColumnUncounted(info: ShapeInfo, tables: seq<Table>)
    requires Checked(info) && info.kind == ChartShape
    requires "column" in ValidationParse(info.alt)
    requires ExactTitle(tables, ValidationParse(info.alt)["table_title"]).Some?
    requires ValidationParse(info.alt)["column"] in ExactTitle(tables, ValidationParse(info.alt)["table_title"]).value.colLabels
    ensures Judge(info, tables, false) == Uncounted
    ensures Judge(info, tables, true) == Valid
    ensures var r := TallyUpTo([info], tables, false, 1);
      r.mapped == 1 && r.valid + r.invalid == 0 < CheckedCount([info], 1)
    ensures TallyUpTo([info], tables, true, 1).valid == 1
  {
  }

  /** The validator reads a line written for a stripped key and value back as that key and value. */
  lemma ValidationReads(k: string, v: string)
    requires ':' !in k && Stripped(k) && Stripped(v) && !StartsWith(k, "---")
    ensures ValidationKept(Line(k, v))
    ensures ValidationKey(Line(k, v)) == k && ValueOf(Line(k, v)) == v
  {
    LineParts(k, v);
    LineNotRule(k, v);
    StripStripped(k);
    StripLeadingSpace(v);
    StripStripped(v);
  }

  /** A key the validator reads back as written from a one-line alt text. */
  predicate PlainKey(k: string) {
    ':' !in k && Stripped(k) && NoLineBreak(k) && !StartsWith(k, "---")
  }

  /** A value the validator reads back as written. */
  predicate PlainValue(v: string) {
    Stripped(v) && NoLineBreak(v)
  }

  /** The validation loop over two kept lines: the second line's key is set last. */
  lemma TwoLinesLoop(l1: string, l2: string)
    requires ValidationKept(l1) && ValidationKept(l2)
    ensures ValidationLines([l1, l2]) == map[ValidationKey(l1) := ValueOf(l1)][ValidationKey(l2) := ValueOf(l2)]
  {
    ValidationSnoc([], l1);
    assert [] + [l1] == [l1];
    ValidationSnoc([l1], l2);
    assert [l1] + [l2] == [l1, l2];
  }

  /** Two kept one-line texts joined by a line break are read as the two pairs. */
  lemma TwoLinesRead(l1: string, l2: string)
    requires ValidationKept(l1) && ValidationKept(l2)
    requires l1 != "" && NoLineBreak(l1) && l2 != "" && NoLineBreak(l2)
    ensures ValidationParse(JoinLines([l1, l2]))
      == map[ValidationKey(l1) := ValueOf(l1)][ValidationKey(l2) := ValueOf(l2)]
  {
    var lines := [l1, l2];
    assert forall k :: 0 <= k < |lines| ==> lines[k] != "" && NoLineBreak(lines[k]);
    SplitJoin(lines);
    TwoLinesLoop(l1, l2);
  }

  /** A written line with a plain key and value is one kept line that reads back as the pair. */
  lemma PlainLine(k: string, v: string)
    requires PlainKey(k) && PlainValue(v)
    ensures ValidationKept(Line(k, v)) && Line(k, v) != "" && NoLineBreak(Line(k, v))
    ensures ValidationKey(Line(k, v)) == k && ValueOf(Line(k, v)) == v
  {
    ValidationReads(k, v);
    LineSplittable(k, v);
  }

  lemma TitleKeyPlain()
    ensures PlainKey("table_title")
  {
  }

  lemma ColumnKeyPlain()
    ensures PlainKey("column")
  {
  }

  lemma WitnessValuesPlain()
    ensures PlainValue("Q1") && PlainValue("Total")
  {
  }

  /** The alt text of the concrete case: a table title and a column. */
  const WitnessAlt := JoinLines([Line("table_title", "Q1"), Line("column", "Total")])

  /** What the validator reads from the concrete alt text, and its `table_title:` marker. */
  lemma WitnessParse()
    ensures var m := ValidationParse(WitnessAlt);
      "table_title" in m && m["table_title"] == "Q1" && "column" in m && m["column"] == "Total"
  {
    TitleKeyPlain();
    ColumnKeyPlain();
    WitnessValuesPlain();
    PlainLine("table_title", "Q1");
    PlainLine("column", "Total");
    TwoLinesRead(Line("table_title", "Q1"), Line("column", "Total"));
  }

  /** The concrete alt text carries the `table_title:` marker. */
  lemma WitnessMarked()
    ensures Marked(WitnessAlt)
  {
    var rest := "\n" + Line("column", "Total");
    LineMarker("table_title", "Q1", rest);
    assert WitnessAlt == Line("table_title", "Q1") + rest;
    assert "table_title" + ":" == "table_title:";
  }

  /** Text that starts with a line for key `k` contains `k` followed by a colon. */
  lemma LineMarker(k: string, v: string, rest: string)
    ensures Contains(Line(k, v) + rest, k + ":")
  {
    assert (Line(k, v) + rest)[..|k| + 1] == k + ":";
  }

  /**
    A concrete case: a chart named `CHART_Q1` whose alt text maps it to table
    `Q1`, column `Total`, which the workbook has. As written nothing is
    counted; corrected, one valid mapping.
   */
  lemma FoundColumnWitness()
    ensures var info := InfoOf(Shape("CHART_Q1", WitnessAlt, Chart(ChartData([], None, []))), 1, 1);
      var t := Table("S#1", "S", "Q1", ["a"], ["Total"], [[Some(10)]], 0, 2);
      && TallyUpTo([info], [t], false, 1) == Tally(1, 1, 0, 0, [])
      && TallyUpTo([info], [t], true, 1) == Tally(1, 1, 1, 0, [])
  {
    var info := InfoOf(Shape("CHART_Q1", WitnessAlt, Chart(ChartData([], None, []))), 1, 1);
    var t := Table("S#1", "S", "Q1", ["a"], ["Total"], [[Some(10)]], 0, 2);
    WitnessParse();
    WitnessMarked();
    assert info.status == Mapped && info.kind == ChartShape;
    FoundColumnUncounted(info, [t]);
  }
}

=== FILE: numbers.dfy ===
/**
  Numbers as the code prints and reads them.

  A numeric cell is modelled as an integer count of TENTHS: the value 45.3 is
  `453`. Crosstab figures carry at most one decimal digit, and every value of
  that kind is printed exactly by Python's `f"{v:.1f}"` and rounded exactly by
  Python's `round`, so both become plain integer arithmetic here.
 */
module Numbers {

  import opened Common
  import opened Text

  predicate IsDigit(c: char) {
    '0' <= c <= '9'
  }

  predicate AllDigits(s: string) {
    forall i :: 0 <= i < |s| ==> IsDigit(s[i])
  }

  function DigitChar(d: nat): (c: char)
    requires d < 10
    ensures IsDigit(c)
  {
    ('0' as int + d) as char
  }

  function DigitValue(c: char): (d: nat)
    requires IsDigit(c)
    ensures d < 10
  {
    c as int - '0' as int
  }

  /** Python's `str(n)` for a natural number: its decimal digits. */
  function NatToString(n: nat): (s: string)
    ensures |s| > 0 && AllDigits(s)
    decreases n
  {
    if n < 10 then [DigitChar(n)] else NatToString(n / 10) + [DigitChar(n % 10)]
  }

  /** The number a non-empty string of decimal digits denotes. */
  function DigitsValue(s: string): nat
    requires AllDigits(s)
  {
    if |s| == 0 then 0 else 10 * DigitsValue(s[..|s| - 1]) + DigitValue(s[|s| - 1])
  }

  /** Reading back the digits `str(n)` printed gives `n`. */
  lemma {:induction false} DigitsRoundTrip(n: nat)
    ensures DigitsValue(NatToString(n)) == n
    decreases n
  {
    var s := NatToString(n);
    if n >= 10 {
      assert s[..|s| - 1] == NatToString(n / 10);
      DigitsRoundTrip(n / 10);
    }
  }

  /** Distinct numbers print differently. */
  lemma NatToStringInjective(a: nat, b: nat)
    requires NatToString(a) == NatToString(b)
    ensures a == b
  {
    DigitsRoundTrip(a);
    DigitsRoundTrip(b);
  }

  /** Python's `str(i)` / `f"{i}"` for an integer. */
  function IntToString(i: int): (s: string)
    ensures |s| > 0
  {
    if i < 0 then "-" + NatToString(-i) else NatToString(i)
  }

  /** Python's `int(s)` restricted to an optional minus sign and decimal digits. */
  function ParseInt(s: string): Option<int> {
    if |s| > 1 && s[0] == '-' && AllDigits(s[1..]) then
      var n: int := DigitsValue(s[1..]);
      Some(-n)
    else if |s| > 0 && AllDigits(s) then Some(DigitsValue(s))
    else None
  }

  lemma IntRoundTrip(i: int)
    ensures ParseInt(IntToString(i)) == Some(i)
  {
    if i < 0 {
      assert IntToString(i)[1..] == NatToString(-i);
      DigitsRoundTrip(-i);
    } else {
      DigitsRoundTrip(i);
    }
  }

  /** The absolute value of a tenths count. */
  function Abs(t: int): nat {
    if t < 0 then -t else t
  }

  /** Python's `f"{v:.1f}"` for the value `t / 10`. */
  function Fmt1(t: int): (s: string)
    ensures '.' in s
  {
    var a := Abs(t);
    (if t < 0 then "-" else "") + NatToString(a / 10) + "." + [DigitChar(a % 10)]
  }

  /**
    Python's `str()` of a numeric cell as the spreadsheet reader hands it over:
    whole numbers arrive as integers and print without a decimal point, other
    values print as floats.
   */
  function NumberLabel(t: int): string {
    if t % 10 == 0 then IntToString(t / 10) else Fmt1(t)
  }

  /** A digit string, a point and one digit: the unsigned shape `Fmt1` prints. */
  function ParseUnsignedDecimal(s: string): Option<nat> {
    if '.' in s then
      var parts := SplitFirst(s, '.');
      if |parts.0| > 0 && AllDigits(parts.0) && |parts.1| == 1 && IsDigit(parts.1[0])
      then Some(10 * DigitsValue(parts.0) + DigitValue(parts.1[0]))
      else None
    else if |s| > 0 && AllDigits(s) then Some(10 * DigitsValue(s))
    else None
  }

  /**
    `pd.to_numeric(..., errors="coerce")` on a text cell, in tenths: an
    optional minus sign, digits, and optionally a point and one digit.
    Anything else is not a number.
   */
  function ParseDecimal(s: string): Option<int> {
    if |s| > 0 && s[0] == '-' then
      match ParseUnsignedDecimal(s[1..])
      case Some(v) => var n: int := v; Some(-n)
      case None => None
    else ParseUnsignedDecimal(s)
  }

  lemma DigitsHaveNoPoint(w: string)
    requires AllDigits(w)
    ensures '.' !in w
  {
    forall i | 0 <= i < |w| ensures w[i] != '.' {
      assert IsDigit(w[i]);
    }
  }

  lemma UnsignedRoundTrip(a: nat)
    ensures ParseUnsignedDecimal(NatToString(a / 10) + "." + [DigitChar(a % 10)]) == Some(a)
  {
    var w := NatToString(a / 10);
    DigitsHaveNoPoint(w);
    SplitFirstAt(w, '.', [DigitChar(a % 10)]);
    DigitsRoundTrip(a / 10);
  }

  /** The coercion reads an unsigned figure as the unsigned reader does, and a signed one negated. */
  lemma ParseSigned(u: string, v: int, neg: bool)
    requires |u| > 0 && IsDigit(u[0]) && ParseUnsignedDecimal(u) == Some(v)
    ensures ParseDecimal((if neg then "-" else "") + u) == Some(if neg then -v else v)
  {
    var w := (if neg then "-" else "") + u;
    if neg {
      assert w[0] == '-' && w[1..] == u;
    } else {
      assert w == u && w[0] != '-';
    }
  }

  /**
    A number the table formatter printed is read back as the same number by
    the spreadsheet coercion.
   */
  lemma DecimalRoundTrip(t: int)
    ensures ParseDecimal(Fmt1(t)) == Some(t)
  {
    var a := Abs(t);
    var u := NatToString(a / 10) + "." + [DigitChar(a % 10)];
    UnsignedRoundTrip(a);
    assert IsDigit(u[0]);
    assert Fmt1(t) == (if t < 0 then "-" else "") + u;
    ParseSigned(u, a, t < 0);
  }

  /**
    Python's `round()` of the value `t / 10`: the nearest integer, ties to
    the even neighbour.
   */
  function RoundHalfEven(t: int): (n: int)
    ensures 10 * n - 5 <= t <= 10 * n + 5
    ensures t % 10 == 5 ==> n % 2 == 0
    ensures t % 10 == 0 ==> 10 * n == t
  {
    var q := t / 10;
    var r := t % 10;
    if r < 5 then q
    else if r > 5 then q + 1
    else if q % 2 == 0 then q
    else q + 1
  }

  /** The corrected cell formatter: a missing or NaN value gives an empty cell. */
  function FormatValue(v: Option<int>): (s: string)
    ensures s == "" <==> v.None?
  {
    if v.Some? then Fmt1(v.value) else ""
  }

  /**
    The formatter as written at deck_update.py:107 and pptx_exporter.py:203:
    it tests for None, but the parsed values hold NaN, never None, so a
    missing value is printed by `f"{nan:.1f}"`.
   */
  function FormatAsWritten(v: Option<int>): (s: string)
    ensures v.None? ==> s == "nan"
    ensures v.Some? ==> s == FormatValue(v)
  {
    if v.Some? then Fmt1(v.value) else "nan"
  }
}

=== FILE: refresh.dfy ===
/**
  The refresh rules of deck_update.py: which rows a chart leaves out, which
  column it plots, how a chart series and a table's cells are rebuilt from a
  parsed table, the question and base texts, and how a shape is bound to a
  table through its name or its alt text.
 */
module Refresh {

  import opened Common
  import opened Text
  import opened Numbers
  import opened Crosstab
  import opened AltText
  import opened Deck

  // ----- Excluded rows and the row index (deck_update.py:8, 25-33) -----

  /** `EXCLUDE_PREFIXES` (deck_update.py:8). */
  const ExcludePrefixes: seq<string> := ["base", "mean", "average", "avg"]

  /** A row the charts leave out: its normalised label starts with an excluded prefix. */
  predicate Excluded(lab: string) {
    StartsWithAny(Norm(lab), ExcludePrefixes)
  }

  /** The excluded rows among the first `n`. */
  function ExcludedUpTo(labels: seq<string>, n: nat): (ex: set<nat>)
    requires n <= |labels|
    ensures forall i: nat :: i in ex <==> i < n && Excluded(labels[i])
  {
    if n == 0 then {}
    else
      var ex := ExcludedUpTo(labels, n - 1);
      if Excluded(labels[n - 1]) then ex + {n - 1} else ex
  }

  /** `_exclude_indices` (deck_update.py:25-30): the positions of every excluded row. */
  function ExcludeIndices(labels: seq<string>): (ex: set<nat>)
    ensures forall i: nat :: i in ex <==> i < |labels| && Excluded(labels[i])
  {
    ExcludedUpTo(labels, |labels|)
  }

  /**
    The dict `{keys[i]: i for i < n}`: every key is present, maps to a
    position holding it, and to the last such position.
   */
  function LastIndexUpTo(keys: seq<string>, n: nat): (m: map<string, nat>)
    requires n <= |keys|
    ensures forall k :: k in m ==> m[k] < n && keys[m[k]] == k
    ensures forall i :: 0 <= i < n ==> keys[i] in m && m[keys[i]] >= i
  {
    if n == 0 then map[]
    else LastIndexUpTo(keys, n - 1)[keys[n - 1] := n - 1]
  }

  /** The normalised form of every label. */
  function NormAll(labels: seq<string>): (keys: seq<string>)
    ensures |keys| == |labels|
    ensures forall i :: 0 <= i < |labels| ==> keys[i] == Norm(labels[i])
  {
    seq(|labels|, i requires 0 <= i < |labels| => Norm(labels[i]))
  }

  /** `_row_index_map` (deck_update.py:32-33): a normalised label maps to its last row. */
  function RowIndexMap(labels: seq<string>): (m: map<string, nat>)
    ensures forall k :: k in m ==> m[k] < |labels| && Norm(labels[m[k]]) == k
    ensures forall i :: 0 <= i < |labels| ==> Norm(labels[i]) in m && m[Norm(labels[i])] >= i
  {
    LastIndexUpTo(NormAll(labels), |labels|)
  }

  // ----- Column choice (deck_update.py:35-43) -----

  /** The fallback columns, in priority order. */
  const Fallbacks: seq<string> := ["Total", "Overall", "All", "Base"]

  /** The first fallback from position `k` on that is a column, else column 0. */
  function FallbackIdx(cols: seq<string>, k: nat): (c: nat)
    requires |cols| > 0 && k <= |Fallbacks|
    ensures c < |cols|
    ensures (forall m :: k <= m < |Fallbacks| ==> Fallbacks[m] !in cols) ==> c == 0
    ensures forall m :: k <= m < |Fallbacks| && Fallbacks[m] in cols && (forall l :: k <= l < m ==> Fallbacks[l] !in cols)
              ==> IsFirstIndex(cols, Fallbacks[m], c)
    decreases |Fallbacks| - k
  {
    if k == |Fallbacks| then 0
    else if Fallbacks[k] in cols then IndexOf(cols, Fallbacks[k])
    else FallbackIdx(cols, k + 1)
  }

  /** The requested column is truthy and is one of the columns. */
  predicate KeyHit(cols: seq<string>, key: Option<string>) {
    Truthy(key) && key.value in cols
  }

  /**
    `_choose_col_idx`: nothing for a table without columns; otherwise the
    first position of the requested column, else of the first fallback
    present, else column 0.
   */
  function ChooseColIdx(cols: seq<string>, key: Option<string>): (r: Option<nat>)
    ensures r.None? <==> |cols| == 0
    ensures r.Some? ==> r.value < |cols|
    ensures |cols| > 0 && KeyHit(cols, key) ==> IsFirstIndex(cols, key.value, r.value)
    ensures |cols| > 0 && !KeyHit(cols, key) ==>
      forall m :: 0 <= m < |Fallbacks| && Fallbacks[m] in cols && (forall l :: 0 <= l < m ==> Fallbacks[l] !in cols)
        ==> IsFirstIndex(cols, Fallbacks[m], r.value)
    ensures |cols| > 0 && !KeyHit(cols, key) && (forall m :: 0 <= m < |Fallbacks| ==> Fallbacks[m] !in cols)
      ==> r == Some(0)
  {
    if |cols| == 0 then None
    else if KeyHit(cols, key) then Some(IndexOf(cols, key.value))
    else Some(FallbackIdx(cols, 0))
  }

  // ----- Chart series (deck_update.py:45-84) -----

  /** `row[col] if col < len(row) else None`, and None when there is no column. */
  function ValueAt(t: Table, j: nat, col: Option<nat>): Option<int>
    requires j < |t.values|
  {
    if col.Some? && col.value < |t.values[j]| then t.values[j][col.value] else None
  }

  /** A category list with its series values. */
  datatype Series = Series(cats: seq<string>, vals: seq<Option<int>>)

  /** The loop of `_series_from_table` (deck_update.py:45-58) over the first `n` rows. */
  function SeriesUpTo(t: Table, col: Option<nat>, ex: set<nat>, n: nat): (s: Series)
    requires n <= |t.rowLabels| <= |t.values|
    ensures |s.cats| == |s.vals| == |KeptIndices(n, ex)|
    ensures forall m :: 0 <= m < |s.cats| ==>
      s.cats[m] == t.rowLabels[KeptIndices(n, ex)[m]] && s.vals[m] == ValueAt(t, KeptIndices(n, ex)[m], col)
  {
    if n == 0 then Series([], [])
    else
      var s := SeriesUpTo(t, col, ex, n - 1);
      if n - 1 in ex then s
      else Series(s.cats + [t.rowLabels[n - 1]], s.vals + [ValueAt(t, n - 1, col)])
  }

  /** `_series_from_table`: every row not excluded, in order, with its value in the column. */
  function SeriesFromTable(t: Table, col: Option<nat>, ex: set<nat>): (s: Series)
    requires |t.rowLabels| <= |t.values|
  {
    SeriesUpTo(t, col, ex, |t.rowLabels|)
  }

  /**
    The table's series holds exactly the rows not excluded: each category is
    the label of a row outside `ex` with that row's value, and every row
    outside `ex` is among the categories.
   */
  lemma SeriesKeepsRows(t: Table, col: Option<nat>, ex: set<nat>)
    requires |t.rowLabels| <= |t.values|
    ensures var s := SeriesFromTable(t, col, ex);
      && |s.cats| == |s.vals|
      && (forall m :: 0 <= m < |s.cats| ==>
            var i := KeptIndices(|t.rowLabels|, ex)[m];
            i < |t.rowLabels| && i !in ex && s.cats[m] == t.rowLabels[i] && s.vals[m] == ValueAt(t, i, col))
      && (forall i: nat :: i < |t.rowLabels| && i !in ex ==> t.rowLabels[i] in s.cats)
  {
    var s := SeriesFromTable(t, col, ex);
    var ks := KeptIndices(|t.rowLabels|, ex);
    forall i: nat | i < |t.rowLabels| && i !in ex ensures t.rowLabels[i] in s.cats {
      var m :| 0 <= m < |ks| && ks[m] == i;
      assert s.cats[m] == t.rowLabels[i];
    }
  }

  /** A caller-named row the explicit path keeps: known, and its row not excluded. */
  predicate Usable(idx: map<string, nat>, ex: set<nat>, lab: string) {
    Norm(lab) in idx && idx[Norm(lab)] !in ex
  }

  /** The positions of the caller's names that the explicit path skips. */
  function Skipped(idx: map<string, nat>, ex: set<nat>, rows: seq<string>): set<nat> {
    set i: nat | i < |rows| && !Usable(idx, ex, rows[i])
  }

  /** The explicit-rows loop of `_update_chart` (deck_update.py:65-77) over the first `n` names. */
  function ExplicitUpTo(t: Table, col: Option<nat>, ex: set<nat>, idx: map<string, nat>, rows: seq<string>, n: nat): (s: Series)
    requires n <= |rows|
    requires forall k :: k in idx ==> idx[k] < |t.values|
    ensures |s.cats| == |s.vals| <= n
    ensures forall m :: 0 <= m < |s.cats| ==>
      Usable(idx, ex, s.cats[m]) && s.vals[m] == ValueAt(t, idx[Norm(s.cats[m])], col)
    ensures forall i :: 0 <= i < n && Usable(idx, ex, rows[i]) ==> rows[i] in s.cats
    ensures forall m :: 0 <= m < |s.cats| ==> s.cats[m] in rows[..n]
  {
    if n == 0 then Series([], [])
    else
      var s := ExplicitUpTo(t, col, ex, idx, rows, n - 1);
      assert rows[..n - 1] <= rows[..n];
      var lab := rows[n - 1];
      if Usable(idx, ex, lab) then Series(s.cats + [lab], s.vals + [ValueAt(t, idx[Norm(lab)], col)])
      else s
  }

  /**
    The explicit path keeps the caller's order and repeats: its k-th category
    is the k-th usable name of the list.
   */
  lemma {:induction false} ExplicitOrder(t: Table, col: Option<nat>, ex: set<nat>, idx: map<string, nat>, rows: seq<string>, n: nat)
    requires n <= |rows|
    requires forall k :: k in idx ==> idx[k] < |t.values|
    ensures var s := ExplicitUpTo(t, col, ex, idx, rows, n);
      var ks := KeptIndices(n, Skipped(idx, ex, rows));
      && |s.cats| == |ks|
      && forall m :: 0 <= m < |ks| ==> s.cats[m] == rows[ks[m]]
  {
    if n > 0 {
      ExplicitOrder(t, col, ex, idx, rows, n - 1);
      var s := ExplicitUpTo(t, col, ex, idx, rows, n - 1);
      var ks := KeptIndices(n - 1, Skipped(idx, ex, rows));
      if Usable(idx, ex, rows[n - 1]) {
        assert n - 1 !in Skipped(idx, ex, rows);
        PickedSnoc(s.cats, ks, rows, n - 1);
      } else {
        assert n - 1 in Skipped(idx, ex, rows);
      }
    }
  }

  /** Names picked at positions `ks`, followed by the name at `i`, are the names picked at `ks + [i]`. */
  lemma PickedSnoc(cats: seq<string>, ks: seq<nat>, rows: seq<string>, i: nat)
    requires i < |rows| && |cats| == |ks|
    requires forall m :: 0 <= m < |ks| ==> ks[m] < |rows| && cats[m] == rows[ks[m]]
    ensures |cats + [rows[i]]| == |ks + [i]|
    ensures forall m :: 0 <= m < |ks + [i]| ==> (cats + [rows[i]])[m] == rows[(ks + [i])[m]]
  {
  }

  /** `if explicit_rows:` — a list of row names that is present and not empty. */
  predicate Explicit(rows: Option<seq<string>>) {
    rows.Some? && |rows.value| > 0
  }

  /**
    The chart data `_update_chart` (deck_update.py:60-84) writes: with a
    non-empty list of row names, those rows in the caller's order and
    spelling; otherwise the table's rows. The series is named after the
    requested column, or "Series" when the table has no columns, and then
    every value is missing.
   */
  function ChartRefresh(t: Table, colKey: Option<string>, explicitRows: Option<seq<string>>): (d: ChartData)
    requires |t.rowLabels| <= |t.values|
    ensures |d.categories| == |d.values|
    ensures d.seriesName == if |t.colLabels| == 0 then Some("Series") else colKey
    ensures |t.colLabels| == 0 ==> forall m :: 0 <= m < |d.values| ==> d.values[m].None?
  {
    var col := ChooseColIdx(t.colLabels, colKey);
    var ex := ExcludeIndices(t.rowLabels);
    if Explicit(explicitRows) then
      var s := ExplicitUpTo(t, col, ex, RowIndexMap(t.rowLabels), explicitRows.value, |explicitRows.value|);
      ChartData(s.cats, if col.Some? then colKey else Some("Series"), s.vals)
    else
      var s := SeriesFromTable(t, col, ex);
      SeriesKeepsRows(t, col, ex);
      ChartData(s.cats, if col.Some? then colKey else Some("Series"), s.vals)
  }

  /**
    Without explicit rows a refreshed chart shows every row that is not a
    base, mean or average row, and no other.
   */
  lemma ChartOmitsExcluded(t: Table, colKey: Option<string>, explicitRows: Option<seq<string>>)
    requires |t.rowLabels| <= |t.values| && !Explicit(explicitRows)
    ensures var d := ChartRefresh(t, colKey, explicitRows);
      && (forall m :: 0 <= m < |d.categories| ==> !Excluded(d.categories[m]))
      && (forall i :: 0 <= i < |t.rowLabels| && !Excluded(t.rowLabels[i]) ==> t.rowLabels[i] in d.categories)
  {
    var col := ChooseColIdx(t.colLabels, colKey);
    var ex := ExcludeIndices(t.rowLabels);
    SeriesKeepsRows(t, col, ex);
  }

  /** Two labels with the same normal form are excluded alike. */
  lemma ExcludedByNorm(a: string, b: string)
    requires Norm(a) == Norm(b)
    ensures Excluded(a) <==> Excluded(b)
  {
  }

  /**
    With explicit rows the chart shows, in the caller's order and spelling,
    one category per named row that exists and is not excluded, repeats
    included; an excluded row cannot be brought back by naming it.
   */
  lemma ExplicitChartRows(t: Table, colKey: Option<string>, rows: seq<string>)
    requires |t.rowLabels| <= |t.values| && |rows| > 0
    ensures var d := ChartRefresh(t, colKey, Some(rows));
      var ks := KeptIndices(|rows|, Skipped(RowIndexMap(t.rowLabels), ExcludeIndices(t.rowLabels), rows));
      && |d.categories| == |ks|
      && (forall m :: 0 <= m < |ks| ==> d.categories[m] == rows[ks[m]])
    ensures var d := ChartRefresh(t, colKey, Some(rows));
      && |d.categories| <= |rows|
      && (forall m :: 0 <= m < |d.categories| ==> d.categories[m] in rows && !Excluded(d.categories[m]))
      && (forall i :: 0 <= i < |rows| && Norm(rows[i]) in RowIndexMap(t.rowLabels) && !Excluded(rows[i])
            ==> rows[i] in d.categories)
  {
    var idx := RowIndexMap(t.rowLabels);
    var ex := ExcludeIndices(t.rowLabels);
    var d := ChartRefresh(t, colKey, Some(rows));
    var col := ChooseColIdx(t.colLabels, colKey);
    ExplicitOrder(t, col, ex, idx, rows, |rows|);
    assert d.categories == ExplicitUpTo(t, col, ex, idx, rows, |rows|).cats;
    assert rows[..|rows|] == rows;
    forall m | 0 <= m < |d.categories| ensures !Excluded(d.categories[m]) {
      var c := d.categories[m];
      ExcludedByNorm(c, t.rowLabels[idx[Norm(c)]]);
    }
    forall i | 0 <= i < |rows| && Norm(rows[i]) in idx && !Excluded(rows[i]) ensures rows[i] in d.categories {
      ExcludedByNorm(rows[i], t.rowLabels[idx[Norm(rows[i])]]);
    }
  }

  // ----- Table cells (deck_update.py:86-110) -----

  /**
    Where a body cell's value comes from: the first column labelled with the
    cell's stripped header and the last row whose normalised label matches
    the cell's stripped row lab, when both exist. The inner option is the
    value itself, None for NaN.
   */
  function CellSource(t: Table, header: string, lab: string): Option<Option<int>> {
    var h := Strip(header);
    var idx := RowIndexMap(t.rowLabels);
    var key := Norm(Strip(lab));
    if h in t.colLabels && key in idx then
      var j := idx[key];
      var ci := IndexOf(t.colLabels, h);
      if j < |t.values| && ci < |t.values[j]| then Some(t.values[j][ci]) else None
    else None
  }

  /** One refreshed body cell, with the formatter given. */
  function BodyCell(t: Table, header: string, lab: string, fmt: Option<int> -> string): string {
    var src := CellSource(t, header, lab);
    if src.Some? then fmt(src.value) else ""
  }

  /** A table after `_update_table`, with the formatter given. */
  function RefreshGridWith(cells: seq<seq<string>>, t: Table, fmt: Option<int> -> string): (r: seq<seq<string>>)
    requires Rect(cells)
    ensures Rect(r) && |r| == |cells| && |r[0]| == |cells[0]|
    ensures r[0] == cells[0]
    ensures forall i :: 0 <= i < |r| && |r[0]| > 0 ==> r[i][0] == cells[i][0]
    ensures forall i, c :: 1 <= i < |r| && 1 <= c < |r[0]| ==> r[i][c] == BodyCell(t, cells[0][c], cells[i][0], fmt)
  {
    var w := |cells[0]|;
    seq(|cells|, i requires 0 <= i < |cells| =>
      if i == 0 then cells[0]
      else seq(w, c requires 0 <= c < w => if c == 0 then cells[i][0] else BodyCell(t, cells[0][c], cells[i][0], fmt)))
  }

  /** A cell source that holds a number. */
  predicate HasNumber(src: Option<Option<int>>) {
    src.Some? && src.value.Some?
  }

  /**
    `_update_table` (deck_update.py:86-110): the header row and the label
    column are kept; a body cell is blank unless its header names a column,
    its row label names a row and the value there is a number, in which case
    it shows that number with one decimal.
   */
  function RefreshGrid(cells: seq<seq<string>>, t: Table): (r: seq<seq<string>>)
    requires Rect(cells)
    ensures Rect(r) && |r| == |cells| && |r[0]| == |cells[0]| && r[0] == cells[0]
    ensures forall i :: 0 <= i < |r| && |r[0]| > 0 ==> r[i][0] == cells[i][0]
    ensures forall i, c :: 1 <= i < |r| && 1 <= c < |r[0]| ==>
      (r[i][c] == "" <==> !HasNumber(CellSource(t, cells[0][c], cells[i][0])))
    ensures forall i, c :: 1 <= i < |r| && 1 <= c < |r[0]| && HasNumber(CellSource(t, cells[0][c], cells[i][0])) ==>
      r[i][c] == Fmt1(CellSource(t, cells[0][c], cells[i][0]).value.value)
  {
    RefreshGridWith(cells, t, FormatValue)
  }

  /** `_update_table` as written, printing a NaN value as `nan`. */
  function RefreshGridAsWritten(cells: seq<seq<string>>, t: Table): (r: seq<seq<string>>)
    requires Rect(cells)
    ensures Rect(r) && |r| == |cells| && |r[0]| == |cells[0]|
    ensures forall i, c :: 1 <= i < |r| && 1 <= c < |r[0]| && CellSource(t, cells[0][c], cells[i][0]) == Some(None) ==>
      r[i][c] == "nan"
  {
    RefreshGridWith(cells, t, FormatAsWritten)
  }

  /**
    A table whose only data cell is NaN: as written the refreshed cell reads
    `nan`, the corrected rule leaves it blank.
   */
  lemma NanCellAsWritten()
    ensures var t := Table("S#1", "S", "Q1", ["a"], ["Total"], [[None]], 0, 2);
            var cells := [["", "Total"], ["a", "12.0"]];
            RefreshGridAsWritten(cells, t)[1][1] == "nan" && RefreshGrid(cells, t)[1][1] == ""
  {
    var t := Table("S#1", "S", "Q1", ["a"], ["Total"], [[None]], 0, 2);
    var cells := [["", "Total"], ["a", "12.0"]];
    assert Strip("Total") == "Total";
    assert Strip("a") == "a";
    assert CollapseSpaces("a") == "a";
    assert Norm("a") == "a";
    assert RowIndexMap(t.rowLabels) == map["a" := 0];
    assert IndexOf(t.colLabels, "Total") == 0;
    assert CellSource(t, cells[0][1], cells[1][0]) == Some(None);
  }

  // ----- Question and base texts (deck_update.py:118-146) -----

  /** The text a bound question box receives, whatever it held before. */
  function QuestionText(t: Table): (s: string)
    ensures StartsWith(s, "Question: ") && s[10..] == t.title
  {
    "Question: " + t.title
  }

  /** The first row whose normalised label starts with `base`. */
  function BaseIndex(labels: seq<string>): (r: Option<nat>)
    ensures r.Some? ==> r.value < |labels| && StartsWith(Norm(labels[r.value]), "base")
    ensures r.Some? ==> forall j :: 0 <= j < r.value ==> !StartsWith(Norm(labels[j]), "base")
    ensures r.None? ==> forall j :: 0 <= j < |labels| ==> !StartsWith(Norm(labels[j]), "base")
  {
    if |labels| == 0 then None
    else if StartsWith(Norm(labels[0]), "base") then Some(0)
    else
      var r := BaseIndex(labels[1..]);
      assert forall j :: 1 <= j < |labels| ==> labels[j] == labels[1..][j - 1];
      if r.Some? then Some(r.value + 1) else None
  }

  /**
    The table has a base value (deck_update.py:124-139): a first base row, a
    column `_choose_col_idx` picks for "Total", and a value in that cell.
   */
  predicate HasBaseValue(t: Table) {
    && BaseIndex(t.rowLabels).Some? && ChooseColIdx(t.colLabels, Some("Total")).Some?
    && BaseIndex(t.rowLabels).value < |t.values|
    && ChooseColIdx(t.colLabels, Some("Total")).value < |t.values[BaseIndex(t.rowLabels).value]|
    && t.values[BaseIndex(t.rowLabels).value][ChooseColIdx(t.colLabels, Some("Total")).value].Some?
  }

  /** The value in that cell, in tenths. */
  function BaseValue(t: Table): int
    requires HasBaseValue(t)
  {
    t.values[BaseIndex(t.rowLabels).value][ChooseColIdx(t.colLabels, Some("Total")).value].value
  }

  /**
    The respondent count of deck_update.py:124-139: present exactly when the
    table has a base value, and then that value rounded to the nearest
    integer, a tie going to the even neighbour.
   */
  function BaseCount(t: Table): (n: Option<int>)
    ensures n.Some? <==> HasBaseValue(t)
    ensures n.Some? ==> 10 * n.value - 5 <= BaseValue(t) <= 10 * n.value + 5
    ensures n.Some? && BaseValue(t) % 10 == 5 ==> n.value % 2 == 0
  {
    match BaseIndex(t.rowLabels)
    case None => None
    case Some(b) =>
      var ci := ChooseColIdx(t.colLabels, Some("Total"));
      if ci.Some? && b < |t.values| && ci.value < |t.values[b]| && t.values[b][ci.value].Some?
      then Some(RoundHalfEven(t.values[b][ci.value].value))
      else None
  }

  const BasePrefix := "Base: Total respondents."
  const CountSuffix := " complete surveys."

  /** The base text of deck_update.py:142-146; the count has no thousands separator. */
  function BaseText(t: Table): string {
    var n := BaseCount(t);
    if n.Some? then BasePrefix + " " + IntToString(n.value) + CountSuffix else BasePrefix
  }

  /** Reading a base text back: the count it states, `Some(None)` for the short form. */
  function ParseBaseText(s: string): Option<Option<int>> {
    var p := |BasePrefix| + 1;
    if s == BasePrefix then Some(None)
    else if |s| > p + |CountSuffix| && s[..p] == BasePrefix + " " && s[|s| - |CountSuffix|..] == CountSuffix then
      var c := ParseInt(s[p..|s| - |CountSuffix|]);
      if c.Some? then Some(c) else None
    else None
  }

  /** The base text states exactly the count it was made from. */
  lemma BaseTextRoundTrip(t: Table)
    ensures ParseBaseText(BaseText(t)) == Some(BaseCount(t))
  {
    var n := BaseCount(t);
    if n.Some? {
      var d := IntToString(n.value);
      var s := BasePrefix + " " + d + CountSuffix;
      var p := |BasePrefix| + 1;
      assert s[..p] == BasePrefix + " ";
      assert s[|s| - |CountSuffix|..] == CountSuffix;
      assert s[p..|s| - |CountSuffix|] == d;
      IntRoundTrip(n.value);
      assert s != BasePrefix by {
        assert |s| > |BasePrefix|;
      }
    }
  }

  /** The base row is always among the rows the charts leave out. */
  lemma BaseRowExcluded(labels: seq<string>)
    requires BaseIndex(labels).Some?
    ensures BaseIndex(labels).value in ExcludeIndices(labels)
  {
    var b := BaseIndex(labels).value;
    assert StartsWith(Norm(labels[b]), ExcludePrefixes[0]);
  }

  // ----- Binding a shape to a table (deck_update.py:155-187) -----

  /** What a shape asks for: a table key, a column, and the names of its question and base boxes. */
  datatype Binding = Binding(tableKey: Option<string>, col: Option<string>,
                             bindQuestion: Option<string>, bindBase: Option<string>)

  /**
    The tags in a shape name (deck_update.py:161-170): `CHART:key` or
    `CHART:key:col` (the column is everything after the second colon) and
    `TABLE:key`, each part stripped.
   */
  function NameTags(name: string): (r: (Option<string>, Option<string>))
    ensures !StartsWith(name, "CHART:") && !StartsWith(name, "TABLE:") ==> r == (None, None)
    ensures r.1.Some? ==> StartsWith(name, "CHART:")
  {
    if StartsWith(name, "CHART:") then
      var rest := name[6..];
      if ':' in rest then
        var parts := SplitFirst(rest, ':');
        (Some(Strip(parts.0)), Some(Strip(parts.1)))
      else (Some(Strip(rest)), None)
    else if StartsWith(name, "TABLE:") then (Some(Strip(name[6..])), None)
    else (None, None)
  }

  /** A name written as `CHART:key:col` carries that key and column back. */
  lemma ChartNameTags(k: string, c: string)
    requires ':' !in k && Stripped(k) && Stripped(c)
    ensures NameTags("CHART:" + k + ":" + c) == (Some(k), Some(c))
  {
    var name := "CHART:" + k + ":" + c;
    assert name[..6] == "CHART:";
    assert name[6..] == k + [':'] + c;
    SplitFirstAt(k, ':', c);
    StripStripped(k);
    StripStripped(c);
  }

  /** A name written as `TABLE:key` carries that key back. */
  lemma TableNameTags(k: string)
    requires Stripped(k)
    ensures NameTags("TABLE:" + k) == (Some(k), None)
  {
    var name := "TABLE:" + k;
    assert name[..6] == "TABLE:";
    assert name[..6] != "CHART:" by {
      assert name[0] == 'T';
    }
    assert name[6..] == k;
    StripStripped(k);
  }

  /** `alt.get(key)`. */
  function Get(alt: map<string, string>, key: string): Option<string> {
    if key in alt then Some(alt[key]) else None
  }

  /**
    The binding of a shape: a truthy key or column from the name wins, and
    only an empty one is replaced by the alt text's `table_key` or `col`.
   */
  function Resolve(name: string, alt: map<string, string>): (b: Binding)
    ensures Truthy(NameTags(name).0) ==> b.tableKey == NameTags(name).0
    ensures Truthy(NameTags(name).1) ==> b.col == NameTags(name).1
    ensures !Truthy(NameTags(name).0) ==> b.tableKey == if "table_key" in alt then Some(alt["table_key"]) else NameTags(name).0
    ensures !Truthy(NameTags(name).1) ==> b.col == if "col" in alt then Some(alt["col"]) else NameTags(name).1
    ensures b.bindQuestion == Get(alt, "bind_question") && b.bindBase == Get(alt, "bind_base")
  {
    var tags := NameTags(name);
    var key := if !Truthy(tags.0) && "table_key" in alt then Some(alt["table_key"]) else tags.0;
    var col := if !Truthy(tags.1) && "col" in alt then Some(alt["col"]) else tags.1;
    Binding(key, col, Get(alt, "bind_question"), Get(alt, "bind_base"))
  }

  // ----- Finding the table (deck_update.py:151, 183-187) -----

  /** Every table's title. */
  function Titles(tables: seq<Table>): (ts: seq<string>)
    ensures |ts| == |tables| && forall i :: 0 <= i < |tables| ==> ts[i] == tables[i].title
  {
    seq(|tables|, i requires 0 <= i < |tables| => tables[i].title)
  }

  /** `tbl_by_norm`: a normalised title maps to the LAST table with that title. */
  function TitleIndex(tables: seq<Table>): (m: map<string, nat>)
    ensures forall k :: k in m ==> m[k] < |tables| && Norm(tables[m[k]].title) == k
    ensures forall i :: 0 <= i < |tables| ==> Norm(tables[i].title) in m && m[Norm(tables[i].title)] >= i
  {
    RowIndexMap(Titles(tables))
  }

  /** The exact-title fallback at deck_update.py:185: the first table titled `key`. */
  function ExactTitle(tables: seq<Table>, key: string): (r: Option<Table>)
    ensures r.Some? ==> r.value in tables && r.value.title == key
    ensures r.Some? ==> exists j :: 0 <= j < |tables| && tables[j] == r.value
                                    && forall i :: 0 <= i < j ==> tables[i].title != key
    ensures r.None? ==> forall j :: 0 <= j < |tables| ==> tables[j].title != key
  {
    if |tables| == 0 then None
    else if tables[0].title == key then Some(tables[0])
    else
      var r := ExactTitle(tables[1..], key);
      assert forall j :: 1 <= j < |tables| ==> tables[j] == tables[1..][j - 1];
      FirstTitledShift(tables, key, r);
      r
  }

  /** A first match in `tables[1..]` is a first match in `tables` when `tables[0]` does not match. */
  lemma FirstTitledShift(tables: seq<Table>, key: string, r: Option<Table>)
    requires |tables| > 0 && tables[0].title != key
    requires r.Some? ==> exists j :: 0 <= j < |tables| - 1 && tables[1..][j] == r.value
                                     && forall i :: 0 <= i < j ==> tables[1..][i].title != key
    ensures r.Some? ==> exists j :: 0 <= j < |tables| && tables[j] == r.value
                                    && forall i :: 0 <= i < j ==> tables[i].title != key
  {
    if r.Some? {
      var j :| 0 <= j < |tables| - 1 && tables[1..][j] == r.value
               && forall i :: 0 <= i < j ==> tables[1..][i].title != key;
      assert tables[j + 1] == r.value;
      assert forall i :: 1 <= i < j + 1 ==> tables[i] == tables[1..][i - 1];
    }
  }

  /**
    The table a key resolves to (deck_update.py:183-187): the last one whose
    normalised title equals the normalised key, else the first titled
    exactly `key`.
   */
  function FindTable(tables: seq<Table>, key: string): (r: Option<Table>)
    ensures r.Some? ==> r.value in tables
  {
    var m := TitleIndex(tables);
    if Norm(key) in m then Some(tables[m[Norm(key)]]) else ExactTitle(tables, key)
  }

  /**
    The exact-title fallback never decides anything: a title equal to the
    key has the key's normal form, so the normalised lookup finds it first.
   */
  lemma FallbackNeverUsed(tables: seq<Table>, key: string)
    ensures ExactTitle(tables, key).Some? ==> Norm(key) in TitleIndex(tables)
  {
    var r := ExactTitle(tables, key);
    if r.Some? {
      var j :| 0 <= j < |tables| && tables[j] == r.value;
      assert Norm(tables[j].title) in TitleIndex(tables);
    }
  }

  /**
    A key finds a table exactly when some title has its normal form, and
    the table found is the LAST such one.
   */
  lemma FindTableLastWins(tables: seq<Table>, key: string)
    ensures FindTable(tables, key).None? <==> forall j :: 0 <= j < |tables| ==> Norm(tables[j].title) != Norm(key)
    ensures forall j :: (0 <= j < |tables| && Norm(tables[j].title) == Norm(key)
      && (forall l :: j < l < |tables| ==> Norm(tables[l].title) != Norm(key))) ==> FindTable(tables, key) == Some(tables[j])
  {
    var m := TitleIndex(tables);
    FallbackNeverUsed(tables, key);
    forall j | 0 <= j < |tables| && Norm(tables[j].title) == Norm(key)
      && (forall l :: j < l < |tables| ==> Norm(tables[l].title) != Norm(key))
      ensures FindTable(tables, key) == Some(tables[j])
    {
      assert Norm(key) in m;
      var k := m[Norm(key)];
      assert k == j by {
        if k < j { } else if k > j { }
      }
    }
  }

  // ----- One slide (deck_update.py:112-146, 153-194) -----

  /** Shapes of the same frame are found at the same position. */
  lemma {:induction false} FindShapeSameFrame(a: seq<Shape>, b: seq<Shape>, name: string)
    requires SameFrame(a, b)
    ensures FindShape(a, name) == FindShape(b, name)
  {
    if |a| > 0 && a[0].name != name {
      FindShapeSameFrame(a[1..], b[1..], name);
    }
  }

  /** Give the first shape named `name` the text `text`, if it holds text. */
  function SetText(shapes: seq<Shape>, name: string, text: string): (r: seq<Shape>)
    ensures SameFrame(shapes, r)
    ensures forall i :: 0 <= i < |r| && r[i] != shapes[i] ==>
      FindShape(shapes, name) == Some(i) && shapes[i].content.TextBox? && r[i].content == TextBox(text)
    ensures FindShape(shapes, name).Some? && shapes[FindShape(shapes, name).value].content.TextBox? ==>
      r[FindShape(shapes, name).value].content == TextBox(text)
  {
    match FindShape(shapes, name)
    case Some(j) =>
      if shapes[j].content.TextBox? then shapes[j := shapes[j].(content := TextBox(text))] else shapes
    case None => shapes
  }

  /** `_update_question_and_base` (deck_update.py:118-146): overwrite the bound question and base boxes. */
  function ApplyTexts(shapes: seq<Shape>, t: Table, b: Binding): (r: seq<Shape>)
    ensures SameFrame(shapes, r)
  {
    var s1 := if Truthy(b.bindQuestion) then SetText(shapes, b.bindQuestion.value, QuestionText(t)) else shapes;
    if Truthy(b.bindBase) then SetText(s1, b.bindBase.value, BaseText(t)) else s1
  }

  /**
    The bound question box always receives the question text, whatever it
    held, unless the base box has the same name; the bound base box always
    receives the base text. Nothing but those two boxes changes.
   */
  lemma ApplyTextsWrites(shapes: seq<Shape>, t: Table, b: Binding)
    ensures var r := ApplyTexts(shapes, t, b);
      forall i :: 0 <= i < |r| && r[i] != shapes[i] ==>
        shapes[i].content.TextBox? &&
        ((Truthy(b.bindQuestion) && FindShape(shapes, b.bindQuestion.value) == Some(i)) ||
         (Truthy(b.bindBase) && FindShape(shapes, b.bindBase.value) == Some(i)))
    ensures Truthy(b.bindBase) ==> var j := FindShape(shapes, b.bindBase.value);
      j.Some? && shapes[j.value].content.TextBox? ==> ApplyTexts(shapes, t, b)[j.value].content == TextBox(BaseText(t))
    ensures Truthy(b.bindQuestion) && b.bindBase != b.bindQuestion ==> var j := FindShape(shapes, b.bindQuestion.value);
      j.Some? && shapes[j.value].content.TextBox? ==> ApplyTexts(shapes, t, b)[j.value].content == TextBox(QuestionText(t))
  {
    var s1 := if Truthy(b.bindQuestion) then SetText(shapes, b.bindQuestion.value, QuestionText(t)) else shapes;
    if Truthy(b.bindBase) {
      FindShapeSameFrame(shapes, s1, b.bindBase.value);
      var jb := FindShape(shapes, b.bindBase.value);
      if jb.Some? && Truthy(b.bindQuestion) && s1[jb.value] != shapes[jb.value] {
        assert s1[jb.value].content.TextBox?;
      }
    }
    if Truthy(b.bindQuestion) && b.bindBase != b.bindQuestion {
      var jq := FindShape(shapes, b.bindQuestion.value);
      if Truthy(b.bindBase) && jq.Some? {
        FindShapeSameFrame(shapes, s1, b.bindBase.value);
        var jb := FindShape(shapes, b.bindBase.value);
        assert jb != jq;
      }
    }
  }

  /** The binding the updater reads for a shape. */
  function BindingOf(s: Shape): Binding {
    Resolve(s.name, DecodeAlt(s.alt))
  }

  /** The table a shape is bound to, if any: a truthy key that finds a table. */
  function BoundTable(b: Binding, tables: seq<Table>): (r: Option<Table>)
    ensures r.Some? ==> r.value in tables
  {
    if Truthy(b.tableKey) then FindTable(tables, b.tableKey.value) else None
  }

  /** A chart or a table refreshed from `t`; any other content as it was. */
  function RefreshContent(c: Content, t: Table, col: Option<string>): (r: Content)
    requires WellShaped(t)
    requires c.Grid? ==> Rect(c.cells)
    ensures SameKind(c, r)
    ensures !c.Chart? && !c.Grid? ==> r == c
  {
    match c
    case Chart(_) => Chart(ChartRefresh(t, col, None))
    case Grid(cells) => Grid(RefreshGrid(cells, t))
    case _ => c
  }

  /**
    The updater's step for shape `i`: a chart or table bound to a table is
    refreshed and then its question and base boxes are rewritten; any other
    shape changes nothing.
   */
  function UpdateShape(shapes: seq<Shape>, i: nat, b: Binding, t: Option<Table>): (r: seq<Shape>)
    requires i < |shapes| && GridsRect(shapes)
    requires t.Some? ==> WellShaped(t.value)
    ensures SameFrame(shapes, r)
    ensures t.None? ==> r == shapes
    ensures !shapes[i].content.Chart? && !shapes[i].content.Grid? ==> r == shapes
  {
    var s := shapes[i];
    if t.None? || !(s.content.Chart? || s.content.Grid?) then shapes
    else
      var c := RefreshContent(s.content, t.value, b.col);
      ApplyTexts(shapes[i := s.(content := c)], t.value, b)
  }

  /** A bound chart or table ends up with the refreshed content: the text rewrites never touch it. */
  lemma UpdateShapeRefreshes(shapes: seq<Shape>, i: nat, b: Binding, t: Option<Table>)
    requires i < |shapes| && GridsRect(shapes)
    requires t.Some? && WellShaped(t.value)
    requires shapes[i].content.Chart? || shapes[i].content.Grid?
    ensures UpdateShape(shapes, i, b, t)[i].content == RefreshContent(shapes[i].content, t.value, b.col)
  {
    var s := shapes[i];
    var mid := shapes[i := s.(content := RefreshContent(s.content, t.value, b.col))];
    ApplyTextsWrites(mid, t.value, b);
    assert !mid[i].content.TextBox?;
  }

  /** Shapes of the same frame have the same tables rectangular. */
  lemma SameFrameGrids(a: seq<Shape>, b: seq<Shape>)
    requires SameFrame(a, b) && GridsRect(a)
    ensures GridsRect(b)
  {
  }

  /** The updater's loop over the shapes of one slide from position `i` on. */
  function UpdateFrom(shapes: seq<Shape>, i: nat, tables: seq<Table>): (r: seq<Shape>)
    requires i <= |shapes| && GridsRect(shapes)
    requires forall k :: 0 <= k < |tables| ==> WellShaped(tables[k])
    ensures SameFrame(shapes, r)
    decreases |shapes| - i
  {
    if i == |shapes| then shapes
    else
      var b := BindingOf(shapes[i]);
      var next := UpdateShape(shapes, i, b, BoundTable(b, tables));
      SameFrameGrids(shapes, next);
      var r := UpdateFrom(next, i + 1, tables);
      SameFrameTrans(shapes, next, r);
      r
  }

  /**
    `update_presentation` (deck_update.py:148-197) on the slides, with the
    tables the parser read: every slide keeps its shapes, their names, alt
    texts and kinds; only charts, tables and text boxes change.
   */
  function UpdateSlides(slides: seq<Slide>, tables: seq<Table>): (r: seq<Slide>)
    requires forall k :: 0 <= k < |slides| ==> GridsRect(slides[k].shapes)
    requires forall k :: 0 <= k < |tables| ==> WellShaped(tables[k])
    ensures |r| == |slides|
    ensures forall k :: 0 <= k < |r| ==> SameFrame(slides[k].shapes, r[k].shapes)
  {
    seq(|slides|, k requires 0 <= k < |slides| => Slide(UpdateFrom(slides[k].shapes, 0, tables)))
  }
}

=== FILE: text.dfy ===
/**
  The string operations the Python code relies on: whitespace as `str.isspace`
  sees it, `strip`, `lower`, the `_norm` normaliser of deck_update.py,
  `startswith`, substring search, `splitlines` and `"\n".join`.

  Lower-casing is modelled for ASCII letters only.
 */
module Text {

  import Common

  /** Python's `str.isspace`, which is also what `\s` and `str.strip()` use. */
  predicate IsSpace(c: char) {
    || c == ' '
    || ('\t' <= c <= '\r')
    || ('\U{001c}' <= c <= '\U{001f}')
    || c == '\U{0085}' || c == '\U{00a0}' || c == '\U{1680}'
    || ('\U{2000}' <= c <= '\U{200a}')
    || c == '\U{2028}' || c == '\U{2029}' || c == '\U{202f}'
    || c == '\U{205f}' || c == '\U{3000}'
  }

  /** The line boundaries of Python's `str.splitlines` (`\r\n` counts as one). */
  predicate IsLineBreak(c: char) {
    || ('\n' <= c <= '\r')
    || ('\U{001c}' <= c <= '\U{001e}')
    || c == '\U{0085}' || c == '\U{2028}' || c == '\U{2029}'
  }

  predicate NoLineBreak(s: string) {
    forall i :: 0 <= i < |s| ==> !IsLineBreak(s[i])
  }

  predicate IsUpper(c: char) {
    'A' <= c <= 'Z'
  }

  function LowerChar(c: char): char {
    if IsUpper(c) then (c as int + 32) as char else c
  }

  /** Python's `str.lower()`, on ASCII letters. */
  function Lower(s: string): (r: string)
    ensures |r| == |s|
    ensures forall i :: 0 <= i < |s| ==> r[i] == LowerChar(s[i])
  {
    seq(|s|, i requires 0 <= i < |s| => LowerChar(s[i]))
  }

  /** Lower-casing twice is lower-casing once. */
  lemma LowerIdempotent(s: string)
    ensures Lower(Lower(s)) == Lower(s)
  {
    forall i | 0 <= i < |s| ensures LowerChar(LowerChar(s[i])) == LowerChar(s[i]) {
      LowerCharFacts(s[i]);
    }
  }

  /** Python's `str.lstrip()`. */
  function TrimLeft(s: string): (r: string)
    ensures |r| <= |s|
  {
    if |s| > 0 && IsSpace(s[0]) then TrimLeft(s[1..]) else s
  }

  /**
    `lstrip` removes exactly the leading whitespace: what it returns is a
    suffix of its argument that does not start with whitespace.
   */
  lemma {:induction false} TrimLeftFacts(s: string)
    ensures |TrimLeft(s)| <= |s| && TrimLeft(s) == s[|s| - |TrimLeft(s)|..]
    ensures forall i :: 0 <= i < |s| - |TrimLeft(s)| ==> IsSpace(s[i])
    ensures TrimLeft(s) == [] || !IsSpace(TrimLeft(s)[0])
  {
    if |s| > 0 && IsSpace(s[0]) {
      TrimLeftFacts(s[1..]);
      assert forall i :: 1 <= i < |s| ==> s[1..][i - 1] == s[i];
    }
  }

  /** Python's `str.rstrip()`. */
  function TrimRight(s: string): string {
    if |s| > 0 && IsSpace(s[|s| - 1]) then TrimRight(s[..|s| - 1]) else s
  }

  /**
    `rstrip` removes exactly the trailing whitespace: what it returns is a
    prefix of its argument that does not end with whitespace.
   */
  lemma {:induction false} TrimRightFacts(s: string)
    ensures |TrimRight(s)| <= |s| && TrimRight(s) == s[..|TrimRight(s)|]
    ensures forall i :: |TrimRight(s)| <= i < |s| ==> IsSpace(s[i])
    ensures TrimRight(s) == [] || !IsSpace(TrimRight(s)[|TrimRight(s)| - 1])
  {
    if |s| > 0 && IsSpace(s[|s| - 1]) {
      TrimRightFacts(s[..|s| - 1]);
    }
  }

  /** Python's `str.strip()`. */
  function Strip(s: string): string {
    TrimRight(TrimLeft(s))
  }

  /** `strip` leaves no whitespace at either end and never lengthens. */
  lemma StripFacts(s: string)
    ensures |Strip(s)| <= |s| && Stripped(Strip(s))
  {
    TrimLeftFacts(s);
    TrimRightFacts(TrimLeft(s));
    var l := TrimLeft(s);
    var r := TrimRight(l);
    if r != [] {
      assert r[0] == l[0];
    }
  }

  /** `s` has no whitespace at either end. */
  predicate Stripped(s: string) {
    s == [] || (!IsSpace(s[0]) && !IsSpace(s[|s| - 1]))
  }

  lemma StripStripped(s: string)
    requires Stripped(s)
    ensures Strip(s) == s
  {
  }

  /** Stripping a value written after a separator space gives the value back. */
  lemma StripAfterSpace(v: string)
    requires v != [] && Stripped(v)
    ensures Strip(" " + v) == v
  {
    assert (" " + v)[1..] == v;
    assert TrimLeft(" " + v) == TrimLeft(v) == v;
  }

  /** Every whitespace character is a plain space and no two are adjacent. */
  predicate SingleSpaced(s: string) {
    && (forall i :: 0 <= i < |s| && IsSpace(s[i]) ==> s[i] == ' ')
    && (forall i :: 0 <= i < |s| - 1 ==> !(IsSpace(s[i]) && IsSpace(s[i + 1])))
  }

  /** Python's `re.sub(r"\s+", " ", s)`: every whitespace run becomes one space. */
  function CollapseSpaces(s: string): string
    decreases |s|
  {
    if |s| == 0 then ""
    else if IsSpace(s[0]) then " " + CollapseSpaces(TrimLeft(s[1..]))
    else [s[0]] + CollapseSpaces(s[1..])
  }

  /**
    Collapsing keeps the string empty or not, turns a leading whitespace
    character into a plain space, and leaves the result single-spaced.
   */
  lemma {:induction false} CollapseFacts(s: string)
    ensures |s| == 0 <==> |CollapseSpaces(s)| == 0
    ensures |s| > 0 ==> CollapseSpaces(s)[0] == (if IsSpace(s[0]) then ' ' else s[0])
    ensures SingleSpaced(CollapseSpaces(s))
    decreases |s|
  {
    if |s| > 0 {
      if IsSpace(s[0]) {
        var t := TrimLeft(s[1..]);
        TrimLeftFacts(s[1..]);
        CollapseFacts(t);
      } else {
        CollapseFacts(s[1..]);
      }
    }
  }

  /** The result of `_norm` (deck_update.py:10-11). */
  function Norm(s: string): string {
    Lower(Strip(CollapseSpaces(s)))
  }

  /**
    What `_norm` guarantees of its result: lower case, no whitespace at the
    ends, and only single plain spaces inside.
   */
  predicate NormalForm(s: string) {
    && (forall i :: 0 <= i < |s| ==> !IsUpper(s[i]))
    && SingleSpaced(s)
    && Stripped(s)
  }

  lemma SingleSpacedSlice(s: string, a: nat, b: nat)
    requires SingleSpaced(s) && a <= b <= |s|
    ensures SingleSpaced(s[a..b])
  {
    var t := s[a..b];
    forall i | 0 <= i < |t| && IsSpace(t[i]) ensures t[i] == ' ' {
      assert t[i] == s[a + i];
    }
    forall i | 0 <= i < |t| - 1 ensures !(IsSpace(t[i]) && IsSpace(t[i + 1])) {
      assert t[i] == s[a + i] && t[i + 1] == s[a + i + 1];
    }
  }

  lemma StripSingleSpaced(s: string)
    requires SingleSpaced(s)
    ensures SingleSpaced(Strip(s))
  {
    var l := TrimLeft(s);
    TrimLeftFacts(s);
    TrimRightFacts(l);
    SingleSpacedSlice(s, |s| - |l|, |s|);
    SingleSpacedSlice(l, 0, |TrimRight(l)|);
  }

  /** Lower-casing a character leaves whitespace alone and yields no capital. */
  lemma LowerCharFacts(c: char)
    ensures !IsUpper(LowerChar(c))
    ensures IsSpace(LowerChar(c)) <==> IsSpace(c)
    ensures IsSpace(c) ==> LowerChar(c) == c
  {
  }

  /** Lower-casing keeps the spacing of stripped, single-spaced text. */
  lemma LowerNormal(t: string)
    requires SingleSpaced(t) && Stripped(t)
    ensures NormalForm(Lower(t))
  {
    var r := Lower(t);
    forall i | 0 <= i < |t|
      ensures !IsUpper(r[i]) && (IsSpace(r[i]) <==> IsSpace(t[i])) && (IsSpace(t[i]) ==> r[i] == t[i])
    {
      LowerCharFacts(t[i]);
    }
  }

  lemma NormIsNormal(s: string)
    ensures NormalForm(Norm(s))
  {
    var c := CollapseSpaces(s);
    CollapseFacts(s);
    StripFacts(c);
    StripSingleSpaced(c);
    LowerNormal(Strip(c));
  }


  lemma {:induction false} CollapseSingleSpaced(s: string)
    requires SingleSpaced(s)
    ensures CollapseSpaces(s) == s
    decreases |s|
  {
    if |s| > 0 {
      SingleSpacedSlice(s, 1, |s|);
      CollapseSingleSpaced(s[1..]);
      if IsSpace(s[0]) {
        assert |s| > 1 ==> !IsSpace(s[1..][0]);
        assert TrimLeft(s[1..]) == s[1..];
        assert CollapseSpaces(s) == " " + s[1..];
      }
    }
  }

  /** A string already in normal form is left alone by `_norm`. */
  lemma NormalFormFixed(s: string)
    requires NormalForm(s)
    ensures Norm(s) == s
  {
    CollapseSingleSpaced(s);
    assert Strip(s) == s;
    assert Lower(s) == s;
  }

  /** `_norm` is idempotent, and its results are in normal form. */
  lemma NormIdempotent(s: string)
    ensures NormalForm(Norm(s))
    ensures Norm(Norm(s)) == Norm(s)
  {
    NormIsNormal(s);
    NormalFormFixed(Norm(s));
  }

  /** Python's `s.startswith(p)`. */
  predicate StartsWith(s: string, p: string) {
    |p| <= |s| && s[..|p|] == p
  }

  /** Python's `s.startswith(prefixes)` for a tuple of prefixes. */
  predicate StartsWithAny(s: string, prefixes: seq<string>) {
    exists i :: 0 <= i < |prefixes| && StartsWith(s, prefixes[i])
  }

  // ----- `strip().lower()` against `_norm` on a leading word -----

  /** `q` holds no whitespace at all. */
  predicate Solid(q: string) {
    forall i :: 0 <= i < |q| ==> !IsSpace(q[i])
  }

  /** Collapsing whitespace leaves a whitespace-free prefix where it was. */
  lemma {:induction false} CollapseKeepsSolidPrefix(s: string, q: string)
    requires Solid(q) && StartsWith(s, q)
    ensures StartsWith(CollapseSpaces(s), q)
    decreases |q|
  {
    if |q| > 0 {
      assert s[0] == q[0] && !IsSpace(s[0]);
      assert s[1..][..|q| - 1] == q[1..];
      CollapseKeepsSolidPrefix(s[1..], q[1..]);
      assert CollapseSpaces(s) == [s[0]] + CollapseSpaces(s[1..]);
    }
  }

  /** Leading whitespace may be dropped before or after collapsing, when something follows it. */
  lemma TrimLeftCollapse(s: string)
    requires TrimLeft(s) != []
    ensures TrimLeft(CollapseSpaces(s)) == CollapseSpaces(TrimLeft(s))
  {
    var t := TrimLeft(s);
    TrimLeftFacts(s);
    CollapseFacts(t);
    var x := CollapseSpaces(t);
    assert x != [] && !IsSpace(x[0]);
    if IsSpace(s[0]) {
      assert TrimLeft(s[1..]) == t;
      assert CollapseSpaces(s) == " " + x;
      assert (" " + x)[1..] == x;
    } else {
      assert t == s;
    }
  }

  /** Trailing whitespace never reaches into a whitespace-free prefix. */
  lemma TrimRightKeepsSolidPrefix(s: string, q: string)
    requires |q| > 0 && Solid(q) && StartsWith(s, q)
    ensures StartsWith(TrimRight(s), q)
  {
    TrimRightFacts(s);
    assert s[|q| - 1] == q[|q| - 1];
    var r := TrimRight(s);
    assert |q| <= |r|;
    assert r[..|q|] == s[..|r|][..|q|] == s[..|q|];
  }

  /**
    A label whose stripped, lower-cased form starts with a word without
    whitespace has a `_norm` form that starts with that word too.
   */
  lemma StripLowerPrefixNorm(l: string, p: string)
    requires |p| > 0 && Solid(p) && StartsWith(Lower(Strip(l)), p)
    ensures StartsWith(Norm(l), p)
  {
    var st := Strip(l);
    var q := st[..|p|];
    forall i | 0 <= i < |q| ensures !IsSpace(q[i]) && LowerChar(q[i]) == p[i] {
      assert Lower(st)[i] == p[i];
      LowerCharFacts(q[i]);
    }
    var t := TrimLeft(l);
    TrimRightFacts(t);
    assert StartsWith(t, q) by {
      assert t[..|p|] == t[..|st|][..|p|];
    }
    CollapseKeepsSolidPrefix(t, q);
    TrimLeftCollapse(l);
    TrimRightKeepsSolidPrefix(CollapseSpaces(t), q);
    var n := Strip(CollapseSpaces(l));
    assert StartsWith(n, q);
    assert Lower(n)[..|p|] == p by {
      forall i | 0 <= i < |p| ensures Lower(n)[i] == p[i] {
        assert n[i] == q[i];
      }
    }
  }

  /** Python's `sub in s`. */
  predicate Contains(s: string, sub: string)
    decreases |s|
  {
    StartsWith(s, sub) || (|s| > 0 && Contains(s[1..], sub))
  }

  lemma {:induction false} ContainsInSuffix(a: string, b: string, sub: string)
    requires Contains(b, sub)
    ensures Contains(a + b, sub)
    decreases |a|
  {
    if |a| > 0 {
      ContainsInSuffix(a[1..], b, sub);
      assert (a + b)[1..] == a[1..] + b;
    } else {
      assert a + b == b;
    }
  }

  lemma {:induction false} ContainsExtend(a: string, b: string, sub: string)
    requires Contains(a, sub)
    ensures Contains(a + b, sub)
    decreases |a|
  {
    if StartsWith(a, sub) {
      assert (a + b)[..|sub|] == a[..|sub|];
    } else {
      ContainsExtend(a[1..], b, sub);
      assert (a + b)[1..] == a[1..] + b;
    }
  }

  /** Python's `s.split(c, 1)` when `c` occurs: the text before and after its first occurrence. */
  function SplitFirst(s: string, c: char): (r: (string, string))
    requires c in s
    ensures c !in r.0
    ensures s == r.0 + [c] + r.1
  {
    var k := Common.IndexOf(s, c);
    assert s == s[..k] + [c] + s[k + 1..];
    (s[..k], s[k + 1..])
  }

  /** Splitting `w + [c] + f` at its first `c` when `w` has none gives `w` and `f`. */
  lemma SplitFirstAt(w: string, c: char, f: string)
    requires c !in w
    ensures c in w + [c] + f
    ensures SplitFirst(w + [c] + f, c) == (w, f)
  {
    var s := w + [c] + f;
    assert s[|w|] == c;
    var k := Common.IndexOf(s, c);
    assert forall j :: 0 <= j < |w| ==> s[j] == w[j];
    assert k == |w|;
    assert s[..k] == w;
    assert s[k + 1..] == f;
  }

  /** Index of the first line boundary in `s`, or `|s|`. */
  function LineEnd(s: string): (i: nat)
    ensures i <= |s|
    ensures i < |s| ==> IsLineBreak(s[i])
    ensures forall j :: 0 <= j < i ==> !IsLineBreak(s[j])
  {
    if |s| == 0 || IsLineBreak(s[0]) then 0 else 1 + LineEnd(s[1..])
  }

  /** Python's `str.splitlines()`: no final empty line, `\r\n` is one boundary. */
  function SplitLines(s: string): seq<string>
    decreases |s|
  {
    if |s| == 0 then []
    else
      var i := LineEnd(s);
      if i == |s| then [s]
      else
        var next := if s[i] == '\r' && i + 1 < |s| && s[i + 1] == '\n' then i + 2 else i + 1;
        [s[..i]] + SplitLines(s[next..])
  }

  /** Python's `"\n".join(lines)`. */
  function JoinLines(lines: seq<string>): string {
    if |lines| == 0 then ""
    else if |lines| == 1 then lines[0]
    else lines[0] + "\n" + JoinLines(lines[1..])
  }

  /** `"\n".join` over one more line. */
  lemma {:induction false} JoinLinesSnoc(lines: seq<string>, l: string)
    ensures JoinLines(lines + [l]) == if |lines| == 0 then l else JoinLines(lines) + "\n" + l
  {
    if |lines| > 1 {
      assert (lines + [l])[1..] == lines[1..] + [l];
      JoinLinesSnoc(lines[1..], l);
    } else if |lines| == 1 {
      assert (lines + [l])[1..] == [l];
    }
  }

  /** A break-free first line followed by `\n` splits off as one line. */
  lemma SplitLinesCons(a: string, rest: string)
    requires a != "" && NoLineBreak(a)
    ensures SplitLines(a + "\n" + rest) == [a] + SplitLines(rest)
  {
    var s := a + "\n" + rest;
    assert s[|a|] == '\n';
    assert forall j :: 0 <= j < |a| ==> s[j] == a[j];
    assert LineEnd(s) == |a|;
    assert s[..|a|] == a;
    assert s[|a| + 1..] == rest;
  }

  /**
    Splitting the join of non-empty, break-free lines gives the lines back:
    the line layer of the annotation codec loses nothing.
   */
  lemma {:induction false} SplitJoin(lines: seq<string>)
    requires forall k :: 0 <= k < |lines| ==> lines[k] != "" && NoLineBreak(lines[k])
    ensures SplitLines(JoinLines(lines)) == lines
  {
    if |lines| == 1 {
      assert LineEnd(lines[0]) == |lines[0]|;
    } else if |lines| > 1 {
      SplitLinesCons(lines[0], JoinLines(lines[1..]));
      SplitJoin(lines[1..]);
    }
  }
}
